=== FILE: README.md ===
# Glean assistants and Jira ticket form — a Dafny model

The repository holds three small browser front ends, each written as one
script:

- a voice assistant (`voice.js`), which records a spoken question, streams
  the chat service's answer and reads it aloud;
- a text assistant for ERP integration questions (`accounting.js`), which
  asks the same chat service and shows the answer as HTML rendered from
  markdown;
- a Jira ticket form (`app.js`), which normalises and stores the Jira
  settings, then files tickets.

This project models the logic of those scripts as pure Dafny functions and
proves what they promise. The modules follow the scripts' structure:

- `Chat`: the message shapes both assistants share. Picks the answer
  message, its text and its follow-up prompts.
- `Stream`: the voice assistant's reader of the streamed answer. It covers
  the line buffer, the parsing of each line, the last chunk and last text,
  and the end-of-stream checks.
- `VoiceMachine`: the voice assistant's phases (idle, listening, thinking,
  speaking) and the events that move between them.
- `Speech`: `stripMarkdown`, the cleanup of the answer before it is spoken.
- `TextAssistant`: the text assistant's handling of one response, its
  session token and its ask button.
- `Escape`, `Markup`, `Rules`, `Tables`, `Lists`, `Paragraphs`,
  `Markdown`: `renderMarkdown` and the helpers it calls.
  - `Markup` reads the text being rewritten as tokens: input characters
    and whole tags.
  - `Rules` holds each pass's pattern as a leftmost-match function.
  - `Markdown` chains the passes in source order.
- `RenderCases`: end-to-end renderings of small inputs.
- `Tickets`: the settings form, the issue body, the ticket link and the
  error text of `app.js`.
- `Seqs`, `Text`, `Wrappers`: the JavaScript string and array operations
  the scripts use (`split`, `join`, `trim`, `slice`, `filter`,
  `toUpperCase`), with JavaScript's whitespace and line-terminator sets.

Network requests, the clock, the speech engines and JSON parsing are not
executed. The model takes their results as parameters:

- a stream becomes the sequence of text pieces the decoder produced;
- `JSON.parse` becomes a parser function;
- a fetch failure becomes an event carrying its message.

Three behaviours of the code are easy to misread. The model follows the code in each.

- **Blank paragraph chunks are kept.** The paragraph pass of
  `renderMarkdown` turns a blank chunk into `''` (accounting.js:403). The
  `join('\n')` at accounting.js:408 keeps that empty string, so a blank
  chunk adds a newline to the output instead of disappearing.
  `Paragraphs.BlankChunk` states that the chunk itself becomes empty.
- **Images are spoken as `!alt`.** In `stripMarkdown` the link rule runs
  before the image rule (voice.js:377-378). So `![alt](src)` first becomes
  `!alt`. The image rule removes only image syntax that is still there
  after the link rule. One example is `![](src)` with nothing after it,
  which the link rule skips because its label is empty. Another is the
  linked image `[![a](b)](c)`: the link rule turns it into `![a](c)`, and
  the image rule then deletes all of it.
- **The text assistant takes the token early.** It takes over a response's
  session token before it checks the response for a message
  (accounting.js:256-266). The voice assistant does so only after a
  successful answer (voice.js:285-287).

## Model

| member | source | states |
|---|---|---|
| Seqs.SplitJoin | voice.js:247 | splitting on a separator undoes joining separator-free pieces with it |
| Seqs.SplitCount | accounting.js:439 | `split` gives one more piece than there are separators |
| Seqs.SplitAppend | voice.js:246-248 | the pieces of a concatenation are the two parts' pieces with the seam glued |
| Seqs.SplitExtend | voice.js:246-248 | appending text only re-splits the last piece; earlier pieces are final |
| Seqs.Take | voice.js:298 | `slice(0, n)` keeps a prefix of at most n elements, all of them when there are fewer |
| Seqs.TrimBy | voice.js:251 | `trim()` gives the infix between the leading and trailing whitespace, starting and ending with non-whitespace |
| Seqs.TrimRemoved | voice.js:251 | everything `trim()` removes is whitespace |
| Seqs.TrimEmptyIff | voice.js:252 | a line is blank after trimming exactly when every character is whitespace |
| Text.TrimTwice | accounting.js:402 | trimming twice is trimming once |
| Text.ToUpper | app.js:23 | upper-casing keeps the length and leaves no lower-case ASCII letter |
| Chat.LastAiIndex | voice.js:259 | finds the last `GLEAN_AI` message, with no assistant message after it, or reports that there is none |
| Chat.SelectMessage | accounting.js:260-262 | a response yields an answer message exactly when it has messages |
| Chat.SelectMessageSpec | voice.js:259-260 | the answer is the last assistant message when one exists, else the last message |
| Chat.StringTexts | accounting.js:268-270 | the result is empty exactly when no fragment has a string text; every kept text is some fragment's text |
| Chat.StringTextsSingle | accounting.js:268-270 | one fragment gives its text when it has one, and nothing otherwise |
| Chat.StringTextsAppend | accounting.js:268-270 | the texts of two fragment lists in a row are the first list's texts followed by the second's, so the texts keep the fragments' order |
| Chat.MessageTextEmptyIff | accounting.js:268-276 | a message's text is empty exactly when all its string fragments are whitespace, for either whitespace joiner |
| Chat.JoinAllSpaceIff | voice.js:262-266 | a whitespace join is all whitespace exactly when every part is |
| Chat.Prompts | accounting.js:283 | the message's prompt list wins whenever it is present, even if empty; when the message has none, the response's list is used; otherwise none; a non-empty result is one of the two lists |
| Stream.ProcessLine | voice.js:250-273 | a line that does not parse changes nothing; a parsed line always becomes `lastData`; `lastText` changes only to a non-empty chunk text |
| Stream.ProcessLinesAppend | voice.js:250 | processing two batches of lines equals processing them in sequence |
| Stream.UnparsedLinesChangeNothing | voice.js:273 | lines that are blank or not JSON leave the reader's state alone |
| Stream.LastDataIsLastParsed | voice.js:254-255 | `lastData` is the value of the last line that parses |
| Stream.TextlessLinesKeepText | voice.js:261-271 | lines without answer text keep the last text |
| Stream.LastTextIsLastNonEmpty | voice.js:267-268 | snapshots overwrite: `lastText` is the text of the last line that has text |
| Stream.Feed | voice.js:246-248 | after a piece, the buffer holds no newline |
| Stream.CompleteLinesStep | voice.js:246-248 | a piece adds the completed lines of the old buffer plus the piece, and leaves their last segment as the new buffer |
| Stream.FeedAllSpec | voice.js:242-275 | after any pieces the buffer is the unterminated tail and exactly the complete lines were processed, in order |
| Stream.ChunkingIndependence | voice.js:242-275 | the same text cut into pieces differently gives the same reader state |
| Stream.SameAsOnePiece | voice.js:242-275 | reading pieces is the same as reading their concatenation at once |
| Stream.TailAfterBoundary | voice.js:247-248 | after a line boundary, a newline-free tail adds no complete line and becomes the buffer |
| Stream.UnterminatedTailIgnored | voice.js:242-277 | a final segment without a newline is never parsed |
| Stream.ReadStream | voice.js:236-275 | the reading loop yields the state of the complete lines and leaves the tail as a newline-free buffer |
| Stream.Finish | voice.js:277-298 | nothing parsed or a falsy last value is "no response"; no text is "empty"; otherwise the last text, the new or kept session token, and as follow-ups the first three prompts of the chosen list (the message's, else the response's) |
| Stream.NothingParsedNothingRead | voice.js:277-279 | if no complete line parses, the reader is left in its initial state |
| Stream.Exchange | voice.js:236-298 | the outcome is fixed by the complete lines alone; with no parseable line it is "no response" |
| Stream.FalsyLastValue | voice.js:254-279 | a falsy JSON value on the last parsed line gives "no response", whatever came before it |
| TextAssistant.Respond | accounting.js:256-286 | the response's token, when set, replaces the held one; no messages means "no response"; as follow-ups the first four prompts of the chosen list (the message's, else the response's) |
| TextAssistant.RespondAnswer | accounting.js:264-279 | a response with messages is "empty" exactly when the answer's string fragments are all whitespace; otherwise the rendered markdown of the newline-joined text is shown |
| TextAssistant.AgreesWithVoice | accounting.js:268-276 | the text and voice assistants agree on whether a single response has an answer |
| TextAssistant.JoinersAgree | accounting.js:271 | newline-joined text is blank exactly when space-joined text is |
| TextAssistant.FreshConversation | accounting.js:316-323 | changing the ERP or starting a new question clears the session; a new question also disables asking |
| TextAssistant.AskEnabledIff | accounting.js:179-181 | the ask button is enabled exactly when an ERP is chosen and the question has a non-whitespace character |
| TextAssistant.TokenBeforeChecks | accounting.js:256-258 | a response's token is kept even when the response has no answer |
| VoiceMachine.RecognitionErrorMessage | voice.js:155-161 | an unknown error code gives the generic message naming the code |
| VoiceMachine.Visibility | voice.js:86-119 | the mic button and the hint show exactly when idle, the stop button exactly when not, and each phase has its own status |
| VoiceMachine.MicOnlyFromIdle | voice.js:390-411 | the mic starts recognition only when idle and recognition exists; it never changes the phase |
| VoiceMachine.StartOnlyFromIdle | voice.js:390-411 | recognition is started only by a mic click while idle |
| VoiceMachine.StopTransitions | voice.js:413-427 | stop aborts when thinking, cancels speech when speaking, and goes idle in both cases; while listening it only stops recognition |
| VoiceMachine.EndOfListening | voice.js:165-172 | the end of listening asks the trimmed transcript exactly when it is not blank; a blank transcript goes back to idle with no effect |
| VoiceMachine.EndOutsideListening | voice.js:165-172 | the end of recognition outside listening does nothing |
| VoiceMachine.AskFailure | voice.js:321-325 | an aborted request changes nothing; any other failure shows its message and goes idle |
| VoiceMachine.ResultsExtendTranscript | voice.js:142-153 | recognition results keep the phase and only extend the final transcript |
| VoiceMachine.InterimOnly | voice.js:144-151 | results with no final part add nothing to the final transcript |
| VoiceMachine.ResultsAskNothing | voice.js:142-153 | results only update the shown transcript |
| VoiceMachine.EndAsksTranscript | voice.js:165-190 | only listening with a saved token and a non-blank transcript asks, and it asks the trimmed transcript while moving to thinking |
| VoiceMachine.AskedQuestionsAreAskable | voice.js:165-168 | in any run of events, every question asked is trimmed and non-empty |
| Speech.MatchHashes | voice.js:371 | the heading rule matches exactly at a `#` and removes what it matches |
| Speech.MatchLink | voice.js:377 | a link match starts at `[` and is replaced by the text right after it |
| Speech.HashesGone | voice.js:371 | the heading pass leaves no `#` |
| Speech.NewlinesGone | voice.js:382 | the newline pass leaves no newline |
| Speech.SpaceRunsCollapse | voice.js:383 | the whitespace pass leaves no two whitespace characters together, and keeps whether the text is empty or starts with whitespace |
| Speech.ScanKeeps | voice.js:370-383 | a pass never introduces a character absent from its input and from its replacement |
| Speech.InlineMarksNoHash | voice.js:371-378 | after the markup rules no `#` is left |
| Speech.SpacingSettles | voice.js:381-383 | after the spacing rules there is no newline and no doubled whitespace, and no `#` is added |
| Speech.Spoken | voice.js:369-385 | the spoken text is trimmed, has no `#`, no newline and no two whitespace characters together |
| Speech.LinkSpeaksLabel | voice.js:377 | `[label](url)` is spoken as `label` |
| Speech.ImageLinkPass | voice.js:377 | the link rule turns `![alt](src)` into `!alt` |
| Speech.ImageSpeaksAlt | voice.js:377-378 | `![alt](src)` is spoken as `!alt`, since the link rule runs first |
| Speech.ParagraphsPause | voice.js:381 | two plain paragraphs separated by any number (two or more) of newlines are spoken as `a. b` |
| Escape.ReplaceChar | accounting.js:444 | a replaced character does not survive unless the replacement holds it |
| Escape.EscapeHtmlIsPerChar | accounting.js:442-448 | the chain of four replacements, `&` first, equals escaping each character on its own: no entity is escaped twice |
| Escape.EscapeAppend | accounting.js:442-448 | escaping distributes over concatenation |
| Escape.EscapeHtmlSafe | accounting.js:442-448 | the escaped text has no `<`, `>` or `"`, and every `&` begins one of the four entities |
| Escape.UnescapeEscape | accounting.js:442-448 | decoding the escaped text gives the input back |
| Markup.SerializeChars | accounting.js:352 | input characters written back are the input |
| Markup.SerializeClean | accounting.js:350-411 | in text made of input characters and renderer tags, every `<` begins a renderer tag |
| Markup.NoScriptPrefix | accounting.js:350-411 | no renderer tag begins with `<script` |
| Markup.LineLenStops | accounting.js:363 | `.+` stops at the first line terminator and at nothing before it |
| Rules.MatchAt | accounting.js:354-398 | a match takes at least one token, and a line-anchored rule matches only at a line start |
| Rules.ScanClean | accounting.js:354-398 | no pass adds a raw `<` or a tag the renderer does not emit |
| Rules.ScanFixed | accounting.js:354-398 | a pass that matches nowhere copies its input |
| Rules.AnchoredOneLine | accounting.js:363-379 | a `^`-anchored pass leaves alone a single line whose start it does not match |
| Rules.MatchClean | accounting.js:355-379 | every replacement holds only renderer tags and tokens of the match |
| RenderCases.FencedPass | accounting.js:355-357 | a fence, with or without a language word, then a newline and backtick-free code, becomes `<pre><code>` around the trimmed code; the language word is dropped |
| RenderCases.InlineCodePass | accounting.js:360 | backtick-quoted one-line text becomes a `<code>` span |
| RenderCases.HeadingPass | accounting.js:363-366 | the heading pass of a line's own level makes it a heading |
| RenderCases.OtherHeadingPass | accounting.js:363-366 | the heading passes of other levels leave the line alone |
| RenderCases.EmphasisPass | accounting.js:369-373 | text between two delimiters on one line, without the delimiter's character, is wrapped in the pass's tags |
| RenderCases.TripleEmphasisPasses | accounting.js:369-373 | the five emphasis passes in order make `***x***` bold italic |
| RenderCases.ListPass | accounting.js:384-398 | item lines joined by newlines, indented or not, become one list with one item per line holding the line's text trimmed |
| RenderCases.RenderHeading | accounting.js:350-411 | `#`×n, a space and plain text render as `<hn>text</hn>` |
| RenderCases.RenderStrongEm | accounting.js:350-411 | `***text***` renders as `<p><strong><em>text</em></strong></p>` |
| Tables.RowLen | accounting.js:416 | a row starts with `|` at a line start, is at least three tokens long, holds no line break before its end, and ends with a `|` or a newline |
| Tables.RowEndsAtLastPipe | accounting.js:416 | the row's text ends with the last `|` of its line; no `|` follows it on the line, and a newline is taken only when it directly follows that pipe |
| Tables.StripPipes | accounting.js:439 | at most one leading and one trailing pipe are removed |
| Tables.ParseTableRowCells | accounting.js:438-440 | one cell more than the interior pipes; no cell holds a pipe or has whitespace at either end |
| Tables.ParseFormatRow | accounting.js:438-440 | parsing a row written from trimmed, pipe-free cells gives the cells back |
| Tables.TableLinesOfJoin | accounting.js:418 | for lines joined by newlines with no whitespace at the block's ends, the kept lines are exactly the non-blank ones, in order |
| Tables.ParseTableText | accounting.js:413-440 | a table written as a header row, a separator and body rows, each row from trimmed cells without pipes, is read back as the same header and body |
| Tables.TwoByTwo | accounting.js:413-440 | a two-column table with two body rows, written out line by line, is read back as that table |
| Tables.TableBlockClean | accounting.js:413-436 | a block that is not a table is returned unchanged; a clean block gives clean HTML |
| Lists.MarkerLen | accounting.js:385 | a marker ends with a space and fits in the line |
| Lists.BlockStartsWithMarker | accounting.js:385-393 | a list block begins with indentation or the marker itself |
| Lists.WellFormedList | accounting.js:384-398 | a run of item lines, indented or not, is taken whole and becomes one list whose items are the lines' texts after the marker, trimmed |
| Lists.ItemTextOfLine | accounting.js:387 | an item's text is what follows its marker, trimmed, whatever the indentation before the marker |
| Lists.ListBlockClean | accounting.js:385-398 | a clean list block gives clean HTML |
| Paragraphs.ChunksHaveNoBreak | accounting.js:401 | no chunk holds two newlines in a row |
| Paragraphs.SplitJoinedParagraphs | accounting.js:401 | chunks joined by blank lines split back into the same chunks |
| Paragraphs.Breaks | accounting.js:407 | every newline becomes `<br>` and nothing else changes |
| Paragraphs.BlankChunk | accounting.js:402-403 | a chunk becomes empty exactly when it is blank |
| Paragraphs.KeptBlock | accounting.js:405 | a chunk with no blank line that starts with a block tag and does not end in whitespace is kept as it is, whatever text follows the tag |
| Paragraphs.WrappedParagraph | accounting.js:407 | any other trimmed chunk is wrapped in `<p>` with its newlines as `<br>` |
| Paragraphs.ParagraphsClean | accounting.js:401-408 | the paragraph pass adds no raw `<` and no unknown tag |
| Markdown.InputClean | accounting.js:352 | the escaped input holds no `<` |
| Markdown.RenderSafe | accounting.js:350-411 | for any input, every `<` of the output begins a renderer tag and `<script` occurs nowhere |
| Tickets.StripScheme | app.js:20 | at most one leading `http://` or `https://` is removed; the result differs from the input exactly when one was there |
| Tickets.StripSlash | app.js:20 | at most one trailing slash is removed, exactly when there is one |
| Tickets.DomainFromAddress | app.js:20 | a site address with scheme and trailing slash normalises to its bare domain |
| Tickets.DomainKept | app.js:20 | a domain that is already bare is kept |
| Tickets.DomainEmptyIff | app.js:20 | the domain is empty exactly when the trimmed field is only a scheme and/or a slash |
| Tickets.ProjectKey | app.js:23 | the key has no lower-case ASCII letter and is empty exactly when the field is blank |
| Tickets.ProjectKeyStable | app.js:23 | normalising a stored key again changes nothing |
| Tickets.SaveSettings | app.js:20-30 | settings are stored, normalised, exactly when all four normalised fields are non-empty; otherwise the "fill in all" error |
| Tickets.SaveSettingsIff | app.js:20-28 | storing succeeds exactly when email, token and project have a non-whitespace character and the domain is more than a scheme and a slash |
| Tickets.SavedFieldsStable | app.js:21-23 | stored email, token and project are fixed points of their normalisation |
| Tickets.IssueBody | app.js:46-79 | the body carries the stored project key, the trimmed summary, the chosen type and priority, and a version-1 document with one paragraph |
| Tickets.IssueBodyDescription | app.js:66-77 | the document holds exactly the trimmed description; a blank description gives a paragraph with no text node |
| Tickets.TicketUrlParts | app.js:94 | the link's last segment is the key and the domain follows the scheme |
| Tickets.ErrorMessage | app.js:98 | the error text is never empty; it is the joined server messages whenever they join to text, else the `errors` text when that is non-empty, else "Unknown error" |
| Tickets.JoinEmptyIff | app.js:98 | joining gives no text exactly when there is at most one message and it is empty |
| Tickets.ErrorMessageChoice | app.js:98 | two messages or one non-empty message win; otherwise the `errors` text when it is non-empty, else "Unknown error" |

## Left out

- worker.js, the proxy in front of the chat service, is not part of this model.
- Page updates (element visibility, text content, `innerHTML`), `localStorage` and `loadSettings` are left out. The model returns what would be shown or stored.
- `fetch`, `AbortController`, HTTP status handling and the text of HTTP errors (voice.js:226-231, accounting.js:247-252) are left out. A failed or aborted request is an event carrying its message.
- `TextDecoder` is left out. A stream is given as the decoded text pieces.
- Strings are sequences of Dafny characters (Unicode scalar values), not JavaScript's UTF-16 code units. A surrogate pair is one character here.
- `JSON.parse` is a parser parameter. Object fields are read by their truthiness:
  - on the voice assistant's stream, a falsy value (`null`, `false`, `0`, `""`) is kept as a distinct value;
  - any other value is read as a chunk, and missing fields are absent.
- A chunk whose `messages` or `fragments` array holds `null` is not modelled. In the source, reading such a chunk throws after `lastData` was set (voice.js:255-262), and the throw is swallowed. A non-array `errorMessages` that makes `join` throw (app.js:98) is not modelled either.
- TextAssistant.Respond: the response body is taken to be an object. A `null` or other falsy body, for which reading `data.chatSessionTrackingToken` throws before any check (accounting.js:256) and the thrown message is shown (accounting.js:305-307), is not modelled.
- Tickets.ErrorMessage: the `errors` object is given as its JSON text, already serialised.
- Text.ToUpper: only ASCII letters are upper-cased; see the next line.
- Tickets.ProjectKey: upper-casing covers ASCII letters only. `toUpperCase` also maps other scripts' letters and can lengthen a string (`ß` becomes `SS`).
- The speech engines are left out: recognition setup, voice choice, rate and pitch (voice.js:124-133, 331-364).
- Follow-up buttons that ask again (voice.js:298-313, accounting.js:286-299) are left out. So are the quick chips and ERP metadata of the text assistant.
- The text assistant's contextual prompt wrapping (accounting.js:193-198, 292-294) is left out. So are its missing-token check and request payload (accounting.js:201-231).
- The ticket form's check that settings are present before submitting (app.js:39-44) is left out, as is the `btoa` credential encoding (app.js:57).
- Speech.LinkSpeaksLabel: states the link rule only for a plain label (letters, digits and single spaces) and a target without markup characters. Speech.Spoken holds for every input.
- Speech.ImageLinkPass: states the link pass on an image only for a plain alternative text and a target without markup characters. Other images, such as linked images, are not described.
- Speech.ImageSpeaksAlt: states that an image is spoken as `!alt` only for a plain alternative text and target.
- Speech.ParagraphsPause: states the paragraph pause only for plain paragraphs.
- Lists.WellFormedList: the first line must start with its marker and the last item's text must end with a non-space. The block's `trim()` (accounting.js:386) then touches no marker or text. An indented first line or trailing whitespace on the last line are accepted by the source but not covered here.
- RenderCases.ListPass: the same two limits as Lists.WellFormedList.
- RenderCases.FencedPass: covers a fence whose language word is followed by a newline; a fence with code on the opening line is not described.
- RenderCases.RenderHeading: states the end-to-end rendering only for plain heading text. Markdown.RenderSafe holds for every input.
- RenderCases.RenderStrongEm: states the end-to-end rendering only for plain text.

=== FILE: chat.dfy ===
/** The chat service's message shapes and the logic both assistants share:
    choosing the answer message of a response, reading its text, choosing
    the follow-up prompts, and the two ways an answer can be missing
    (voice.js:258-266, 277-282, 290-295; accounting.js:260-276, 283). */
module Chat {
  import opened Wrappers
  import Seqs
  import Text

  /** A message fragment; `text` is `None` when the fragment's `text` field
      is absent or not a string. */
  datatype Fragment = Fragment(text: Option<string>)

  datatype Message = Message(author: string, fragments: seq<Fragment>, followUpPrompts: Option<seq<string>>)

  /** One decoded response object, or one line of a streamed response. */
  datatype Chunk = Chunk(sessionToken: Option<string>, messages: seq<Message>, followUpPrompts: Option<seq<string>>)

  const AiAuthor: string := "GLEAN_AI"

  /** Why a response gives no answer. */
  datatype AnswerError = NoResponse | EmptyAnswer

  /** The message both assistants show for each error. */
  function ErrorMessage(e: AnswerError): string {
    match e
    case NoResponse => "Glean returned no response. Check your token and backend URL."
    case EmptyAnswer => "Glean response was empty."
  }

  /** A session token counts only when present and non-empty (JavaScript
      truthiness of a string). */
  predicate IsSet(token: Option<string>) {
    token.Some? && token.value != ""
  }

  /** Index of the last message written by the assistant. */
  function LastAiIndex(msgs: seq<Message>): (r: Option<nat>)
    ensures r.Some? ==> r.value < |msgs| && msgs[r.value].author == AiAuthor
    ensures r.Some? ==> forall j :: r.value < j < |msgs| ==> msgs[j].author != AiAuthor
    ensures r.None? ==> forall j :: 0 <= j < |msgs| ==> msgs[j].author != AiAuthor
  {
    if |msgs| == 0 then None
    else if msgs[|msgs| - 1].author == AiAuthor then Some(|msgs| - 1)
    else LastAiIndex(msgs[..|msgs| - 1])
  }

  /** The answer message of a response: the last assistant message, else
      the last message of any author, else none. */
  function SelectMessage(msgs: seq<Message>): (r: Option<Message>)
    ensures r.None? <==> |msgs| == 0
  {
    match LastAiIndex(msgs)
    case Some(i) => Some(msgs[i])
    case None => if |msgs| == 0 then None else Some(msgs[|msgs| - 1])
  }

  /** The selection rule in full: with an assistant message present, the
      selected message is one whose every later message is from another
      author; with none present, it is the last message. */
  lemma SelectMessageSpec(msgs: seq<Message>)
    ensures SelectMessage(msgs).Some? ==> SelectMessage(msgs).value in msgs
    ensures (exists i :: 0 <= i < |msgs| && msgs[i].author == AiAuthor) ==>
              exists i :: 0 <= i < |msgs| && SelectMessage(msgs) == Some(msgs[i]) && msgs[i].author == AiAuthor
                && forall j :: i < j < |msgs| ==> msgs[j].author != AiAuthor
    ensures |msgs| > 0 && (forall i :: 0 <= i < |msgs| ==> msgs[i].author != AiAuthor) ==>
              SelectMessage(msgs) == Some(msgs[|msgs| - 1])
  {
  }

  /** The string-valued fragment texts, in order. */
  function StringTexts(frags: seq<Fragment>): (r: seq<string>)
    ensures |r| <= |frags|
    ensures forall t :: t in r ==> Fragment(Some(t)) in frags
    ensures r == [] <==> forall i :: 0 <= i < |frags| ==> frags[i].text.None?
  {
    if |frags| == 0 then []
    else match frags[0].text
      case Some(t) => [t] + StringTexts(frags[1..])
      case None => StringTexts(frags[1..])
  }

  /** The string texts of one fragment: its text when it is a string,
      nothing otherwise. Together with `StringTextsAppend` this fixes
      `StringTexts` on every fragment list: each string is kept, once, in
      fragment order. */
  lemma StringTextsSingle(f: Fragment)
    ensures f.text.Some? ==> StringTexts([f]) == [f.text.value]
    ensures f.text.None? ==> StringTexts([f]) == []
  {
    assert [f][1..] == [];
  }

  /** The string texts of two fragment lists in a row are those of the
      first followed by those of the second. */
  lemma {:induction false} StringTextsAppend(a: seq<Fragment>, b: seq<Fragment>)
    ensures StringTexts(a + b) == StringTexts(a) + StringTexts(b)
  {
    if |a| > 0 {
      assert (a + b)[0] == a[0];
      assert (a + b)[1..] == a[1..] + b;
      StringTextsAppend(a[1..], b);
    } else {
      assert a + b == b;
    }
  }

  /** The text of a message: its string fragments joined with `joiner`,
      then trimmed. The voice assistant joins with a space, the text
      assistant with a newline. */
  function MessageText(m: Message, joiner: string): string {
    Text.Trim(Seqs.Join(StringTexts(m.fragments), joiner))
  }

  /** A message has empty text exactly when every string fragment is
      whitespace only, whichever whitespace joiner is used. */
  lemma MessageTextEmptyIff(m: Message, joiner: string)
    requires forall i :: 0 <= i < |joiner| ==> Text.IsSpace(joiner[i])
    ensures MessageText(m, joiner) == "" <==>
      forall t :: t in StringTexts(m.fragments) ==> forall i :: 0 <= i < |t| ==> Text.IsSpace(t[i])
  {
    var parts := StringTexts(m.fragments);
    var joined := Seqs.Join(parts, joiner);
    Text.TrimEmptyIff(joined);
    JoinAllSpaceIff(parts, joiner);
  }

  predicate AllSpace(s: string) {
    forall i :: 0 <= i < |s| ==> Text.IsSpace(s[i])
  }

  lemma {:induction false} JoinAllSpaceIff(parts: seq<string>, joiner: string)
    requires AllSpace(joiner)
    ensures AllSpace(Seqs.Join(parts, joiner)) <==> forall t :: t in parts ==> AllSpace(t)
  {
    if |parts| > 1 {
      JoinAllSpaceIff(parts[1..], joiner);
      var rest := Seqs.Join(parts[1..], joiner);
      var whole := parts[0] + joiner + rest;
      assert Seqs.Join(parts, joiner) == whole;
      assert AllSpace(whole) <==> AllSpace(parts[0]) && AllSpace(rest) by {
        if AllSpace(parts[0]) && AllSpace(rest) {
          forall i | 0 <= i < |whole| ensures Text.IsSpace(whole[i]) {
            if i < |parts[0]| {
              assert whole[i] == parts[0][i];
            } else if i < |parts[0]| + |joiner| {
              assert whole[i] == joiner[i - |parts[0]|];
            } else {
              assert whole[i] == rest[i - |parts[0]| - |joiner|];
            }
          }
        }
        if AllSpace(whole) {
          forall i | 0 <= i < |parts[0]| ensures Text.IsSpace(parts[0][i]) {
            assert whole[i] == parts[0][i];
          }
          forall i | 0 <= i < |rest| ensures Text.IsSpace(rest[i]) {
            assert whole[|parts[0]| + |joiner| + i] == rest[i];
          }
        }
      }
      assert forall t :: t in parts <==> t == parts[0] || t in parts[1..] by {
        assert parts == [parts[0]] + parts[1..];
      }
    }
  }

  /** Follow-up prompts of a response: those of the answer message when it
      has a list, else those of the response, else none. A present but empty
      list on the message still wins, as an array is truthy. */
  function Prompts(data: Chunk, answer: Option<Message>): (r: seq<string>)
    ensures r != [] ==> (answer.Some? && answer.value.followUpPrompts == Some(r)) || data.followUpPrompts == Some(r)
    ensures answer.Some? && answer.value.followUpPrompts.Some? ==> r == answer.value.followUpPrompts.value
    ensures data.followUpPrompts.None? && (answer.None? || answer.value.followUpPrompts.None?) ==> r == []
    ensures data.followUpPrompts.Some? && (answer.None? || answer.value.followUpPrompts.None?) ==> r == data.followUpPrompts.value
  {
    if answer.Some? && answer.value.followUpPrompts.Some? then answer.value.followUpPrompts.value
    else if data.followUpPrompts.Some? then data.followUpPrompts.value
    else []
  }
}

=== FILE: escape.dfy ===
/** The renderer's guard against raw markup (accounting.js:442-448): four
    global replacements, `&` first, then `<`, `>` and `"`. */
module Escape {

  /** `str.replace(/c/g, rep)` for a one-character pattern. */
  function ReplaceChar(s: string, c: char, rep: string): (r: string)
    ensures c !in rep ==> c !in r
    ensures c !in s ==> r == s
  {
    if |s| == 0 then ""
    else (if s[0] == c then rep else [s[0]]) + ReplaceChar(s[1..], c, rep)
  }

  lemma {:induction false} ReplaceCharAppend(a: string, b: string, c: char, rep: string)
    ensures ReplaceChar(a + b, c, rep) == ReplaceChar(a, c, rep) + ReplaceChar(b, c, rep)
  {
    if |a| == 0 {
      assert a + b == b;
    } else {
      assert (a + b)[1..] == a[1..] + b;
      ReplaceCharAppend(a[1..], b, c, rep);
    }
  }

  /** `escapeHtml` as written: the four replacements in source order. */
  function EscapeHtml(s: string): string {
    ReplaceChar(ReplaceChar(ReplaceChar(ReplaceChar(s, '&', "&amp;"), '<', "&lt;"), '>', "&gt;"), '"', "&quot;")
  }

  /** The entity for one character, or the character itself. */
  function EscapeChar(c: char): string {
    match c
    case '&' => "&amp;"
    case '<' => "&lt;"
    case '>' => "&gt;"
    case '"' => "&quot;"
    case _ => [c]
  }

  /** The reference reading: every character is escaped on its own. */
  function EscapeEach(s: string): (r: string)
    ensures '<' !in r && '>' !in r && '"' !in r
    ensures |r| >= |s|
  {
    if |s| == 0 then "" else EscapeChar(s[0]) + EscapeEach(s[1..])
  }

  lemma ReplaceSingle(c: char, x: char, rep: string)
    ensures ReplaceChar([c], x, rep) == if c == x then rep else [c]
  {
    assert [c][1..] == [];
  }

  lemma EscapeOneChar(c: char)
    ensures EscapeHtml([c]) == EscapeChar(c)
  {
    ReplaceSingle(c, '&', "&amp;");
    if c == '&' {
      assert '<' !in "&amp;" && '>' !in "&amp;" && '"' !in "&amp;";
    } else {
      ReplaceSingle(c, '<', "&lt;");
      if c == '<' {
        assert '>' !in "&lt;" && '"' !in "&lt;";
      } else {
        ReplaceSingle(c, '>', "&gt;");
        if c == '>' {
          assert '"' !in "&gt;";
        } else {
          ReplaceSingle(c, '"', "&quot;");
        }
      }
    }
  }

  /** Because `&` is replaced first, the chain of replacements never
      re-escapes an entity it has produced: it equals escaping every
      character independently. */
  lemma {:induction false} EscapeHtmlIsPerChar(s: string)
    ensures EscapeHtml(s) == EscapeEach(s)
  {
    if |s| > 0 {
      var c := s[0];
      var rest := s[1..];
      assert s == [c] + rest;
      ReplaceCharAppend([c], rest, '&', "&amp;");
      var a1 := ReplaceChar([c], '&', "&amp;");
      var b1 := ReplaceChar(rest, '&', "&amp;");
      ReplaceCharAppend(a1, b1, '<', "&lt;");
      var a2 := ReplaceChar(a1, '<', "&lt;");
      var b2 := ReplaceChar(b1, '<', "&lt;");
      ReplaceCharAppend(a2, b2, '>', "&gt;");
      var a3 := ReplaceChar(a2, '>', "&gt;");
      var b3 := ReplaceChar(b2, '>', "&gt;");
      ReplaceCharAppend(a3, b3, '"', "&quot;");
      EscapeOneChar(c);
      EscapeHtmlIsPerChar(rest);
    }
  }

  /** Escaping distributes over concatenation. */
  lemma {:induction false} EscapeAppend(a: string, b: string)
    ensures EscapeHtml(a + b) == EscapeHtml(a) + EscapeHtml(b)
  {
    EscapeEachAppend(a, b);
    EscapeHtmlIsPerChar(a + b);
    EscapeHtmlIsPerChar(a);
    EscapeHtmlIsPerChar(b);
  }

  lemma {:induction false} EscapeEachAppend(a: string, b: string)
    ensures EscapeEach(a + b) == EscapeEach(a) + EscapeEach(b)
  {
    if |a| > 0 {
      assert (a + b)[1..] == a[1..] + b;
      EscapeEachAppend(a[1..], b);
    } else {
      assert a + b == b;
    }
  }

  /** The escaped text holds no `<`, `>` or `"`, and every `&` in it begins
      one of the four entities. */
  lemma EscapeHtmlSafe(s: string)
    ensures '<' !in EscapeHtml(s) && '>' !in EscapeHtml(s) && '"' !in EscapeHtml(s)
    ensures forall i :: 0 <= i < |EscapeHtml(s)| && EscapeHtml(s)[i] == '&' ==> EntityAt(EscapeHtml(s)[i..])
  {
    EscapeHtmlIsPerChar(s);
    EntitiesOnly(s);
  }

  predicate EntityAt(t: string) {
    || (|t| >= 5 && t[..5] == "&amp;")
    || (|t| >= 4 && t[..4] == "&lt;")
    || (|t| >= 4 && t[..4] == "&gt;")
    || (|t| >= 6 && t[..6] == "&quot;")
  }

  lemma {:induction false} EntitiesOnly(s: string)
    ensures forall i :: 0 <= i < |EscapeEach(s)| && EscapeEach(s)[i] == '&' ==> EntityAt(EscapeEach(s)[i..])
  {
    if |s| > 0 {
      EntitiesOnly(s[1..]);
      var head := EscapeChar(s[0]);
      var tail := EscapeEach(s[1..]);
      var r := head + tail;
      forall i | 0 <= i < |r| && r[i] == '&' ensures EntityAt(r[i..]) {
        if i < |head| {
          assert i == 0 by {
            if s[0] !in "&<>\"" {
              assert head == [s[0]];
            }
          }
          assert r[i..] == head + tail;
        } else {
          assert r[i..] == tail[i - |head|..];
        }
      }
    }
  }

  /** Decoding of the four entities; every other character stands for
      itself. */
  function Unescape(s: string): string
    decreases |s|
  {
    if |s| == 0 then ""
    else if s[0] != '&' then [s[0]] + Unescape(s[1..])
    else if |s| >= 5 && s[..5] == "&amp;" then "&" + Unescape(s[5..])
    else if |s| >= 4 && s[..4] == "&lt;" then "<" + Unescape(s[4..])
    else if |s| >= 4 && s[..4] == "&gt;" then ">" + Unescape(s[4..])
    else if |s| >= 6 && s[..6] == "&quot;" then "\"" + Unescape(s[6..])
    else [s[0]] + Unescape(s[1..])
  }

  /** Escaping loses nothing: decoding the escaped text gives the input
      back. */
  lemma {:induction false} UnescapeEscape(s: string)
    ensures Unescape(EscapeHtml(s)) == s
  {
    EscapeHtmlIsPerChar(s);
    UnescapeEach(s);
  }

  lemma {:induction false} UnescapeEach(s: string)
    ensures Unescape(EscapeEach(s)) == s
  {
    if |s| > 0 {
      UnescapeHead(s[0], EscapeEach(s[1..]));
      UnescapeEach(s[1..]);
      assert s == [s[0]] + s[1..];
    }
  }

  /** Decoding undoes the escape of the first character. */
  lemma UnescapeHead(c: char, tail: string)
    ensures Unescape(EscapeChar(c) + tail) == [c] + Unescape(tail)
  {
    var r := EscapeChar(c) + tail;
    if c == '&' {
      assert r[..5] == "&amp;" && r[5..] == tail;
    } else if c == '<' {
      assert r[..4] == "&lt;" && r[4..] == tail;
      assert |r| >= 5 ==> r[..5][1] == 'l';
    } else if c == '>' {
      UnescapeGt(r, tail);
    } else if c == '"' {
      UnescapeQuot(r, tail);
    } else {
      assert r[0] == c && r[1..] == tail;
    }
  }

  lemma UnescapeGt(r: string, tail: string)
    requires r == "&gt;" + tail
    ensures Unescape(r) == ">" + Unescape(tail)
  {
    assert r[..4] == "&gt;" && r[4..] == tail;
    assert |r| >= 5 ==> r[..5][1] == 'g';
    assert r[..4] != "&lt;";
  }

  lemma UnescapeQuot(r: string, tail: string)
    requires r == "&quot;" + tail
    ensures Unescape(r) == "\"" + Unescape(tail)
  {
    assert r[..6] == "&quot;" && r[6..] == tail;
    assert r[..5][1] == 'q' && r[..4][1] == 'q';
  }
}

=== FILE: lists.dfy ===
/** Markdown lists (accounting.js:384-398): a run of item lines becomes one
    `<ul>` (markers `-`, `*`, `+`) or `<ol>` (markers `1.`, `22.`, ...),
    with one `<li>` per line holding the line without its marker, trimmed. */
module Lists {
  import opened Wrappers
  import opened Seqs
  import Text
  import opened Markup

  datatype ListKind = Bullets | Numbered

  const Newline: Tok := Ch('\n')

  predicate IsIndent(t: Tok) {
    t == Ch(' ') || t == Ch('\t')
  }

  predicate IsBullet(t: Tok) {
    t == Ch('-') || t == Ch('*') || t == Ch('+')
  }

  predicate IsDigitTok(t: Tok) {
    t.Ch? && Text.IsDigit(t.c)
  }

  /** Length of the item marker at the start of `s`: `[ \t]*[-*+] ` for
      bullets, `[ \t]*\d+\. ` for numbers. The indentation and the digits
      are greedy, and giving any of them back cannot help, so the first
      attempt decides. */
  function MarkerLen(s: seq<Tok>, kind: ListKind): (r: Option<nat>)
    ensures r.Some? ==> 2 <= r.value <= |s| && s[r.value - 1] == Ch(' ')
  {
    var k := Span(s, IsIndent);
    match kind
    case Bullets =>
      if k + 1 < |s| && IsBullet(s[k]) && s[k + 1] == Ch(' ') then Some(k + 2) else None
    case Numbered =>
      var d := Span(s[k..], IsDigitTok);
      if d >= 1 && k + d + 1 < |s| && s[k + d] == Ch('.') && s[k + d + 1] == Ch(' ') then Some(k + d + 2) else None
  }

  /** A list block begins with indentation or with the marker itself. */
  lemma BlockStartsWithMarker(s: seq<Tok>, kind: ListKind)
    ensures BlockLen(s, kind) > 0 ==>
      IsIndent(s[0]) || (kind == Bullets && IsBullet(s[0])) || (kind == Numbered && IsDigitTok(s[0]))
  {
    if BlockLen(s, kind) > 0 {
      assert MarkerLen(s, kind).Some?;
      var k := Span(s, IsIndent);
      SpanMaximal(s, IsIndent);
      if k == 0 && kind == Numbered {
        SpanMaximal(s[k..], IsDigitTok);
        assert s[k..][0] == s[0];
      }
    }
  }

  /** A marker holds no line break. */
  lemma MarkerOnOneLine(s: seq<Tok>, kind: ListKind)
    ensures MarkerLen(s, kind).Some? ==> forall i :: 0 <= i < MarkerLen(s, kind).value ==> !IsLineBreak(s[i])
  {
    var k := Span(s, IsIndent);
    SpanMaximal(s, IsIndent);
    if kind == Numbered {
      SpanMaximal(s[k..], IsDigitTok);
      forall i | k <= i < k + Span(s[k..], IsDigitTok) ensures IsDigitTok(s[i]) {
        assert s[i] == s[k..][i - k];
      }
    }
  }

  /** The marker of a line is found the same way whatever follows it. */
  lemma MarkerLenAppend(a: seq<Tok>, b: seq<Tok>, kind: ListKind)
    requires MarkerLen(a, kind).Some?
    ensures MarkerLen(a + b, kind) == MarkerLen(a, kind)
  {
    var k := Span(a, IsIndent);
    SpanAppend(a, b, IsIndent);
    assert (a + b)[..|a|] == a;
    if kind == Numbered {
      assert (a + b)[k..] == a[k..] + b;
      SpanAppend(a[k..], b, IsDigitTok);
    }
  }

  /** One item line of `^[ \t]*[-*+] .+\n?`: the marker, at least one more
      token on the line, and the newline ending it if there is one. Zero when
      no item starts here. */
  function ItemLen(s: seq<Tok>, kind: ListKind): (n: nat)
    ensures n <= |s|
  {
    match MarkerLen(s, kind)
    case None => 0
    case Some(m) =>
      var r := LineLen(s[m..]);
      if r == 0 then 0
      else if m + r < |s| && s[m + r] == Newline then m + r + 1
      else m + r
  }

  /** The list block: item lines as long as each ends with a newline and the
      next line is an item too (after any other line end the next `^` does
      not hold). */
  function BlockLen(s: seq<Tok>, kind: ListKind): (n: nat)
    ensures n <= |s|
    decreases |s|
  {
    var item := ItemLen(s, kind);
    if item == 0 then 0
    else if s[item - 1] == Newline then item + BlockLen(s[item..], kind)
    else item
  }

  /** `line.replace(/^[ \t]*[-*+] /, '')`. */
  function StripMarker(line: seq<Tok>, kind: ListKind): (r: seq<Tok>)
    ensures MarkerLen(line, kind).Some? ==> r == line[MarkerLen(line, kind).value..]
    ensures MarkerLen(line, kind).None? ==> r == line
  {
    match MarkerLen(line, kind)
    case Some(m) => line[m..]
    case None => line
  }

  /** The text of each item: the trimmed block split into lines, each
      without its marker and trimmed. */
  function Items(block: seq<Tok>, kind: ListKind): seq<seq<Tok>> {
    ItemTexts(Split(TrimToks(block), Newline), kind)
  }

  lemma ItemsClean(block: seq<Tok>, kind: ListKind)
    requires Clean(block)
    ensures forall k :: 0 <= k < |Items(block, kind)| ==> Clean(Items(block, kind)[k])
  {
    var lines := Split(TrimToks(block), Newline);
    var items := Items(block, kind);
    SplitClean(TrimToks(block), Newline);
    forall k | 0 <= k < |items| ensures Clean(items[k]) {
      ItemTextClean(lines[k], kind);
    }
  }

  function ItemTexts(lines: seq<seq<Tok>>, kind: ListKind): seq<seq<Tok>> {
    seq(|lines|, k requires 0 <= k < |lines| => TrimToks(StripMarker(lines[k], kind)))
  }

  lemma ItemTextClean(line: seq<Tok>, kind: ListKind)
    ensures Clean(line) ==> Clean(TrimToks(StripMarker(line, kind)))
  {
  }

  function ListTag(kind: ListKind): Tok {
    match kind
    case Bullets => Tag("ul")
    case Numbered => Tag("ol")
  }

  function ListEndTag(kind: ListKind): Tok {
    match kind
    case Bullets => Tag("/ul")
    case Numbered => Tag("/ol")
  }

  function ItemsHtml(items: seq<seq<Tok>>): seq<Tok> {
    if |items| == 0 then [] else [Tag("li")] + items[0] + [Tag("/li")] + ItemsHtml(items[1..])
  }

  function ListHtml(items: seq<seq<Tok>>, kind: ListKind): seq<Tok> {
    [ListTag(kind)] + ItemsHtml(items) + [ListEndTag(kind)]
  }

  /** The replacement of one list block. */
  function ListBlock(block: seq<Tok>, kind: ListKind): seq<Tok> {
    ListHtml(Items(block, kind), kind)
  }

  /** A clean block gives clean HTML. */
  lemma ListBlockClean(block: seq<Tok>, kind: ListKind)
    requires Clean(block)
    ensures Clean(ListBlock(block, kind))
  {
    ItemsClean(block, kind);
    ListHtmlClean(Items(block, kind), kind);
  }

  lemma {:induction false} ItemsHtmlClean(items: seq<seq<Tok>>)
    ensures (forall k :: 0 <= k < |items| ==> Clean(items[k])) ==> Clean(ItemsHtml(items))
  {
    if |items| > 0 {
      ItemsHtmlClean(items[1..]);
    }
  }

  lemma ListHtmlClean(items: seq<seq<Tok>>, kind: ListKind)
    ensures (forall k :: 0 <= k < |items| ==> Clean(items[k])) ==> Clean(ListHtml(items, kind))
  {
    ItemsHtmlClean(items);
  }

  /** A line that the item pattern takes whole: a marker, indented or not,
      then at least one token of text on the same line. */
  predicate ItemLine(marker: seq<Tok>, text: seq<Tok>, kind: ListKind) {
    && MarkerLen(marker + text, kind) == Some(|marker|)
    && |text| > 0
    && forall i :: 0 <= i < |text| ==> !IsLineBreak(text[i])
  }

  function Lines(markers: seq<seq<Tok>>, texts: seq<seq<Tok>>): (r: seq<seq<Tok>>)
    requires |markers| == |texts|
    ensures |r| == |texts|
    ensures forall k :: 0 <= k < |r| ==> r[k] == markers[k] + texts[k]
  {
    if |texts| == 0 then [] else [markers[0] + texts[0]] + Lines(markers[1..], texts[1..])
  }

  /** A run of item lines joined by newlines is one list block, taken whole,
      and becomes one list with one item per line holding the line's text,
      trimmed. The block's own `trim()` must not reach into a marker or a
      text, so the first line starts with its marker and the last text
      ends with a non-space. */
  lemma WellFormedList(markers: seq<seq<Tok>>, texts: seq<seq<Tok>>, kind: ListKind)
    requires |markers| == |texts| >= 1
    requires forall k :: 0 <= k < |texts| ==> ItemLine(markers[k], texts[k], kind)
    requires |markers[0]| > 0 && !IsSpaceTok(markers[0][0])
    requires |Last(texts)| > 0 && !IsSpaceTok(Last(Last(texts)))
    ensures var block := Join(Lines(markers, texts), [Newline]);
      BlockLen(block, kind) == |block| && ListBlock(block, kind) == ListHtml(TrimEach(texts), kind)
    ensures TrimEach(texts) == texts ==>
      ListBlock(Join(Lines(markers, texts), [Newline]), kind) == ListHtml(texts, kind)
  {
    var block := Join(Lines(markers, texts), [Newline]);
    var items := TrimEach(texts);
    assert BlockLen(block, kind) == |block| by {
      WellFormedBlockLen(markers, texts, kind);
    }
    assert Items(block, kind) == items by {
      ItemsOfList(markers, texts, kind);
    }
    assert ListBlock(block, kind) == ListHtml(items, kind);
  }

  /** The items of a run of item lines are their texts, trimmed. */
  lemma ItemsOfList(markers: seq<seq<Tok>>, texts: seq<seq<Tok>>, kind: ListKind)
    requires |markers| == |texts| >= 1
    requires forall k :: 0 <= k < |texts| ==> ItemLine(markers[k], texts[k], kind)
    requires |markers[0]| > 0 && !IsSpaceTok(markers[0][0])
    requires |Last(texts)| > 0 && !IsSpaceTok(Last(Last(texts)))
    ensures Items(Join(Lines(markers, texts), [Newline]), kind) == TrimEach(texts)
  {
    var block := Join(Lines(markers, texts), [Newline]);
    var items := TrimEach(texts);
    LinesSplit(markers, texts, kind);
    forall k | 0 <= k < |texts| ensures TrimToks(StripMarker(markers[k] + texts[k], kind)) == items[k] {
      ItemTextOfLine(markers[k], texts[k], kind);
    }
    ItemsOfLines(block, markers, texts, items, kind);
  }

  /** Item lines joined by newlines split back into those lines. */
  lemma LinesSplit(markers: seq<seq<Tok>>, texts: seq<seq<Tok>>, kind: ListKind)
    requires |markers| == |texts| >= 1
    requires forall k :: 0 <= k < |texts| ==> ItemLine(markers[k], texts[k], kind)
    requires |markers[0]| > 0 && !IsSpaceTok(markers[0][0])
    requires |Last(texts)| > 0 && !IsSpaceTok(Last(Last(texts)))
    ensures Split(TrimToks(Join(Lines(markers, texts), [Newline])), Newline) == Lines(markers, texts)
  {
    var lines := Lines(markers, texts);
    forall k | 0 <= k < |lines| ensures Newline !in lines[k] {
      LineNoBreak(markers[k], texts[k], kind);
    }
    var n := |texts| - 1;
    assert lines[0][0] == markers[0][0];
    assert Last(lines) == markers[n] + texts[n];
    assert Last(Last(lines)) == Last(texts[n]);
    JoinTrimmed(lines, [Newline]);
    SplitJoin(lines, Newline);
  }

  lemma ItemsOfLines(block: seq<Tok>, markers: seq<seq<Tok>>, texts: seq<seq<Tok>>, items: seq<seq<Tok>>, kind: ListKind)
    requires |markers| == |texts| == |items|
    requires forall k :: 0 <= k < |texts| ==> TrimToks(StripMarker(markers[k] + texts[k], kind)) == items[k]
    requires Split(TrimToks(block), Newline) == Lines(markers, texts)
    ensures Items(block, kind) == items
  {
    assert Items(block, kind) == ItemTexts(Lines(markers, texts), kind);
    TextsOfLines(markers, texts, items, kind);
  }

  lemma TextsOfLines(markers: seq<seq<Tok>>, texts: seq<seq<Tok>>, items: seq<seq<Tok>>, kind: ListKind)
    requires |markers| == |texts| == |items|
    requires forall k :: 0 <= k < |texts| ==> TrimToks(StripMarker(markers[k] + texts[k], kind)) == items[k]
    ensures ItemTexts(Lines(markers, texts), kind) == items
  {
    var lines := Lines(markers, texts);
    var r := ItemTexts(lines, kind);
    assert |r| == |items|;
    forall k | 0 <= k < |texts| ensures r[k] == items[k] {
      assert lines[k] == markers[k] + texts[k];
    }
  }

  /** The item text of a well-formed line is the text after its marker,
      trimmed; text that is already trimmed is taken as it is. */
  lemma ItemTextOfLine(marker: seq<Tok>, text: seq<Tok>, kind: ListKind)
    requires ItemLine(marker, text, kind)
    ensures TrimToks(StripMarker(marker + text, kind)) == TrimToks(text)
    ensures |text| > 0 && !IsSpaceTok(text[0]) && !IsSpaceTok(Last(text)) ==>
      TrimToks(StripMarker(marker + text, kind)) == text
  {
    StripItemMarker(marker, text, kind);
    TrimmedToksFixed(text);
  }

  lemma TrimmedToksFixed(text: seq<Tok>)
    ensures |text| > 0 && !IsSpaceTok(text[0]) && !IsSpaceTok(Last(text)) ==> TrimToks(text) == text
  {
    if |text| > 0 && !IsSpaceTok(text[0]) && !IsSpaceTok(Last(text)) {
      TrimmedIsFixed(text, IsSpaceTok);
    }
  }

  /** Removing the marker of an item line leaves its text. */
  lemma StripItemMarker(marker: seq<Tok>, text: seq<Tok>, kind: ListKind)
    requires MarkerLen(marker + text, kind) == Some(|marker|)
    ensures StripMarker(marker + text, kind) == text
  {
    assert (marker + text)[|marker|..] == text;
  }

  lemma LineNoBreak(marker: seq<Tok>, text: seq<Tok>, kind: ListKind)
    requires ItemLine(marker, text, kind)
    ensures |marker + text| > 0 && Newline !in marker + text
  {
    var line := marker + text;
    MarkerOnOneLine(line, kind);
    forall i | 0 <= i < |line| ensures line[i] != Newline {
      if i >= |marker| {
        assert line[i] == text[i - |marker|];
      }
    }
  }

  lemma {:induction false} WellFormedBlockLen(markers: seq<seq<Tok>>, texts: seq<seq<Tok>>, kind: ListKind)
    requires |markers| == |texts| >= 1
    requires forall k :: 0 <= k < |texts| ==> ItemLine(markers[k], texts[k], kind)
    ensures BlockLen(Join(Lines(markers, texts), [Newline]), kind) == |Join(Lines(markers, texts), [Newline])|
    decreases |texts|
  {
    var lines := Lines(markers, texts);
    if |texts| == 1 {
      assert Join(lines, [Newline]) == markers[0] + texts[0];
      LastItem(markers[0], texts[0], kind);
    } else {
      var rest := Join(lines[1..], [Newline]);
      assert Join(lines, [Newline]) == markers[0] + texts[0] + ([Newline] + rest);
      ItemThenMore(markers[0], texts[0], rest, kind);
      assert lines[1..] == Lines(markers[1..], texts[1..]);
      WellFormedBlockLen(markers[1..], texts[1..], kind);
    }
  }

  /** An item line alone is a whole block. */
  lemma LastItem(marker: seq<Tok>, text: seq<Tok>, kind: ListKind)
    requires ItemLine(marker, text, kind)
    ensures BlockLen(marker + text, kind) == |marker + text|
  {
    ItemLenWhole(marker, text, [], kind);
    assert marker + text + [] == marker + text;
  }

  /** After an item line and its newline the block goes on with the next
      line. */
  lemma ItemThenMore(marker: seq<Tok>, text: seq<Tok>, rest: seq<Tok>, kind: ListKind)
    requires ItemLine(marker, text, kind)
    ensures var line := marker + text;
      BlockLen(line + ([Newline] + rest), kind) == |line| + 1 + BlockLen(rest, kind)
  {
    var line := marker + text;
    var block := line + ([Newline] + rest);
    var n := |line| + 1;
    assert BlockLen(block, kind) == n + BlockLen(block[n..], kind) by {
      assert ItemLen(block, kind) == n by {
        assert block == marker + text + ([Newline] + rest);
        ItemLenWhole(marker, text, [Newline] + rest, kind);
      }
      assert block[n - 1] == Newline;
      BlockLenStep(block, kind);
    }
    assert block[n..] == rest;
  }

  /** One step of the block: an item ending in a newline, then the rest. */
  lemma BlockLenStep(s: seq<Tok>, kind: ListKind)
    requires ItemLen(s, kind) > 0 && s[ItemLen(s, kind) - 1] == Newline
    ensures BlockLen(s, kind) == ItemLen(s, kind) + BlockLen(s[ItemLen(s, kind)..], kind)
  {
  }

  /** An item line followed by nothing or by a newline is one item. */
  lemma ItemLenWhole(marker: seq<Tok>, text: seq<Tok>, after: seq<Tok>, kind: ListKind)
    requires ItemLine(marker, text, kind)
    requires after == [] || after[0] == Newline
    ensures ItemLen(marker + text + after, kind) == |marker| + |text| + (if after == [] then 0 else 1)
  {
    var s := marker + text + after;
    MarkerLenAppend(marker + text, after, kind);
    assert s[|marker|..] == text + after;
    TextLineLen(text, after);
    if after != [] {
      assert s[|marker| + |text|] == after[0];
    }
    ItemLenFrom(s, kind, |marker|, |text|);
  }

  /** An item whose marker and text lengths are known, ending at the end
      of the input or at a newline. */
  lemma ItemLenFrom(s: seq<Tok>, kind: ListKind, m: nat, t: nat)
    requires MarkerLen(s, kind) == Some(m) && m + t <= |s|
    requires t > 0 && LineLen(s[m..]) == t
    requires m + t == |s| || s[m + t] == Newline
    ensures ItemLen(s, kind) == m + t + (if m + t == |s| then 0 else 1)
  {
  }

  /** A line without breaks, followed by nothing or by a newline, is as
      long as its text. */
  lemma TextLineLen(text: seq<Tok>, after: seq<Tok>)
    requires forall i :: 0 <= i < |text| ==> !IsLineBreak(text[i])
    requires after == [] || after[0] == Newline
    ensures LineLen(text + after) == |text|
  {
    SpanAppend(text, after, NotLineBreak);
    SpanAll(text, NotLineBreak);
    if after != [] {
      assert Span(after, NotLineBreak) == 0;
    }
  }
}

=== FILE: markdown.dfy ===
/** `renderMarkdown` (accounting.js:350-411): the input is escaped, read as
    tokens, rewritten by the passes in source order, cut into paragraphs and
    written back out as a string. */
module Markdown {
  import opened Seqs
  import opened Markup
  import Escape
  import opened Rules
  import Lists
  import Paragraphs

  /** The passes between escaping and the paragraph pass, in the order the
      renderer runs them. */
  const Passes: seq<Rule> := [
    FencedCode, InlineCode,
    Heading(4), Heading(3), Heading(2), Heading(1),
    Emphasis(TripleStar), Emphasis(DoubleStar), Emphasis(SingleStar),
    Emphasis(DoubleUnderscore), Emphasis(SingleUnderscore),
    HorizontalRule, Quote, TableRule,
    ListRule(Lists.Bullets), ListRule(Lists.Numbered)
  ]

  function RunPasses(rules: seq<Rule>, s: seq<Tok>): seq<Tok> {
    if |rules| == 0 then s else RunPasses(rules[1..], Pass(rules[0], s))
  }

  /** The tokens of the escaped input. */
  function Input(md: string): seq<Tok> {
    Chars(Escape.EscapeHtml(md))
  }

  function Render(md: string): string {
    Serialize(Paragraphs.Paragraphs(RunPasses(Passes, Input(md))))
  }

  /** The escaped input holds no `<`. */
  lemma InputClean(md: string)
    ensures Clean(Input(md))
  {
    Escape.EscapeHtmlSafe(md);
    var e := Escape.EscapeHtml(md);
    forall i | 0 <= i < |e| ensures Ok(Input(md)[i]) {
      assert e[i] in e;
    }
  }

  lemma {:induction false} RunPassesClean(rules: seq<Rule>, s: seq<Tok>)
    requires Clean(s)
    ensures Clean(RunPasses(rules, s))
    decreases |rules|
  {
    if |rules| > 0 {
      ScanClean(rules[0], s, true);
      RunPassesClean(rules[1..], Pass(rules[0], s));
    }
  }

  /** Whatever the input, every `<` of the rendered HTML begins a tag the
      renderer emits itself, and the text `<script` occurs nowhere in it:
      markup in the input comes out as text. */
  lemma RenderSafe(md: string)
    ensures forall i :: 0 <= i < |Render(md)| && Render(md)[i] == '<' ==> TagAt(Render(md)[i..])
    ensures forall i :: 0 <= i < |Render(md)| ==> !StartsWith(Render(md)[i..], "<script")
  {
    var passed := RunPasses(Passes, Input(md));
    InputClean(md);
    RunPassesClean(Passes, Input(md));
    Paragraphs.ParagraphsClean(passed);
    var out := Paragraphs.Paragraphs(passed);
    SerializeClean(out);
    var html := Serialize(out);
    forall i | 0 <= i < |html| ensures !StartsWith(html[i..], "<script") {
      if html[i] == '<' {
        NoScriptPrefix(html[i..]);
      } else {
        assert html[i..][0] != "<script"[0];
      }
    }
  }
}

=== FILE: markup.dfy ===
/** The renderer's intermediate text. Every pass of the renderer
    (accounting.js:350-411) rewrites a string that mixes escaped input
    characters with HTML tags emitted by earlier passes. Here that string is
    a sequence of tokens: an input character, or a whole tag emitted by the
    renderer. `Serialize` gives back the string. Reading tags as single
    tokens is exact because no pattern of the renderer can match part of a
    tag: tag text consists of `<`, `>`, `/`, lower-case letters and digits,
    and none of the renderer's delimiters (`` ` ``, `*`, `_`, `#`, `|`,
    `-`, `&`, whitespace, line breaks) occurs in it. */
module Markup {
  import opened Seqs
  import Text

  datatype Tok = Ch(c: char) | Tag(name: string)

  /** Every tag name the renderer emits. */
  const KnownTags: set<string> := {
    "pre", "/pre", "code", "/code",
    "h1", "/h1", "h2", "/h2", "h3", "/h3", "h4", "/h4",
    "strong", "/strong", "em", "/em", "hr", "blockquote", "/blockquote",
    "table", "/table", "thead", "/thead", "tbody", "/tbody", "tr", "/tr", "th", "/th", "td", "/td",
    "ul", "/ul", "ol", "/ol", "li", "/li", "p", "/p", "br"
  }

  function Piece(t: Tok): string {
    match t
    case Ch(c) => [c]
    case Tag(n) => "<" + n + ">"
  }

  function Serialize(ts: seq<Tok>): (r: string)
    ensures |r| >= |ts|
  {
    if |ts| == 0 then "" else Piece(ts[0]) + Serialize(ts[1..])
  }

  lemma {:induction false} SerializeAppend(a: seq<Tok>, b: seq<Tok>)
    ensures Serialize(a + b) == Serialize(a) + Serialize(b)
  {
    if |a| == 0 {
      assert a + b == b;
    } else {
      assert (a + b)[1..] == a[1..] + b;
      SerializeAppend(a[1..], b);
    }
  }

  /** The characters of a string, each as a token. */
  function Chars(s: string): (r: seq<Tok>)
    ensures |r| == |s|
    ensures forall i :: 0 <= i < |s| ==> r[i] == Ch(s[i])
  {
    if |s| == 0 then [] else [Ch(s[0])] + Chars(s[1..])
  }

  lemma {:induction false} SerializeChars(s: string)
    ensures Serialize(Chars(s)) == s
  {
    if |s| > 0 {
      var c := Chars(s);
      assert c[1..] == Chars(s[1..]);
      assert Serialize(c) == [s[0]] + Serialize(Chars(s[1..]));
      SerializeChars(s[1..]);
      assert s == [s[0]] + s[1..];
    }
  }

  /** A token that can appear in the renderer's text: never a raw `<`, and
      only tags the renderer emits. */
  predicate Ok(t: Tok) {
    match t
    case Ch(c) => c != '<'
    case Tag(n) => n in KnownTags
  }

  predicate Clean(ts: seq<Tok>) {
    forall i :: 0 <= i < |ts| ==> Ok(ts[i])
  }

  /** `s` begins with one of the renderer's own tags. */
  predicate TagAt(s: string) {
    exists n :: n in KnownTags && StartsWith(s, "<" + n + ">")
  }

  lemma KnownTagsPlain(n: string)
    requires n in KnownTags
    ensures '<' !in n
  {
  }

  /** Inside a tag's text only its first character is `<`. */
  lemma TagPieceOpensOnce(n: string)
    requires n in KnownTags
    ensures forall j :: 0 < j < |Piece(Tag(n))| ==> Piece(Tag(n))[j] != '<'
  {
    KnownTagsPlain(n);
    var p := Piece(Tag(n));
    forall j | 0 < j < |p| ensures p[j] != '<' {
      if j <= |n| {
        assert p[j] == n[j - 1];
      }
    }
  }

  /** In the string of clean tokens every `<` begins a tag of the renderer. */
  lemma {:induction false} SerializeClean(ts: seq<Tok>)
    requires Clean(ts)
    ensures forall i :: 0 <= i < |Serialize(ts)| && Serialize(ts)[i] == '<' ==> TagAt(Serialize(ts)[i..])
  {
    if |ts| > 0 {
      var head := Piece(ts[0]);
      var tail := Serialize(ts[1..]);
      SerializeClean(ts[1..]);
      var r := head + tail;
      assert Serialize(ts) == r;
      if ts[0].Tag? {
        TagPieceOpensOnce(ts[0].name);
      }
      forall i | 0 <= i < |r| && r[i] == '<' ensures TagAt(r[i..]) {
        if i < |head| {
          assert StartsWith(r[i..], "<" + ts[0].name + ">");
        } else {
          assert r[i..] == tail[i - |head|..];
        }
      }
    }
  }

  /** The only renderer tag name that begins with `s` is `strong`. */
  lemma KnownTagShape(n: string)
    requires n in KnownTags
    ensures |n| >= 1 && (n[0] != 's' || (|n| >= 2 && n[1] == 't'))
  {
  }

  /** No renderer tag name begins with "script". */
  lemma NoScriptPrefix(s: string)
    requires TagAt(s)
    ensures !StartsWith(s, "<script")
  {
    var n :| n in KnownTags && StartsWith(s, "<" + n + ">");
    var t := "<" + n + ">";
    KnownTagShape(n);
    assert s[..|t|] == t;
    assert s[1] == n[0] by {
      assert t[1] == n[0];
    }
    assert n[0] == 's' ==> s[2] == n[1] by {
      if n[0] == 's' {
        assert t[2] == n[1];
      }
    }
    if |s| >= 7 {
      var p := "<script";
      assert p[1] == 's' && p[2] == 'c';
      assert s[..7][1] == s[1] && s[..7][2] == s[2];
      assert s[..7] != p;
    }
  }

  /** Whitespace and line terminators among tokens: only characters, never
      tags. */
  predicate IsSpaceTok(t: Tok) {
    t.Ch? && Text.IsSpace(t.c)
  }

  predicate IsLineBreak(t: Tok) {
    t.Ch? && Text.IsLineTerminator(t.c)
  }

  /** `trim()` on tokens. */
  function TrimToks(s: seq<Tok>): (r: seq<Tok>)
    ensures |r| <= |s|
    ensures Clean(s) ==> Clean(r)
  {
    TrimBy(s, IsSpaceTok)
  }

  /** `trim()` on each of several token sequences. */
  function TrimEach(parts: seq<seq<Tok>>): seq<seq<Tok>> {
    seq(|parts|, k requires 0 <= k < |parts| => TrimToks(parts[k]))
  }

  /** Trimming sequences that are already trimmed changes nothing. */
  lemma TrimEachFixed(parts: seq<seq<Tok>>)
    requires forall k :: 0 <= k < |parts| ==> TrimToks(parts[k]) == parts[k]
    ensures TrimEach(parts) == parts
  {
    var r := TrimEach(parts);
    assert |r| == |parts|;
    forall k | 0 <= k < |parts| ensures r[k] == parts[k] {
    }
  }

  /** Length of the rest of the current line: what a greedy `.*` matches. */
  function LineLen(s: seq<Tok>): (n: nat)
    ensures n <= |s|
  {
    Span(s, NotLineBreak)
  }

  /** `LineLen` stops at the first line break and at nothing before it. */
  lemma LineLenStops(s: seq<Tok>)
    ensures forall i :: 0 <= i < LineLen(s) ==> !IsLineBreak(s[i])
    ensures LineLen(s) < |s| ==> IsLineBreak(s[LineLen(s)])
  {
    SpanMaximal(s, NotLineBreak);
  }

  predicate NotLineBreak(t: Tok) {
    !IsLineBreak(t)
  }

  /** Lines joined by any separator are unchanged by `trim()` when the
      first line starts and the last line ends with a non-space. */
  lemma JoinTrimmed(lines: seq<seq<Tok>>, sep: seq<Tok>)
    requires |lines| >= 1
    requires |lines[0]| > 0 && !IsSpaceTok(lines[0][0])
    requires |Last(lines)| > 0 && !IsSpaceTok(Last(Last(lines)))
    ensures TrimToks(Join(lines, sep)) == Join(lines, sep)
  {
    JoinFirst(lines, sep);
    JoinLast(lines, sep);
    TrimmedIsFixed(Join(lines, sep), IsSpaceTok);
  }

  /** The pieces of a token sequence split at every `d` are clean when the
      sequence is. */
  lemma {:induction false} SplitClean(s: seq<Tok>, d: Tok)
    ensures Clean(s) ==> forall k :: 0 <= k < |Split(s, d)| ==> Clean(Split(s, d)[k])
  {
    if |s| > 0 && Clean(s) {
      SplitClean(s[1..], d);
      var rest := Split(s[1..], d);
      if s[0] != d {
        var first := [s[0]] + rest[0];
        assert Clean(first) by {
          forall i | 0 <= i < |first| ensures Ok(first[i]) {
            if i > 0 {
              assert first[i] == rest[0][i - 1];
            }
          }
        }
      }
    }
  }

  /** A part of a clean sequence is clean. */
  lemma CleanSlice(s: seq<Tok>, i: nat, j: nat)
    requires i <= j <= |s|
    ensures Clean(s) ==> Clean(s[i..j])
  {
    if Clean(s) {
      forall k | 0 <= k < j - i ensures Ok(s[i..j][k]) {
        assert s[i..j][k] == s[i + k];
      }
    }
  }

  lemma CleanAppend(a: seq<Tok>, b: seq<Tok>)
    requires Clean(a) && Clean(b)
    ensures Clean(a + b)
  {
    forall i | 0 <= i < |a + b| ensures Ok((a + b)[i]) {
      if i < |a| {
        assert (a + b)[i] == a[i];
      } else {
        assert (a + b)[i] == b[i - |a|];
      }
    }
  }

  lemma AroundClean(open: seq<Tok>, body: seq<Tok>, close: seq<Tok>)
    requires Clean(open) && Clean(body) && Clean(close)
    ensures Clean(open + body + close)
  {
    CleanAppend(open, body);
    CleanAppend(open + body, close);
  }

  lemma {:induction false} JoinClean(parts: seq<seq<Tok>>, sep: seq<Tok>)
    requires forall k :: 0 <= k < |parts| ==> Clean(parts[k])
    requires Clean(sep)
    ensures Clean(Join(parts, sep))
  {
    if |parts| > 1 {
      JoinClean(parts[1..], sep);
    }
  }

  lemma {:induction false} ConcatClean(parts: seq<seq<Tok>>)
    requires forall k :: 0 <= k < |parts| ==> Clean(parts[k])
    ensures Clean(Concat(parts))
  {
    if |parts| > 0 {
      ConcatClean(parts[1..]);
    }
  }
}

=== FILE: paragraphs.dfy ===
/** The paragraph pass of the renderer (accounting.js:400-408): the text is
    split at every run of two or more newlines; each chunk is trimmed; a
    blank chunk becomes empty, a chunk that starts with a block tag is kept,
    and any other chunk is wrapped in `<p>` with its newlines turned into
    `<br>`; the chunks are joined again with one newline. */
module Paragraphs {
  import opened Wrappers
  import opened Seqs
  import opened Markup

  const Newline: Tok := Ch('\n')
  /** Two newlines: where a run `\n{2,}` can begin. */
  const Break: seq<Tok> := [Newline, Newline]

  predicate IsNewline(t: Tok) {
    t == Newline
  }

  /** `chunk.split(/\n{2,}/)`: the leftmost run of two or more newlines,
      taken whole, separates one chunk from the rest. */
  function ParaSplit(s: seq<Tok>): (chunks: seq<seq<Tok>>)
    ensures |chunks| >= 1
    decreases |s|
  {
    match IndexOf(s, Break, 0)
    case None => [s]
    case Some(i) =>
      var run := Span(s[i..], IsNewline);
      assert run >= 1 by {
        assert s[i..][0] == Newline;
      }
      [s[..i]] + ParaSplit(s[i + run..])
  }

  predicate HasBreak(s: seq<Tok>) {
    exists i :: 0 <= i < |s| - 1 && s[i] == Newline && s[i + 1] == Newline
  }

  lemma BreakAt(s: seq<Tok>, i: nat)
    requires i < |s| - 1
    ensures StartsWith(s[i..], Break) <==> s[i] == Newline && s[i + 1] == Newline
  {
    if s[i] == Newline && s[i + 1] == Newline {
      assert s[i..][..2] == Break;
    }
  }

  /** No chunk holds two newlines in a row. */
  lemma {:induction false} ChunksHaveNoBreak(s: seq<Tok>)
    ensures forall k :: 0 <= k < |ParaSplit(s)| ==> !HasBreak(ParaSplit(s)[k])
    decreases |s|
  {
    IndexOfSpec(s, Break, 0);
    match IndexOf(s, Break, 0)
    case None =>
      forall i | 0 <= i < |s| - 1 ensures !(s[i] == Newline && s[i + 1] == Newline) {
        BreakAt(s, i);
      }
    case Some(i) =>
      var run := Span(s[i..], IsNewline);
      assert run >= 1 by {
        assert s[i..][0] == Newline;
      }
      var first := s[..i];
      forall j | 0 <= j < |first| - 1 ensures !(first[j] == Newline && first[j + 1] == Newline) {
        BreakAt(s, j);
      }
      ChunksHaveNoBreak(s[i + run..]);
  }

  /** Text with no two newlines in a row is one chunk. */
  lemma OneChunk(s: seq<Tok>)
    requires !HasBreak(s)
    ensures ParaSplit(s) == [s]
  {
    forall i | 0 <= i <= |s| ensures !StartsWith(s[i..], Break) {
      if i < |s| - 1 {
        BreakAt(s, i);
      }
    }
    IndexOfNone(s, Break, 0);
  }

  /** Chunks that hold no two newlines in a row and neither begin nor end
      with a newline. */
  predicate Separable(parts: seq<seq<Tok>>) {
    forall k :: 0 <= k < |parts| ==>
      |parts[k]| > 0 && parts[k][0] != Newline && Last(parts[k]) != Newline && !HasBreak(parts[k])
  }

  /** Chunks joined by blank lines are split back into the same chunks. */
  lemma {:induction false} SplitJoinedParagraphs(parts: seq<seq<Tok>>)
    requires |parts| >= 1 && Separable(parts)
    ensures ParaSplit(Join(parts, Break)) == parts
    decreases |parts|
  {
    var s := Join(parts, Break);
    var p := parts[0];
    if |parts| == 1 {
      assert s == p;
      OneChunk(s);
    } else {
      var rest := Join(parts[1..], Break);
      assert s == p + Break + rest;
      assert IndexOf(s, Break, 0) == Some(|p|) by {
        forall i | 0 <= i < |p| ensures !StartsWith(s[i..], Break) {
          BreakAt(s, i);
          assert s[i] == p[i];
          if i + 1 < |p| {
            assert s[i + 1] == p[i + 1];
          }
        }
        assert s[|p|..][..2] == Break;
        IndexOfFirst(s, Break, 0, |p|);
      }
      assert Span(s[|p|..], IsNewline) == 2 by {
        assert s[|p|..] == Break + rest;
        SpanAppend(Break, rest, IsNewline);
        assert Separable(parts[1..]);
        JoinHead(parts[1..], Break);
      }
      assert s[..|p|] == p;
      assert s[|p| + 2..] == rest;
      SplitJoinedParagraphs(parts[1..]);
    }
  }

  /** A join begins with the first element of its first part. */
  lemma JoinHead(parts: seq<seq<Tok>>, sep: seq<Tok>)
    requires |parts| >= 1 && |parts[0]| > 0
    ensures |Join(parts, sep)| > 0 && Join(parts, sep)[0] == parts[0][0]
  {
  }

  /** The alternatives of `/^<(h[1-6]|ul|ol|li|pre|blockquote|table|hr|p)/`. */
  const BlockNames: set<string> :=
    {"h1", "h2", "h3", "h4", "h5", "h6", "ul", "ol", "li", "pre", "blockquote", "table", "hr", "p"}

  /** The chunk's text begins with `<` and one of the block alternatives. */
  predicate BlockStart(chunk: seq<Tok>) {
    exists a :: a in BlockNames && StartsWith(Serialize(chunk), "<" + a)
  }

  /** `chunk.replace(/\n/g, '<br>')`. */
  function Breaks(s: seq<Tok>): (r: seq<Tok>)
    ensures |r| == |s|
    ensures forall i :: 0 <= i < |s| ==> r[i] == if s[i] == Newline then Tag("br") else s[i]
  {
    if |s| == 0 then [] else [if s[0] == Newline then Tag("br") else s[0]] + Breaks(s[1..])
  }

  /** The treatment of one chunk. */
  function Paragraph(chunk: seq<Tok>): seq<Tok> {
    var t := TrimToks(chunk);
    if t == [] then []
    else if BlockStart(t) then t
    else [Tag("p")] + Breaks(t) + [Tag("/p")]
  }

  function ParagraphEach(chunks: seq<seq<Tok>>): seq<seq<Tok>> {
    seq(|chunks|, k requires 0 <= k < |chunks| => Paragraph(chunks[k]))
  }

  /** The whole pass. */
  function Paragraphs(s: seq<Tok>): seq<Tok> {
    Join(ParagraphEach(ParaSplit(s)), [Newline])
  }

  /** A chunk disappears exactly when it is blank. */
  lemma BlankChunk(chunk: seq<Tok>)
    ensures Paragraph(chunk) == [] <==> forall i :: 0 <= i < |chunk| ==> IsSpaceTok(chunk[i])
  {
    TrimEmptyIff(chunk, IsSpaceTok);
  }

  /** A chunk that begins with a block tag is kept as it is. */
  lemma TagIsBlockStart(t: seq<Tok>, n: string)
    requires |t| > 0 && t[0] == Tag(n) && n in BlockNames
    ensures BlockStart(t)
  {
    assert Serialize(t) == "<" + n + ">" + Serialize(t[1..]);
    assert StartsWith(Serialize(t), "<" + n);
  }

  lemma ParagraphClean(chunk: seq<Tok>)
    requires Clean(chunk)
    ensures Clean(Paragraph(chunk))
  {
    var t := TrimToks(chunk);
    BreaksClean(t);
    assert Clean([Tag("p")]) && Clean([Tag("/p")]);
    AroundClean([Tag("p")], Breaks(t), [Tag("/p")]);
  }

  lemma BreaksClean(t: seq<Tok>)
    requires Clean(t)
    ensures Clean(Breaks(t))
  {
    var b := Breaks(t);
    forall i | 0 <= i < |b| ensures Ok(b[i]) {
      assert b[i] == if t[i] == Newline then Tag("br") else t[i];
    }
  }

  /** The pass keeps the text free of raw `<` and unknown tags. */
  lemma ParagraphsClean(s: seq<Tok>)
    requires Clean(s)
    ensures Clean(Paragraphs(s))
  {
    var chunks := ParaSplit(s);
    var ps := ParagraphEach(chunks);
    ParaSplitClean(s);
    forall k | 0 <= k < |ps| ensures Clean(ps[k]) {
      ParagraphClean(chunks[k]);
    }
    JoinClean(ps, [Newline]);
  }

  lemma {:induction false} ParaSplitClean(s: seq<Tok>)
    requires Clean(s)
    ensures forall k :: 0 <= k < |ParaSplit(s)| ==> Clean(ParaSplit(s)[k])
    decreases |s|
  {
    match IndexOf(s, Break, 0)
    case None =>
    case Some(i) =>
      var run := Span(s[i..], IsNewline);
      assert run >= 1 by {
        assert s[i..][0] == Newline;
      }
      CleanSlice(s, 0, i);
      assert s[0..i] == s[..i];
      CleanSlice(s, i + run, |s|);
      ParaSplitClean(s[i + run..]);
  }

  /** A single chunk that begins with a block tag and does not end with
      whitespace is kept as it is, whatever text follows the tag. */
  lemma KeptBlock(s: seq<Tok>, n: string)
    requires |s| > 0 && s[0] == Tag(n) && n in BlockNames && !IsSpaceTok(Last(s))
    requires !HasBreak(s)
    ensures Paragraphs(s) == s
  {
    OneChunk(s);
    TrimmedIsFixed(s, IsSpaceTok);
    TagIsBlockStart(s, n);
  }

  /** A chunk that begins with a tag whose name starts unlike every block
      name is not taken for a block. */
  lemma OtherTagNoBlockStart(t: seq<Tok>, n: string)
    requires |t| > 0 && t[0] == Tag(n) && |n| > 0
    requires forall a :: a in BlockNames ==> a[0] != n[0]
    ensures !BlockStart(t)
  {
    var text := Serialize(t);
    assert text == "<" + n + ">" + Serialize(t[1..]);
    assert text[1] == n[0];
    forall a | a in BlockNames ensures !StartsWith(text, "<" + a) {
      assert ("<" + a)[1] == a[0];
    }
  }

  /** A single chunk that is neither blank-edged nor a block becomes one
      paragraph with its line breaks as `<br>`. */
  lemma WrappedParagraph(s: seq<Tok>)
    requires |s| > 0 && !IsSpaceTok(s[0]) && !IsSpaceTok(Last(s))
    requires !HasBreak(s) && !BlockStart(s)
    ensures Paragraphs(s) == [Tag("p")] + Breaks(s) + [Tag("/p")]
  {
    OneChunk(s);
    TrimmedIsFixed(s, IsSpaceTok);
  }

  /** `<br>` replaces nothing in a chunk without newlines. */
  lemma NoBreaks(s: seq<Tok>)
    requires Newline !in s
    ensures Breaks(s) == s
  {
  }
}

=== FILE: render_cases.dfy ===
/** What the renderer makes of particular inputs: a heading line, a
    `***bold italic***` line, code spans and fenced code. */
module RenderCases {
  import opened Wrappers
  import opened Seqs
  import Text
  import opened Markup
  import Escape
  import opened Rules
  import Lists
  import Paragraphs
  import opened Markdown

  /** Characters that escaping keeps as they are. */
  predicate Unescaped(c: char) {
    c != '&' && c != '<' && c != '>' && c != '"'
  }

  /** Characters that no pass treats specially and that escaping keeps. */
  predicate Plain(c: char) {
    && Unescaped(c)
    && !Text.IsLineTerminator(c)
    && c != '`' && c != '*' && c != '_'
  }

  predicate PlainText(x: string) {
    forall i :: 0 <= i < |x| ==> Plain(x[i])
  }

  /** Escaping leaves alone a text holding none of `&`, `<`, `>` and `"`. */
  lemma {:induction false} EscapeKeeps(x: string)
    requires forall i :: 0 <= i < |x| ==> Unescaped(x[i])
    ensures Escape.EscapeHtml(x) == x
  {
    Escape.EscapeHtmlIsPerChar(x);
    EscapeEachKeeps(x);
  }

  lemma {:induction false} EscapeEachKeeps(x: string)
    requires forall i :: 0 <= i < |x| ==> Unescaped(x[i])
    ensures Escape.EscapeEach(x) == x
  {
    if |x| > 0 {
      EscapeEachKeeps(x[1..]);
      assert x == [x[0]] + x[1..];
    }
  }

  lemma CharsAppend(a: string, b: string)
    ensures Chars(a + b) == Chars(a) + Chars(b)
  {
    var l := Chars(a + b);
    var r := Chars(a) + Chars(b);
    forall i | 0 <= i < |l| ensures l[i] == r[i] {
      if i < |a| {
        assert (a + b)[i] == a[i];
      } else {
        assert (a + b)[i] == b[i - |a|];
      }
    }
  }

  lemma {:induction false} RunPassesAppend(a: seq<Rule>, b: seq<Rule>, s: seq<Tok>)
    ensures RunPasses(a + b, s) == RunPasses(b, RunPasses(a, s))
    decreases |a|
  {
    if |a| > 0 {
      assert (a + b)[1..] == a[1..] + b;
      RunPassesAppend(a[1..], b, Pass(a[0], s));
    } else {
      assert a + b == b;
    }
  }

  /** Passes that each leave `s` alone leave it alone together. */
  lemma {:induction false} RunPassesFixed(rules: seq<Rule>, s: seq<Tok>)
    requires forall k :: 0 <= k < |rules| ==> Pass(rules[k], s) == s
    ensures RunPasses(rules, s) == s
    decreases |rules|
  {
    if |rules| > 0 {
      RunPassesFixed(rules[1..], s);
    }
  }

  lemma TagNeverKeyed(rule: Rule, n: string)
    ensures !Keyed(rule, Tag(n))
  {
  }

  /** A line-anchored pass leaves alone a line that begins with a tag. */
  lemma AnchoredAfterTag(rule: Rule, r: seq<Tok>)
    requires LineAnchored(rule) && OneLine(r) && |r| > 0 && r[0].Tag?
    ensures Pass(rule, r) == r
  {
    MatchKeyed(rule, r, true);
    TagNeverKeyed(rule, r[0].name);
    AnchoredOneLine(rule, r, true);
  }

  /** `#`×level then a space, as the escaped input holds it. */
  lemma HeadingMarkAt(level: Level, i: nat)
    requires i <= level
    ensures HeadingMark(level)[i] == if i < level then Hash else Space
  {
  }

  lemma OneLineAppend(a: seq<Tok>, b: seq<Tok>)
    requires OneLine(a) && OneLine(b)
    ensures OneLine(a + b)
  {
    forall i | 0 <= i < |a + b| ensures !IsLineBreak((a + b)[i]) {
      if i < |a| {
        assert (a + b)[i] == a[i];
      } else {
        assert (a + b)[i] == b[i - |a|];
      }
    }
  }

  lemma HeadingMarkOneLine(level: Level)
    ensures OneLine(HeadingMark(level))
  {
    forall i | 0 <= i < |HeadingMark(level)| ensures !IsLineBreak(HeadingMark(level)[i]) {
      HeadingMarkAt(level, i);
    }
  }

  /** The heading pass of the line's own level turns it into a heading. */
  lemma HeadingPass(level: Level, x: seq<Tok>)
    requires |x| > 0 && OneLine(x)
    ensures Pass(Heading(level), HeadingMark(level) + x) == [HeadingTag(level)] + x + [HeadingEndTag(level)]
  {
    var mark := HeadingMark(level);
    var s := mark + x;
    var p := |mark|;
    assert s[..p] == mark;
    assert s[p..] == x;
    assert LineLen(x) == |x| by {
      SpanAll(x, NotLineBreak);
    }
    assert |s| == p + |x|;
    assert s[p..p + |x|] == x;
    var out := [HeadingTag(level)] + x + [HeadingEndTag(level)];
    assert MatchAt(Heading(level), s, true) == Some(Match(|s|, out));
    assert s[|s|..] == [];
    assert Scan(Heading(level), s[|s|..], IsLineBreak(s[|s| - 1])) == [];
  }

  /** The heading pass of another level leaves the line alone. */
  lemma OtherHeadingPass(m: Level, level: Level, x: seq<Tok>)
    requires m != level && OneLine(x)
    ensures Pass(Heading(m), HeadingMark(level) + x) == HeadingMark(level) + x
  {
    var s := HeadingMark(level) + x;
    var j := if m < level then m else level;
    HeadingMarkAt(level, j);
    HeadingMarkAt(m, j);
    assert s[j] == HeadingMark(level)[j];
    assert !StartsWith(s, HeadingMark(m)) by {
      if |HeadingMark(m)| <= |s| {
        assert s[..|HeadingMark(m)|][j] == s[j];
      }
    }
    HeadingMarkOneLine(level);
    OneLineAppend(HeadingMark(level), x);
    AnchoredOneLine(Heading(m), s, true);
  }

  /** Three groups of passes: the first and the last leave the text alone,
      the middle one rewrites it. */
  lemma ThreeStages(before: seq<Rule>, rule: Rule, after: seq<Rule>, s: seq<Tok>, r: seq<Tok>)
    requires RunPasses(before, s) == s && Pass(rule, s) == r && RunPasses(after, r) == r
    ensures RunPasses(before + [rule] + after, s) == r
  {
    RunPassesAppend(before + [rule], after, s);
    RunPassesAppend(before, [rule], s);
  }

  /** A line `"#"×n + " " + text`, n from 1 to 4, passes through the four
      heading passes as `<hn>text</hn>`: the other levels' passes neither
      before nor after it touch it. */
  lemma HeadingPasses(rules: seq<Rule>, level: Level, x: seq<Tok>)
    requires rules == [Heading(4), Heading(3), Heading(2), Heading(1)]
    requires |x| > 0 && OneLine(x)
    ensures RunPasses(rules, HeadingMark(level) + x) == [HeadingTag(level)] + x + [HeadingEndTag(level)]
  {
    if level == 4 {
      HeadingAmong(rules, [], [Heading(3), Heading(2), Heading(1)], level, x);
    } else if level == 3 {
      HeadingAmong(rules, [Heading(4)], [Heading(2), Heading(1)], level, x);
    } else if level == 2 {
      HeadingAmong(rules, [Heading(4), Heading(3)], [Heading(1)], level, x);
    } else {
      HeadingAmong(rules, [Heading(4), Heading(3), Heading(2)], [], level, x);
    }
  }

  lemma HeadingAmong(rules: seq<Rule>, before: seq<Rule>, after: seq<Rule>, level: Level, x: seq<Tok>)
    requires |x| > 0 && OneLine(x)
    requires rules == before + [Heading(level)] + after
    requires forall j :: 0 <= j < |before| ==> before[j].Heading? && before[j].level != level
    requires forall j :: 0 <= j < |after| ==> LineAnchored(after[j])
    ensures RunPasses(rules, HeadingMark(level) + x) == [HeadingTag(level)] + x + [HeadingEndTag(level)]
  {
    var s := HeadingMark(level) + x;
    var r := [HeadingTag(level)] + x + [HeadingEndTag(level)];
    assert RunPasses(before, s) == s by {
      forall j | 0 <= j < |before| ensures Pass(before[j], s) == s {
        OtherHeadingPass(before[j].level, level, x);
      }
      RunPassesFixed(before, s);
    }
    assert Pass(Heading(level), s) == r by {
      HeadingPass(level, x);
    }
    assert RunPasses(after, r) == r by {
      assert OneLine(r) by {
        OneLineAppend([HeadingTag(level)], x);
        OneLineAppend([HeadingTag(level)] + x, [HeadingEndTag(level)]);
      }
      forall j | 0 <= j < |after| ensures Pass(after[j], r) == r {
        AnchoredAfterTag(after[j], r);
      }
      RunPassesFixed(after, r);
    }
    ThreeStages(before, Heading(level), after, s, r);
  }

  /** Text no emphasis pass can begin a match in: no `*` and no `_`. */
  predicate NoEmphasisMark(x: seq<Tok>) {
    forall i :: 0 <= i < |x| ==> x[i] != Ch('*') && x[i] != Ch('_')
  }

  /** `dd x dd`, with `x` a non-empty piece of one line not containing the
      delimiter's character, becomes `x` between the pass's tags. */
  lemma EmphasisPass(e: Emph, x: seq<Tok>)
    requires |x| > 0 && OneLine(x)
    requires forall i :: 0 <= i < |x| ==> x[i] != Delim(e)[0]
    ensures Pass(Emphasis(e), Delim(e) + x + Delim(e)) == Open(e) + x + Close(e)
  {
    var s := Delim(e) + x + Delim(e);
    EmphasisMatch(e, x);
    WholeMatch(Emphasis(e), s, Open(e) + x + Close(e));
  }

  lemma EmphasisMatch(e: Emph, x: seq<Tok>)
    requires |x| > 0 && OneLine(x)
    requires forall i :: 0 <= i < |x| ==> x[i] != Delim(e)[0]
    ensures var s := Delim(e) + x + Delim(e);
      MatchAt(Emphasis(e), s, true) == Some(Match(|s|, Open(e) + x + Close(e)))
  {
    var m := Delim(e);
    var s := m + x + m;
    var q := |m| + |x|;
    DelimitedShape(m, x);
    ClosingFound(m, x);
    EmphasisFound(e, s, m, q);
    EmphasisAt(e, s);
  }

  /** Text between two copies of a delimiter starts with the delimiter,
      holds the text and ends with the delimiter. */
  lemma DelimitedShape(m: seq<Tok>, x: seq<Tok>)
    requires |x| > 0
    ensures var s := m + x + m;
      && StartsWith(s, m) && |m| < |s| && s[|m|] == x[0]
      && s[|m|..|m| + |x|] == x && |s| == |m| + |x| + |m|
  {
    var s := m + x + m;
    assert s[..|m|] == m;
    assert s[|m|..|m| + |x|] == x;
  }

  /** The closing delimiter is found right after one line of text that
      holds no delimiter's first token. */
  lemma ClosingFound(m: seq<Tok>, x: seq<Tok>)
    requires |m| > 0 && |x| > 0 && OneLine(x)
    requires forall i :: 0 <= i < |x| ==> x[i] != m[0]
    ensures FindBefore(m + x + m, |m| + 1, m, IsLineBreak) == Some(|m| + |x|)
  {
    var s := m + x + m;
    var q := |m| + |x|;
    assert s[q..] == m;
    forall i | |m| + 1 <= i < q ensures !IsLineBreak(s[i]) && s[i] != m[0] {
      assert s[i] == x[i - |m|];
    }
    FindBeforeAt(s, |m| + 1, m, IsLineBreak, q);
  }

  /** The emphasis pattern's match once the closing delimiter `m` is
      found. */
  lemma EmphasisFound(e: Emph, s: seq<Tok>, m: seq<Tok>, q: nat)
    requires m == Delim(e)
    requires StartsWith(s, m) && |m| < |s| && !IsLineBreak(s[|m|])
    requires FindBefore(s, |m| + 1, m, IsLineBreak) == Some(q)
    ensures MatchEmphasis(e, s) == Some(Match(q + |m|, Open(e) + s[|m|..q] + Close(e)))
  {
    DelimitedFound(m, Open(e), Close(e), s, q);
  }

  lemma DelimitedFound(m: seq<Tok>, open: seq<Tok>, close: seq<Tok>, s: seq<Tok>, q: nat)
    requires StartsWith(s, m) && |m| < |s| && !IsLineBreak(s[|m|])
    requires FindBefore(s, |m| + 1, m, IsLineBreak) == Some(q)
    ensures MatchDelimited(m, open, close, s) == Some(Match(q + |m|, open + s[|m|..q] + close))
  {
  }

  /** A pass whose pattern matches the whole text from its start replaces
      it by that match's replacement. */
  lemma WholeMatch(rule: Rule, s: seq<Tok>, out: seq<Tok>)
    requires MatchAt(rule, s, true) == Some(Match(|s|, out))
    ensures Pass(rule, s) == out
  {
    assert s[|s|..] == [];
    assert Scan(rule, s[|s|..], IsLineBreak(s[|s| - 1])) == [];
  }

  /** The five emphasis passes make `***x***` bold italic: the triple pass
      runs first and leaves nothing the later passes can match. */
  lemma TripleEmphasisPasses(rules: seq<Rule>, x: seq<Tok>)
    requires rules == [Emphasis(TripleStar), Emphasis(DoubleStar), Emphasis(SingleStar),
                       Emphasis(DoubleUnderscore), Emphasis(SingleUnderscore)]
    requires |x| > 0 && OneLine(x) && NoEmphasisMark(x)
    ensures RunPasses(rules, Delim(TripleStar) + x + Delim(TripleStar))
         == [Tag("strong"), Tag("em")] + x + [Tag("/em"), Tag("/strong")]
  {
    var s := Delim(TripleStar) + x + Delim(TripleStar);
    var r := Open(TripleStar) + x + Close(TripleStar);
    EmphasisPass(TripleStar, x);
    LaterEmphasisSkip(rules[1..], x, r);
    FirstThenRest(rules, s, r);
  }

  /** A pass that makes `r` out of `s`, followed by passes that leave `r`
      alone. */
  lemma FirstThenRest(rules: seq<Rule>, s: seq<Tok>, r: seq<Tok>)
    requires |rules| > 0 && Pass(rules[0], s) == r && RunPasses(rules[1..], r) == r
    ensures RunPasses(rules, s) == r
  {
  }

  /** After the triple pass no emphasis delimiter is left for the other
      emphasis passes. */
  lemma LaterEmphasisSkip(after: seq<Rule>, x: seq<Tok>, r: seq<Tok>)
    requires after == [Emphasis(DoubleStar), Emphasis(SingleStar),
                       Emphasis(DoubleUnderscore), Emphasis(SingleUnderscore)]
    requires NoEmphasisMark(x) && r == Open(TripleStar) + x + Close(TripleStar)
    ensures RunPasses(after, r) == r
  {
    forall j | 0 <= j < |after| ensures Pass(after[j], r) == r {
      StrongEmUnkeyed(after[j], x, r);
      ScanUnkeyed(after[j], r, true);
    }
    RunPassesFixed(after, r);
  }

  lemma StrongEmUnkeyed(rule: Rule, x: seq<Tok>, r: seq<Tok>)
    requires rule.Emphasis? && NoEmphasisMark(x) && r == Open(TripleStar) + x + Close(TripleStar)
    ensures forall i :: 0 <= i < |r| ==> !Keyed(rule, r[i])
  {
    forall i | 0 <= i < |r| ensures !Keyed(rule, r[i]) {
      if 2 <= i < 2 + |x| {
        assert r[i] == x[i - 2];
      } else {
        TagNeverKeyed(rule, r[i].name);
      }
    }
  }

  /** `` `x` ``, with `x` free of backticks and newlines, becomes a code
      span. */
  lemma InlineCodePass(x: seq<Tok>)
    requires |x| > 0 && forall i :: 0 <= i < |x| ==> InCodeSpan(x[i])
    ensures Pass(InlineCode, [Tick] + x + [Tick]) == [Tag("code")] + x + [Tag("/code")]
  {
    var s := [Tick] + x + [Tick];
    assert Span(s[1..], InCodeSpan) == |x| by {
      assert s[1..] == x + [Tick];
      SpanAll(x, InCodeSpan);
      SpanAppend(x, [Tick], InCodeSpan);
    }
    assert s[1..|x| + 1] == x;
    var out := [Tag("code")] + x + [Tag("/code")];
    assert MatchInlineCode(s) == Some(Match(|s|, out));
    InlineAt(s);
    WholeMatch(InlineCode, s, out);
  }

  /** A fence with a language word (possibly none), a newline and
      backtick-free code becomes a `<pre><code>` block holding the trimmed
      code; the language word is dropped. */
  lemma FencedPass(lang: seq<Tok>, code: seq<Tok>)
    requires forall i :: 0 <= i < |lang| ==> IsWordTok(lang[i])
    requires forall i :: 0 <= i < |code| ==> code[i] != Tick
    ensures Pass(FencedCode, Fence + lang + [Newline] + code + Fence)
         == [Tag("pre"), Tag("code")] + TrimToks(code) + [Tag("/code"), Tag("/pre")]
  {
    var s := Fence + lang + [Newline] + code + Fence;
    var out := [Tag("pre"), Tag("code")] + TrimToks(code) + [Tag("/code"), Tag("/pre")];
    FencedMatch(lang, code, s);
    FencedAt(s);
    WholeMatch(FencedCode, s, out);
  }

  lemma FencedMatch(lang: seq<Tok>, code: seq<Tok>, s: seq<Tok>)
    requires forall i :: 0 <= i < |lang| ==> IsWordTok(lang[i])
    requires forall i :: 0 <= i < |code| ==> code[i] != Tick
    requires s == Fence + lang + [Newline] + code + Fence
    ensures MatchFenced(s) == Some(Match(|s|, [Tag("pre"), Tag("code")] + TrimToks(code) + [Tag("/code"), Tag("/pre")]))
  {
    var b := 4 + |lang|;
    var e := b + |code|;
    assert |s| == e + 3;
    FenceOpen(lang, code, s);
    assert s[b..] == code + Fence;
    FenceClose(b, code, s);
    assert s[b..e] == code;
    FencedFound(s, b, e);
  }

  /** A fence whose code runs from `b` to the closing backticks at `e`,
      which end the text. */
  lemma FencedFound(s: seq<Tok>, b: nat, e: nat)
    requires StartsWith(s, Fence) && FenceBody(s) == b
    requires b <= e && |s| == e + 3 && IndexOf(s, Fence, b) == Some(e)
    ensures MatchFenced(s) == Some(Match(|s|, [Tag("pre"), Tag("code")] + TrimToks(s[b..e]) + [Tag("/code"), Tag("/pre")]))
  {
  }

  /** The code starts after the fence, the language word and the newline. */
  lemma FenceOpen(lang: seq<Tok>, code: seq<Tok>, s: seq<Tok>)
    requires forall i :: 0 <= i < |lang| ==> IsWordTok(lang[i])
    requires s == Fence + lang + [Newline] + code + Fence
    ensures StartsWith(s, Fence) && FenceBody(s) == 4 + |lang|
  {
    assert s[..3] == Fence;
    var rest := [Newline] + code + Fence;
    assert s[3..] == lang + rest;
    SpanAll(lang, IsWordTok);
    SpanAppend(lang, rest, IsWordTok);
    assert Span(rest, IsWordTok) == 0;
    assert s[3 + |lang|] == Newline;
  }

  lemma FenceClose(b: nat, code: seq<Tok>, s: seq<Tok>)
    requires forall i :: 0 <= i < |code| ==> code[i] != Tick
    requires b <= |s| && s[b..] == code + Fence
    ensures IndexOf(s, Fence, b) == Some(b + |code|)
  {
    var e := b + |code|;
    assert s[e..] == Fence;
    forall i | b <= i < e ensures s[i] != Fence[0] {
      assert s[i] == s[b..][i - b];
    }
    IndexOfAt(s, Fence, b, e);
  }

  /** Lines each made of a list marker and its text, joined by newlines,
      become one list with one item per line. */
  lemma ListPass(markers: seq<seq<Tok>>, texts: seq<seq<Tok>>, kind: Lists.ListKind)
    requires |markers| == |texts| >= 1
    requires forall k :: 0 <= k < |texts| ==> Lists.ItemLine(markers[k], texts[k], kind)
    requires |markers[0]| > 0 && !IsSpaceTok(markers[0][0])
    requires |Last(texts)| > 0 && !IsSpaceTok(Last(Last(texts)))
    ensures Pass(ListRule(kind), Join(Lists.Lines(markers, texts), [Newline])) == Lists.ListHtml(TrimEach(texts), kind)
    ensures TrimEach(texts) == texts ==>
      Pass(ListRule(kind), Join(Lists.Lines(markers, texts), [Newline])) == Lists.ListHtml(texts, kind)
  {
    var s := Join(Lists.Lines(markers, texts), [Newline]);
    var items := TrimEach(texts);
    assert Lists.BlockLen(s, kind) == |s| && Lists.ListBlock(s, kind) == Lists.ListHtml(items, kind) by {
      Lists.WellFormedList(markers, texts, kind);
    }
    assert |s| > 0 by {
      assert |Lists.Lines(markers, texts)[0]| > 0 by {
        Lists.LineNoBreak(markers[0], texts[0], kind);
      }
      JoinNonEmpty(Lists.Lines(markers, texts), [Newline]);
    }
    ListMatchWhole(kind, s);
    WholeMatch(ListRule(kind), s, Lists.ListHtml(items, kind));
  }

  lemma JoinNonEmpty<T>(parts: seq<seq<T>>, sep: seq<T>)
    requires |parts| >= 1 && |parts[0]| > 0
    ensures |Join(parts, sep)| > 0
  {
  }

  /** A text that is one list block from end to end is matched whole. */
  lemma ListMatchWhole(kind: Lists.ListKind, s: seq<Tok>)
    requires |s| > 0 && Lists.BlockLen(s, kind) == |s|
    ensures MatchAt(ListRule(kind), s, true) == Some(Match(|s|, Lists.ListBlock(s, kind)))
  {
    ListAt(kind, s);
    ListMatch(kind, s, |s|);
    WholeBlock(kind, s, |s|);
  }

  lemma ListMatch(kind: Lists.ListKind, s: seq<Tok>, n: nat)
    requires n == Lists.BlockLen(s, kind) && n > 0
    ensures MatchList(kind, s) == Some(Match(n, Lists.ListBlock(s[..n], kind)))
  {
  }

  lemma WholeBlock(kind: Lists.ListKind, s: seq<Tok>, n: nat)
    requires n == |s|
    ensures Lists.ListBlock(s[..n], kind) == Lists.ListBlock(s, kind)
  {
    assert s[..n] == s;
  }

  /** Tokens of plain text: input characters no pass treats specially. */
  predicate PlainToks(x: seq<Tok>) {
    forall i :: 0 <= i < |x| ==> x[i].Ch? && Plain(x[i].c)
  }

  lemma PlainOneLine(x: seq<Tok>)
    requires PlainToks(x)
    ensures OneLine(x) && NoEmphasisMark(x)
  {
  }

  /** The two code passes leave alone a text without backticks. */
  lemma CodePassesSkip(code: seq<Rule>, s: seq<Tok>)
    requires code == [FencedCode, InlineCode]
    requires forall i :: 0 <= i < |s| ==> s[i] != Tick
    ensures RunPasses(code, s) == s
  {
    forall j | 0 <= j < |code| ensures Pass(code[j], s) == s {
      ScanUnkeyed(code[j], s, true);
    }
    RunPassesFixed(code, s);
  }

  /** The passes after the headings leave alone a single line that begins
      with a tag and holds no emphasis mark. */
  lemma LaterPassesSkip(rest: seq<Rule>, r: seq<Tok>)
    requires rest == [Emphasis(TripleStar), Emphasis(DoubleStar), Emphasis(SingleStar),
                      Emphasis(DoubleUnderscore), Emphasis(SingleUnderscore),
                      HorizontalRule, Quote, TableRule, ListRule(Lists.Bullets), ListRule(Lists.Numbered)]
    requires |r| > 0 && r[0].Tag? && OneLine(r) && NoEmphasisMark(r)
    ensures RunPasses(rest, r) == r
  {
    forall j | 0 <= j < |rest| ensures Pass(rest[j], r) == r {
      if rest[j].Emphasis? {
        ScanUnkeyed(rest[j], r, true);
      } else {
        AnchoredAfterTag(rest[j], r);
      }
    }
    RunPassesFixed(rest, r);
  }

  /** Three groups of passes where only the middle one changes the text. */
  lemma Stages(code: seq<Rule>, mid: seq<Rule>, rest: seq<Rule>, s: seq<Tok>, r: seq<Tok>)
    requires RunPasses(code, s) == s && RunPasses(mid, s) == r && RunPasses(rest, r) == r
    ensures RunPasses(code + mid + rest, s) == r
  {
    RunPassesAppend(code + mid, rest, s);
    RunPassesAppend(code, mid, s);
  }

  /** A heading line of plain text holds no backtick. */
  lemma HeadingLineNoTick(level: Level, x: seq<Tok>)
    requires PlainToks(x)
    ensures var s := HeadingMark(level) + x; forall i :: 0 <= i < |s| ==> s[i] != Tick
  {
    var s := HeadingMark(level) + x;
    forall i | 0 <= i < |s| ensures s[i] != Tick {
      if i <= level {
        HeadingMarkAt(level, i);
      } else {
        assert s[i] == x[i - |HeadingMark(level)|];
      }
    }
  }

  /** A heading made of plain text is one line with no emphasis mark. */
  lemma HeadingOutPlain(level: Level, x: seq<Tok>)
    requires PlainToks(x)
    ensures var r := [HeadingTag(level)] + x + [HeadingEndTag(level)]; OneLine(r) && NoEmphasisMark(r)
  {
    var r := [HeadingTag(level)] + x + [HeadingEndTag(level)];
    forall i | 0 <= i < |r| ensures !IsLineBreak(r[i]) && r[i] != Ch('*') && r[i] != Ch('_') {
      if 1 <= i <= |x| {
        assert r[i] == x[i - 1];
      }
    }
  }

  /** The code passes find no backtick in a heading line of plain text. */
  lemma HeadingCodeStage(code: seq<Rule>, level: Level, x: seq<Tok>)
    requires code == [FencedCode, InlineCode]
    requires PlainToks(x)
    ensures RunPasses(code, HeadingMark(level) + x) == HeadingMark(level) + x
  {
    HeadingLineNoTick(level, x);
    CodePassesSkip(code, HeadingMark(level) + x);
  }

  /** The heading passes make the heading. */
  lemma HeadingStage(hs: seq<Rule>, level: Level, x: seq<Tok>)
    requires hs == [Heading(4), Heading(3), Heading(2), Heading(1)]
    requires |x| > 0 && PlainToks(x)
    ensures RunPasses(hs, HeadingMark(level) + x) == [HeadingTag(level)] + x + [HeadingEndTag(level)]
  {
    PlainOneLine(x);
    HeadingPasses(hs, level, x);
  }

  /** Every later pass finds no mark after the heading tag. */
  lemma HeadingRestStage(rest: seq<Rule>, level: Level, x: seq<Tok>)
    requires rest == [Emphasis(TripleStar), Emphasis(DoubleStar), Emphasis(SingleStar),
                      Emphasis(DoubleUnderscore), Emphasis(SingleUnderscore),
                      HorizontalRule, Quote, TableRule, ListRule(Lists.Bullets), ListRule(Lists.Numbered)]
    requires PlainToks(x)
    ensures var r := [HeadingTag(level)] + x + [HeadingEndTag(level)]; RunPasses(rest, r) == r
  {
    HeadingOutPlain(level, x);
    LaterPassesSkip(rest, [HeadingTag(level)] + x + [HeadingEndTag(level)]);
  }

  /** The digit of a heading level. */
  function LevelDigit(level: Level): char {
    "1234"[level - 1]
  }

  /** The rendered form of a text whose passes yield `r`. */
  lemma RenderFrom(md: string, r: seq<Tok>)
    requires RunPasses(Passes, Input(md)) == r
    ensures Render(md) == Serialize(Paragraphs.Paragraphs(r))
  {
  }

  /** The escaped tokens of a heading line of plain text. */
  lemma HeadingInput(level: Level, t: string)
    requires PlainText(t)
    ensures Input(Repeat('#', level) + " " + t) == HeadingMark(level) + Chars(t)
  {
    HeadingLineUnescaped(level, t);
    EscapeKeeps(Repeat('#', level) + " " + t);
    CharsAppend(Repeat('#', level) + " ", t);
    HeadingMarkChars(level);
  }

  lemma HeadingLineUnescaped(level: Level, t: string)
    requires PlainText(t)
    ensures var md := Repeat('#', level) + " " + t; forall i :: 0 <= i < |md| ==> Unescaped(md[i])
  {
    var md := Repeat('#', level) + " " + t;
    forall i | 0 <= i < |md| ensures Unescaped(md[i]) {
      if i >= level + 1 {
        assert md[i] == t[i - level - 1];
      }
    }
  }

  lemma HeadingMarkChars(level: Level)
    ensures Chars(Repeat('#', level) + " ") == HeadingMark(level)
  {
    forall i | 0 <= i <= level ensures Chars(Repeat('#', level) + " ")[i] == HeadingMark(level)[i] {
      HeadingMarkAt(level, i);
    }
  }

  /** All the renderer's passes, in order, make a heading of a heading
      line of plain text: the code passes find no backtick before it, the
      heading passes make it, and every later pass finds no mark after the
      tag. */
  lemma HeadingPipeline(rules: seq<Rule>, level: Level, x: seq<Tok>)
    requires rules == Passes
    requires |x| > 0 && PlainToks(x)
    ensures RunPasses(rules, HeadingMark(level) + x) == [HeadingTag(level)] + x + [HeadingEndTag(level)]
  {
    var code := [FencedCode, InlineCode];
    var hs := [Heading(4), Heading(3), Heading(2), Heading(1)];
    var rest := [Emphasis(TripleStar), Emphasis(DoubleStar), Emphasis(SingleStar),
                 Emphasis(DoubleUnderscore), Emphasis(SingleUnderscore),
                 HorizontalRule, Quote, TableRule, ListRule(Lists.Bullets), ListRule(Lists.Numbered)];
    assert rules == code + hs + rest;
    HeadingCodeStage(code, level, x);
    HeadingStage(hs, level, x);
    HeadingRestStage(rest, level, x);
    Stages(code, hs, rest, HeadingMark(level) + x, [HeadingTag(level)] + x + [HeadingEndTag(level)]);
  }

  /** The paragraph pass keeps a heading of plain text as it is. */
  lemma HeadingKept(level: Level, x: seq<Tok>)
    requires PlainToks(x)
    ensures var r := [HeadingTag(level)] + x + [HeadingEndTag(level)]; Paragraphs.Paragraphs(r) == r
  {
    var r := [HeadingTag(level)] + x + [HeadingEndTag(level)];
    HeadingOutPlain(level, x);
    assert !Paragraphs.HasBreak(r);
    assert HeadingTag(level).name in Paragraphs.BlockNames;
    Paragraphs.KeptBlock(r, HeadingTag(level).name);
  }

  /** A heading is written out as `<hn>text</hn>`. */
  lemma HeadingHtml(level: Level, t: string)
    ensures Serialize([HeadingTag(level)] + Chars(t) + [HeadingEndTag(level)])
         == "<h" + [LevelDigit(level)] + ">" + t + "</h" + [LevelDigit(level)] + ">"
  {
    var h := "<h" + [LevelDigit(level)] + ">";
    var e := "</h" + [LevelDigit(level)] + ">";
    assert Serialize([HeadingTag(level)]) == h;
    assert Serialize([HeadingEndTag(level)]) == e;
    SerializeAround([HeadingTag(level)], t, [HeadingEndTag(level)], h, e);
  }

  /** `"#"×n + " " + text`, n from 1 to 4, with plain text, renders as
      `<hn>text</hn>`. */
  lemma RenderHeading(level: Level, t: string)
    requires |t| > 0 && PlainText(t)
    ensures Render(Repeat('#', level) + " " + t)
         == "<h" + [LevelDigit(level)] + ">" + t + "</h" + [LevelDigit(level)] + ">"
  {
    var md := Repeat('#', level) + " " + t;
    var r := [HeadingTag(level)] + Chars(t) + [HeadingEndTag(level)];
    HeadingInput(level, t);
    HeadingPipeline(Passes, level, Chars(t));
    RenderFrom(md, r);
    HeadingKept(level, Chars(t));
    HeadingHtml(level, t);
  }

  /** The passes before the emphasis passes leave alone a line of plain
      text between `***` delimiters: no backtick, no `#` at its start. */
  lemma EarlyPassesSkip(early: seq<Rule>, s: seq<Tok>)
    requires early == [FencedCode, InlineCode, Heading(4), Heading(3), Heading(2), Heading(1)]
    requires |s| > 0 && s[0] == Ch('*') && OneLine(s)
    requires forall i :: 0 <= i < |s| ==> s[i] != Tick
    ensures RunPasses(early, s) == s
  {
    forall j | 0 <= j < |early| ensures Pass(early[j], s) == s {
      if early[j].Heading? {
        MatchKeyed(early[j], s, true);
        AnchoredOneLine(early[j], s, true);
      } else {
        ScanUnkeyed(early[j], s, true);
      }
    }
    RunPassesFixed(early, s);
  }

  /** The line-anchored passes leave alone a line that begins with a tag. */
  lemma BlockPassesSkip(blocks: seq<Rule>, r: seq<Tok>)
    requires blocks == [HorizontalRule, Quote, TableRule, ListRule(Lists.Bullets), ListRule(Lists.Numbered)]
    requires |r| > 0 && r[0].Tag? && OneLine(r)
    ensures RunPasses(blocks, r) == r
  {
    forall j | 0 <= j < |blocks| ensures Pass(blocks[j], r) == r {
      AnchoredAfterTag(blocks[j], r);
    }
    RunPassesFixed(blocks, r);
  }

  /** A bold italic line of plain text. */
  lemma StrongEmLine(x: seq<Tok>)
    requires |x| > 0 && PlainToks(x)
    ensures var s := Delim(TripleStar) + x + Delim(TripleStar);
      s[0] == Ch('*') && OneLine(s) && forall i :: 0 <= i < |s| ==> s[i] != Tick
    ensures var r := Open(TripleStar) + x + Close(TripleStar);
      r[0].Tag? && OneLine(r) && Newline !in r
  {
    var s := Delim(TripleStar) + x + Delim(TripleStar);
    forall i | 0 <= i < |s| ensures s[i] != Tick && !IsLineBreak(s[i]) {
      if 3 <= i < 3 + |x| {
        assert s[i] == x[i - 3];
      }
    }
    var r := Open(TripleStar) + x + Close(TripleStar);
    forall i | 0 <= i < |r| ensures !IsLineBreak(r[i]) && r[i] != Newline {
      if 2 <= i < 2 + |x| {
        assert r[i] == x[i - 2];
      }
    }
  }

  /** All the renderer's passes, in order, make `***x***` bold italic. */
  lemma StrongEmPipeline(rules: seq<Rule>, x: seq<Tok>)
    requires rules == Passes
    requires |x| > 0 && PlainToks(x)
    ensures RunPasses(rules, Delim(TripleStar) + x + Delim(TripleStar)) == Open(TripleStar) + x + Close(TripleStar)
  {
    var s := Delim(TripleStar) + x + Delim(TripleStar);
    var r := Open(TripleStar) + x + Close(TripleStar);
    var early := [FencedCode, InlineCode, Heading(4), Heading(3), Heading(2), Heading(1)];
    var es := [Emphasis(TripleStar), Emphasis(DoubleStar), Emphasis(SingleStar),
               Emphasis(DoubleUnderscore), Emphasis(SingleUnderscore)];
    var blocks := [HorizontalRule, Quote, TableRule, ListRule(Lists.Bullets), ListRule(Lists.Numbered)];
    assert rules == early + es + blocks;
    StrongEmLine(x);
    assert RunPasses(early, s) == s by {
      EarlyPassesSkip(early, s);
    }
    assert RunPasses(es, s) == r by {
      PlainOneLine(x);
      TripleEmphasisPasses(es, x);
    }
    assert RunPasses(blocks, r) == r by {
      BlockPassesSkip(blocks, r);
    }
    Stages(early, es, blocks, s, r);
  }

  /** The escaped tokens of `***text***` with plain text. */
  lemma StrongEmInput(t: string)
    requires PlainText(t)
    ensures Input("***" + t + "***") == Delim(TripleStar) + Chars(t) + Delim(TripleStar)
  {
    StrongEmEscape(t);
    CharsAround("***", t, "***");
    assert Chars("***") == Delim(TripleStar);
  }

  lemma StrongEmEscape(t: string)
    requires PlainText(t)
    ensures Escape.EscapeHtml("***" + t + "***") == "***" + t + "***"
  {
    StrongEmUnescaped(t);
    EscapeKeeps("***" + t + "***");
  }

  lemma CharsAround(a: string, t: string, b: string)
    ensures Chars(a + t + b) == Chars(a) + Chars(t) + Chars(b)
  {
    CharsAppend(a + t, b);
    CharsAppend(a, t);
  }

  lemma StrongEmUnescaped(t: string)
    requires PlainText(t)
    ensures var md := "***" + t + "***"; forall i :: 0 <= i < |md| ==> Unescaped(md[i])
  {
    var md := "***" + t + "***";
    forall i | 0 <= i < |md| ensures Unescaped(md[i]) {
      if 3 <= i < 3 + |t| {
        assert md[i] == t[i - 3];
      }
    }
  }

  /** The paragraph pass wraps a bold italic line in `<p>`. */
  lemma StrongEmParagraph(x: seq<Tok>, r: seq<Tok>)
    requires |x| > 0 && PlainToks(x)
    requires r == Open(TripleStar) + x + Close(TripleStar)
    ensures Paragraphs.Paragraphs(r) == [Tag("p"), Tag("strong"), Tag("em")] + x + [Tag("/em"), Tag("/strong"), Tag("/p")]
  {
    StrongEmWrapped(x, r);
    StrongEmRegroup(x, r);
  }

  lemma StrongEmRegroup(x: seq<Tok>, r: seq<Tok>)
    requires r == Open(TripleStar) + x + Close(TripleStar)
    ensures [Tag("p")] + r + [Tag("/p")] == [Tag("p"), Tag("strong"), Tag("em")] + x + [Tag("/em"), Tag("/strong"), Tag("/p")]
  {
    Regroup([Tag("p")], Open(TripleStar), x, Close(TripleStar), [Tag("/p")]);
    assert [Tag("p")] + Open(TripleStar) == [Tag("p"), Tag("strong"), Tag("em")];
    assert Close(TripleStar) + [Tag("/p")] == [Tag("/em"), Tag("/strong"), Tag("/p")];
  }

  lemma StrongEmWrapped(x: seq<Tok>, r: seq<Tok>)
    requires |x| > 0 && PlainToks(x)
    requires r == Open(TripleStar) + x + Close(TripleStar)
    ensures Paragraphs.Paragraphs(r) == [Tag("p")] + r + [Tag("/p")]
  {
    StrongEmLine(x);
    assert !Paragraphs.BlockStart(r) by {
      Paragraphs.OtherTagNoBlockStart(r, "strong");
    }
    Paragraphs.WrappedParagraph(r);
    Paragraphs.NoBreaks(r);
  }

  lemma Regroup<T>(a: seq<T>, b: seq<T>, x: seq<T>, c: seq<T>, d: seq<T>)
    ensures a + (b + x + c) + d == (a + b) + x + (c + d)
  {
  }

  lemma SerializeThree(a: Tok, b: Tok, c: Tok)
    ensures Serialize([a, b, c]) == Piece(a) + Piece(b) + Piece(c)
  {
    var pa, pb, pc := Piece(a), Piece(b), Piece(c);
    SerializeCons(a, [b, c]);
    SerializeCons(b, [c]);
    SerializeCons(c, []);
    assert [a] + [b, c] == [a, b, c];
    assert [b] + [c] == [b, c];
    assert [c] + [] == [c];
    assert pc + "" == pc;
    assert pa + (pb + pc) == pa + pb + pc;
  }

  lemma SerializeCons(t: Tok, rest: seq<Tok>)
    ensures Serialize([t] + rest) == Piece(t) + Serialize(rest)
  {
    assert ([t] + rest)[1..] == rest;
  }

  /** Text between two groups of tokens is written out between their
      texts. */
  lemma SerializeAround(head: seq<Tok>, t: string, tail: seq<Tok>, h: string, e: string)
    requires Serialize(head) == h && Serialize(tail) == e
    ensures Serialize(head + Chars(t) + tail) == h + t + e
  {
    SerializeAppend(head + Chars(t), tail);
    SerializeAppend(head, Chars(t));
    SerializeChars(t);
  }

  lemma StrongEmHead()
    ensures Serialize([Tag("p"), Tag("strong"), Tag("em")]) == "<p><strong><em>"
  {
    SerializeThree(Tag("p"), Tag("strong"), Tag("em"));
  }

  lemma StrongEmTail()
    ensures Serialize([Tag("/em"), Tag("/strong"), Tag("/p")]) == "</em></strong></p>"
  {
    SerializeThree(Tag("/em"), Tag("/strong"), Tag("/p"));
  }

  /** The paragraph around a bold italic text is written out as
      `<p><strong><em>text</em></strong></p>`. */
  lemma StrongEmHtml(t: string)
    ensures Serialize([Tag("p"), Tag("strong"), Tag("em")] + Chars(t) + [Tag("/em"), Tag("/strong"), Tag("/p")])
         == "<p><strong><em>" + t + "</em></strong></p>"
  {
    StrongEmHead();
    StrongEmTail();
    SerializeAround([Tag("p"), Tag("strong"), Tag("em")], t, [Tag("/em"), Tag("/strong"), Tag("/p")],
      "<p><strong><em>", "</em></strong></p>");
  }

  /** `***text***` with plain text renders as a paragraph holding bold
      italic text. */
  lemma RenderStrongEm(t: string)
    requires |t| > 0 && PlainText(t)
    ensures Render("***" + t + "***") == "<p><strong><em>" + t + "</em></strong></p>"
  {
    var x := Chars(t);
    var r := Open(TripleStar) + x + Close(TripleStar);
    StrongEmInput(t);
    StrongEmPipeline(Passes, x);
    RenderFrom("***" + t + "***", r);
    StrongEmParagraph(x, r);
    StrongEmHtml(t);
  }
}

=== FILE: rules.dfy ===
/** The rewriting passes of the renderer (accounting.js:354-398). Each is a
    global regular-expression replacement: the text is read from left to
    right, and at every position either one match of the pass's pattern is
    taken and its replacement emitted, or one token is copied. A multiline
    `^` holds at the start of the text and after a line terminator of the
    text being read, so the scan carries whether the last token it consumed
    was one. */
module Rules {
  import opened Wrappers
  import opened Seqs
  import Text
  import opened Markup
  import Tables
  import Lists

  /** The five emphasis passes, in the order they run. */
  datatype Emph = TripleStar | DoubleStar | SingleStar | DoubleUnderscore | SingleUnderscore

  type Level = n: nat | 1 <= n <= 4 witness 1

  datatype Rule =
    | FencedCode
    | InlineCode
    | Heading(level: Level)
    | Emphasis(e: Emph)
    | HorizontalRule
    | Quote
    | TableRule
    | ListRule(kind: Lists.ListKind)

  /** One match: how many tokens it takes and what replaces them. */
  datatype Match = Match(len: nat, out: seq<Tok>)

  const Tick: Tok := Ch('`')
  const Fence: seq<Tok> := [Tick, Tick, Tick]
  const Newline: Tok := Ch('\n')
  const Hash: Tok := Ch('#')
  const Space: Tok := Ch(' ')
  const Dash: Tok := Ch('-')
  /** `&gt; ` as the escaped input holds it. */
  const QuoteMark: seq<Tok> := [Ch('&'), Ch('g'), Ch('t'), Ch(';'), Ch(' ')]

  predicate IsWordTok(t: Tok) {
    t.Ch? && Text.IsWordChar(t.c)
  }

  /** `[^`\n]`: the class excludes only `\n` among the line terminators. */
  predicate InCodeSpan(t: Tok) {
    t != Tick && t != Newline
  }

  predicate IsDash(t: Tok) {
    t == Dash
  }

  function Delim(e: Emph): seq<Tok> {
    match e
    case TripleStar => [Ch('*'), Ch('*'), Ch('*')]
    case DoubleStar => [Ch('*'), Ch('*')]
    case SingleStar => [Ch('*')]
    case DoubleUnderscore => [Ch('_'), Ch('_')]
    case SingleUnderscore => [Ch('_')]
  }

  function Open(e: Emph): seq<Tok> {
    match e
    case TripleStar => [Tag("strong"), Tag("em")]
    case DoubleStar => [Tag("strong")]
    case DoubleUnderscore => [Tag("strong")]
    case SingleStar => [Tag("em")]
    case SingleUnderscore => [Tag("em")]
  }

  function Close(e: Emph): seq<Tok> {
    match e
    case TripleStar => [Tag("/em"), Tag("/strong")]
    case DoubleStar => [Tag("/strong")]
    case DoubleUnderscore => [Tag("/strong")]
    case SingleStar => [Tag("/em")]
    case SingleUnderscore => [Tag("/em")]
  }

  /** `#`×level followed by one space. */
  function HeadingMark(level: Level): seq<Tok> {
    Repeat(Hash, level) + [Space]
  }

  function HeadingTag(level: Level): Tok {
    if level == 1 then Tag("h1") else if level == 2 then Tag("h2") else if level == 3 then Tag("h3") else Tag("h4")
  }

  function HeadingEndTag(level: Level): Tok {
    if level == 1 then Tag("/h1") else if level == 2 then Tag("/h2") else if level == 3 then Tag("/h3") else Tag("/h4")
  }

  /** The patterns anchored with a multiline `^`. */
  predicate LineAnchored(rule: Rule) {
    rule.Heading? || rule.HorizontalRule? || rule.Quote? || rule.TableRule? || rule.ListRule?
  }

  /** The match of `rule` at the start of `s`, if any; `atStart` says
      whether a multiline `^` holds there. */
  function MatchAt(rule: Rule, s: seq<Tok>, atStart: bool): (r: Option<Match>)
    ensures r.Some? ==> 0 < r.value.len <= |s|
    ensures r.Some? && LineAnchored(rule) ==> atStart
  {
    match rule
    case FencedCode => MatchFenced(s)
    case InlineCode => MatchInlineCode(s)
    case Heading(level) => if atStart then MatchHeading(level, s) else None
    case Emphasis(e) => MatchEmphasis(e, s)
    case HorizontalRule => if atStart then MatchRule(s) else None
    case Quote => if atStart then MatchQuote(s) else None
    case TableRule => if atStart then MatchTable(s) else None
    case ListRule(kind) => if atStart then MatchList(kind, s) else None
  }

  /** The fenced-code rule is exactly its matcher. */
  lemma FencedAt(s: seq<Tok>)
    ensures MatchAt(FencedCode, s, true) == MatchFenced(s)
  {
  }

  /** The code-span rule is exactly its matcher. */
  lemma InlineAt(s: seq<Tok>)
    ensures MatchAt(InlineCode, s, true) == MatchInlineCode(s)
  {
  }

  /** An emphasis rule is exactly its matcher. */
  lemma EmphasisAt(e: Emph, s: seq<Tok>)
    ensures MatchAt(Emphasis(e), s, true) == MatchEmphasis(e, s)
  {
  }

  /** At a line start the list rule is exactly the list matcher. */
  lemma ListAt(kind: Lists.ListKind, s: seq<Tok>)
    ensures MatchAt(ListRule(kind), s, true) == MatchList(kind, s)
  {
    ListRuleAt(ListRule(kind), s);
  }

  /** At a line start any list rule is the list matcher of its kind. */
  lemma ListRuleAt(rule: Rule, s: seq<Tok>)
    requires rule.ListRule?
    ensures MatchAt(rule, s, true) == MatchList(rule.kind, s)
  {
  }

  /** ```` ```[\w]*\n?([\s\S]*?)``` ````, the code trimmed. */
  function MatchFenced(s: seq<Tok>): (r: Option<Match>)
    ensures r.Some? ==> 0 < r.value.len <= |s|
  {
    if !StartsWith(s, Fence) then None
    else
      var c := FenceBody(s);
      match IndexOf(s, Fence, c)
      case None => None
      case Some(e) => Some(Match(e + 3, [Tag("pre"), Tag("code")] + TrimToks(s[c..e]) + [Tag("/code"), Tag("/pre")]))
  }

  /** Where the code of a fence starts: after the opening backticks, the
      language word and one newline if present. */
  function FenceBody(s: seq<Tok>): (c: nat)
    requires StartsWith(s, Fence)
    ensures 3 <= c <= |s|
  {
    var w := 3 + Span(s[3..], IsWordTok);
    if w < |s| && s[w] == Newline then w + 1 else w
  }

  /** `` `([^`\n]+)` ``. */
  function MatchInlineCode(s: seq<Tok>): (r: Option<Match>)
    ensures r.Some? ==> 0 < r.value.len <= |s|
  {
    if |s| == 0 || s[0] != Tick then None
    else
      var n := Span(s[1..], InCodeSpan);
      if n >= 1 && n + 1 < |s| && s[n + 1] == Tick then Some(Match(n + 2, [Tag("code")] + s[1..n + 1] + [Tag("/code")]))
      else None
  }

  /** `^#### (.+)$` and the like, at a line start. */
  function MatchHeading(level: Level, s: seq<Tok>): (r: Option<Match>)
    ensures r.Some? ==> 0 < r.value.len <= |s|
  {
    var p := |HeadingMark(level)|;
    if !StartsWith(s, HeadingMark(level)) then None
    else
      var n := LineLen(s[p..]);
      if n == 0 then None else Some(Match(p + n, [HeadingTag(level)] + s[p..p + n] + [HeadingEndTag(level)]))
  }

  /** `\*\*\*(.+?)\*\*\*` and the like: the shortest content that reaches
      the closing delimiter without crossing a line end. */
  function MatchEmphasis(e: Emph, s: seq<Tok>): (r: Option<Match>)
    ensures r.Some? ==> 0 < r.value.len <= |s|
  {
    MatchDelimited(Delim(e), Open(e), Close(e), s)
  }

  /** The lazy match of text between two copies of `m` on one line. */
  function MatchDelimited(m: seq<Tok>, open: seq<Tok>, close: seq<Tok>, s: seq<Tok>): (r: Option<Match>)
    ensures r.Some? ==> 0 < r.value.len <= |s|
  {
    if !StartsWith(s, m) || |s| == |m| || IsLineBreak(s[|m|]) then None
    else
      match FindBefore(s, |m| + 1, m, IsLineBreak)
      case None => None
      case Some(q) => Some(Match(q + |m|, open + s[|m|..q] + close))
  }

  /** `^---+$`, at a line start. */
  function MatchRule(s: seq<Tok>): (r: Option<Match>)
    ensures r.Some? ==> 0 < r.value.len <= |s|
  {
    var d := Span(s, IsDash);
    if d >= 3 && (d == |s| || IsLineBreak(s[d])) then Some(Match(d, [Tag("hr")])) else None
  }

  /** `^&gt; (.+)$`, at a line start. */
  function MatchQuote(s: seq<Tok>): (r: Option<Match>)
    ensures r.Some? ==> 0 < r.value.len <= |s|
  {
    if !StartsWith(s, QuoteMark) then None
    else
      var n := LineLen(s[5..]);
      if n == 0 then None else Some(Match(5 + n, [Tag("blockquote")] + s[5..5 + n] + [Tag("/blockquote")]))
  }

  /** `(?:^\|.+\|\n?)+`, at a line start, replaced by `renderTables`. */
  function MatchTable(s: seq<Tok>): (r: Option<Match>)
    ensures r.Some? ==> 0 < r.value.len <= |s|
  {
    var n := Tables.BlockLen(s);
    if n > 0 then Some(Match(n, Tables.TableBlock(s[..n]))) else None
  }

  /** `(?:^[ \t]*[-*+] .+\n?)+` or `(?:^[ \t]*\d+\. .+\n?)+`, at a line
      start. */
  function MatchList(kind: Lists.ListKind, s: seq<Tok>): (r: Option<Match>)
    ensures r.Some? ==> 0 < r.value.len <= |s|
  {
    var n := Lists.BlockLen(s, kind);
    if n > 0 then Some(Match(n, Lists.ListBlock(s[..n], kind))) else None
  }

  /** One global replacement pass of `rule` over `s`. */
  function Scan(rule: Rule, s: seq<Tok>, atStart: bool): seq<Tok>
    decreases |s|
  {
    if |s| == 0 then []
    else
      match MatchAt(rule, s, atStart)
      case Some(m) => m.out + Scan(rule, s[m.len..], IsLineBreak(s[m.len - 1]))
      case None => [s[0]] + Scan(rule, s[1..], IsLineBreak(s[0]))
  }

  /** A pass over the whole text. */
  function Pass(rule: Rule, s: seq<Tok>): seq<Tok> {
    Scan(rule, s, true)
  }

  /** A replacement holds only known tags and tokens of the matched text. */
  lemma MatchClean(rule: Rule, s: seq<Tok>, atStart: bool)
    requires Clean(s)
    ensures MatchAt(rule, s, atStart).Some? ==> Clean(MatchAt(rule, s, atStart).value.out)
  {
    match rule
    case FencedCode => FencedClean(s);
    case InlineCode => InlineCodeClean(s);
    case Heading(level) => HeadingClean(level, s);
    case Emphasis(e) => EmphasisClean(e, s);
    case HorizontalRule =>
    case Quote => QuoteClean(s);
    case TableRule =>
      var n := Tables.BlockLen(s);
      CleanSlice(s, 0, n);
      assert s[0..n] == s[..n];
      Tables.TableBlockClean(s[..n]);
    case ListRule(kind) =>
      var n := Lists.BlockLen(s, kind);
      CleanSlice(s, 0, n);
      assert s[0..n] == s[..n];
      Lists.ListBlockClean(s[..n], kind);
  }

  /** Tags around a clean part of the text are clean. */
  lemma WrapClean(open: seq<Tok>, s: seq<Tok>, i: nat, j: nat, close: seq<Tok>)
    requires i <= j <= |s|
    requires Clean(open) && Clean(s) && Clean(close)
    ensures Clean(open + s[i..j] + close)
  {
    CleanSlice(s, i, j);
    AroundClean(open, s[i..j], close);
  }

  lemma FencedClean(s: seq<Tok>)
    requires Clean(s)
    ensures MatchFenced(s).Some? ==> Clean(MatchFenced(s).value.out)
  {
    if MatchFenced(s).Some? {
      var c := FenceBody(s);
      var e := IndexOf(s, Fence, c).value;
      CodeBlockClean(s, c, e);
    }
  }

  lemma CodeBlockClean(s: seq<Tok>, c: nat, e: nat)
    requires Clean(s) && c <= e <= |s|
    ensures Clean([Tag("pre"), Tag("code")] + TrimToks(s[c..e]) + [Tag("/code"), Tag("/pre")])
  {
    CleanSlice(s, c, e);
    var open := [Tag("pre"), Tag("code")];
    var close := [Tag("/code"), Tag("/pre")];
    assert Clean(open) && Clean(close);
    AroundClean(open, TrimToks(s[c..e]), close);
  }

  lemma InlineCodeClean(s: seq<Tok>)
    requires Clean(s)
    ensures MatchInlineCode(s).Some? ==> Clean(MatchInlineCode(s).value.out)
  {
    if MatchInlineCode(s).Some? {
      WrapClean([Tag("code")], s, 1, Span(s[1..], InCodeSpan) + 1, [Tag("/code")]);
    }
  }

  lemma HeadingClean(level: Level, s: seq<Tok>)
    requires Clean(s)
    ensures MatchHeading(level, s).Some? ==> Clean(MatchHeading(level, s).value.out)
  {
    if MatchHeading(level, s).Some? {
      var p := |HeadingMark(level)|;
      WrapClean([HeadingTag(level)], s, p, p + LineLen(s[p..]), [HeadingEndTag(level)]);
    }
  }

  lemma EmphasisClean(e: Emph, s: seq<Tok>)
    requires Clean(s)
    ensures MatchEmphasis(e, s).Some? ==> Clean(MatchEmphasis(e, s).value.out)
  {
    if MatchEmphasis(e, s).Some? {
      var m := Delim(e);
      WrapClean(Open(e), s, |m|, FindBefore(s, |m| + 1, m, IsLineBreak).value, Close(e));
    }
  }

  lemma QuoteClean(s: seq<Tok>)
    requires Clean(s)
    ensures MatchQuote(s).Some? ==> Clean(MatchQuote(s).value.out)
  {
    if MatchQuote(s).Some? {
      WrapClean([Tag("blockquote")], s, 5, 5 + LineLen(s[5..]), [Tag("/blockquote")]);
    }
  }

  /** One step of a scan: what it emits, how much it consumes and whether
      a line starts after it. */
  datatype Step = Step(out: seq<Tok>, len: nat, nextStart: bool)

  function StepAt(rule: Rule, s: seq<Tok>, atStart: bool): (st: Step)
    requires |s| > 0
    ensures 0 < st.len <= |s|
  {
    match MatchAt(rule, s, atStart)
    case Some(m) => Step(m.out, m.len, IsLineBreak(s[m.len - 1]))
    case None => Step([s[0]], 1, IsLineBreak(s[0]))
  }

  lemma ScanUnfold(rule: Rule, s: seq<Tok>, atStart: bool)
    requires |s| > 0
    ensures var st := StepAt(rule, s, atStart);
      Scan(rule, s, atStart) == st.out + Scan(rule, s[st.len..], st.nextStart)
  {
  }

  /** A step over clean text emits clean text and leaves clean text. */
  lemma StepClean(rule: Rule, s: seq<Tok>, atStart: bool)
    requires Clean(s) && |s| > 0
    ensures Clean(StepAt(rule, s, atStart).out)
    ensures Clean(s[StepAt(rule, s, atStart).len..])
  {
    StepOutClean(rule, s, atStart);
    DropClean(s, StepAt(rule, s, atStart).len);
  }

  lemma StepOutClean(rule: Rule, s: seq<Tok>, atStart: bool)
    requires Clean(s) && |s| > 0
    ensures Clean(StepAt(rule, s, atStart).out)
  {
    MatchClean(rule, s, atStart);
    if MatchAt(rule, s, atStart).None? {
      assert StepAt(rule, s, atStart).out == [s[0]];
    }
  }

  lemma DropClean(s: seq<Tok>, n: nat)
    requires Clean(s) && n <= |s|
    ensures Clean(s[n..])
  {
    CleanSlice(s, n, |s|);
    assert s[n..|s|] == s[n..];
  }

  /** No pass brings in a raw `<` or a tag the renderer does not emit. */
  lemma {:induction false} ScanClean(rule: Rule, s: seq<Tok>, atStart: bool)
    requires Clean(s)
    ensures Clean(Scan(rule, s, atStart))
    decreases |s|
  {
    if |s| > 0 {
      var st := StepAt(rule, s, atStart);
      ScanUnfold(rule, s, atStart);
      StepClean(rule, s, atStart);
      ScanClean(rule, s[st.len..], st.nextStart);
      CleanAppend(st.out, Scan(rule, s[st.len..], st.nextStart));
    }
  }

  /** A scan that finds no match anywhere copies its input. */
  lemma {:induction false} ScanFixed(rule: Rule, s: seq<Tok>, atStart: bool)
    requires forall i, b :: 0 <= i < |s| ==> MatchAt(rule, s[i..], b).None?
    ensures Scan(rule, s, atStart) == s
    decreases |s|
  {
    if |s| > 0 {
      assert MatchAt(rule, s[0..], atStart).None?;
      assert s[0..] == s;
      forall i, b | 0 <= i < |s| - 1 ensures MatchAt(rule, s[1..][i..], b).None? {
        assert s[1..][i..] == s[i + 1..];
      }
      ScanFixed(rule, s[1..], IsLineBreak(s[0]));
      assert s == [s[0]] + s[1..];
    }
  }

  /** The tokens a match of `rule` can begin with. */
  predicate Keyed(rule: Rule, t: Tok) {
    match rule
    case FencedCode => t == Tick
    case InlineCode => t == Tick
    case Heading(_) => t == Hash
    case Emphasis(e) => t == Delim(e)[0]
    case HorizontalRule => t == Dash
    case Quote => t == Ch('&')
    case TableRule => t == Tables.Pipe
    case ListRule(kind) =>
      Lists.IsIndent(t) || (kind == Lists.Bullets && Lists.IsBullet(t)) || (kind == Lists.Numbered && Lists.IsDigitTok(t))
  }

  lemma MatchKeyed(rule: Rule, s: seq<Tok>, atStart: bool)
    ensures MatchAt(rule, s, atStart).Some? ==> Keyed(rule, s[0])
  {
    match rule
    case FencedCode =>
      if MatchFenced(s).Some? {
        PrefixHead(s, Fence);
      }
    case InlineCode =>
    case Heading(level) =>
      if MatchHeading(level, s).Some? {
        PrefixHead(s, HeadingMark(level));
        assert HeadingMark(level)[0] == Hash;
      }
    case Emphasis(e) =>
      if MatchEmphasis(e, s).Some? {
        PrefixHead(s, Delim(e));
      }
    case HorizontalRule =>
      SpanMaximal(s, IsDash);
    case Quote =>
      if MatchQuote(s).Some? {
        PrefixHead(s, QuoteMark);
      }
    case TableRule =>
    case ListRule(kind) =>
      Lists.BlockStartsWithMarker(s, kind);
  }

  /** A text that begins with a non-empty `p` begins with `p`'s first
      element. */
  lemma PrefixHead(s: seq<Tok>, p: seq<Tok>)
    requires |p| > 0 && StartsWith(s, p)
    ensures s[0] == p[0]
  {
    assert s[..|p|][0] == s[0];
  }

  /** A pass leaves alone a text holding none of the tokens its pattern
      begins with. */
  lemma ScanUnkeyed(rule: Rule, s: seq<Tok>, atStart: bool)
    requires forall i :: 0 <= i < |s| ==> !Keyed(rule, s[i])
    ensures Scan(rule, s, atStart) == s
  {
    forall i, b | 0 <= i < |s| ensures MatchAt(rule, s[i..], b).None? {
      MatchKeyed(rule, s[i..], b);
      assert s[i..][0] == s[i];
    }
    ScanFixed(rule, s, atStart);
  }

  predicate OneLine(s: seq<Tok>) {
    forall i :: 0 <= i < |s| ==> !IsLineBreak(s[i])
  }

  /** A line-anchored pass leaves alone a single line whose start it does
      not match: no `^` holds anywhere else on it. */
  lemma {:induction false} AnchoredOneLine(rule: Rule, s: seq<Tok>, atStart: bool)
    requires LineAnchored(rule) && OneLine(s)
    requires atStart ==> MatchAt(rule, s, true).None?
    ensures Scan(rule, s, atStart) == s
    decreases |s|
  {
    if |s| > 0 {
      AnchoredOneLine(rule, s[1..], false);
      assert s == [s[0]] + s[1..];
    }
  }
}

=== FILE: seqs.dfy ===
/** Generic sequence operations the source uses through JavaScript's string
    and array methods: `split` on one separator, `join`, `trim`, `filter`,
    `slice`, prefix tests and first/last occurrence searches. */
module Seqs {
  import opened Wrappers

  /** `p` is a prefix of `s`. */
  predicate StartsWith<T(==)>(s: seq<T>, p: seq<T>) {
    |p| <= |s| && s[..|p|] == p
  }

  function Last<T>(s: seq<T>): T
    requires |s| > 0
  {
    s[|s| - 1]
  }

  /** `n` copies of `x`. */
  function Repeat<T>(x: T, n: nat): (r: seq<T>)
    ensures |r| == n
    ensures forall i :: 0 <= i < n ==> r[i] == x
  {
    if n == 0 then [] else [x] + Repeat(x, n - 1)
  }

  /** Flattening of a sequence of sequences. */
  function Concat<T>(ss: seq<seq<T>>): seq<T> {
    if |ss| == 0 then [] else ss[0] + Concat(ss[1..])
  }

  lemma {:induction false} ConcatAppend<T>(a: seq<seq<T>>, b: seq<seq<T>>)
    ensures Concat(a + b) == Concat(a) + Concat(b)
  {
    if |a| == 0 {
      assert a + b == b;
    } else {
      assert (a + b)[1..] == a[1..] + b;
      ConcatAppend(a[1..], b);
    }
  }

  /** Number of occurrences of `x` in `s`. */
  function Count<T(==)>(s: seq<T>, x: T): nat {
    if |s| == 0 then 0 else (if s[0] == x then 1 else 0) + Count(s[1..], x)
  }

  /** Length of the longest prefix of `s` whose elements all satisfy `p`
      (a greedy regular-expression repetition `[...]*`). */
  function Span<T>(s: seq<T>, p: T -> bool): (n: nat)
    ensures n <= |s|
  {
    if |s| == 0 || !p(s[0]) then 0 else 1 + Span(s[1..], p)
  }

  /** The prefix `Span` measures is the longest one: all of it satisfies
      `p`, and the element after it does not. */
  lemma {:induction false} SpanMaximal<T>(s: seq<T>, p: T -> bool)
    ensures forall i :: 0 <= i < Span(s, p) ==> p(s[i])
    ensures Span(s, p) < |s| ==> !p(s[Span(s, p)])
  {
    if |s| > 0 && p(s[0]) {
      SpanMaximal(s[1..], p);
    }
  }

  lemma {:induction false} SpanAll<T>(s: seq<T>, p: T -> bool)
    requires forall i :: 0 <= i < |s| ==> p(s[i])
    ensures Span(s, p) == |s|
  {
    if |s| > 0 {
      SpanAll(s[1..], p);
    }
  }

  /** A greedy repetition over a concatenation stops inside the first part
      unless that part is taken whole. */
  lemma {:induction false} SpanAppend<T>(a: seq<T>, b: seq<T>, p: T -> bool)
    ensures Span(a + b, p) == if Span(a, p) < |a| then Span(a, p) else |a| + Span(b, p)
  {
    if |a| > 0 {
      assert (a + b)[0] == a[0];
      assert (a + b)[1..] == a[1..] + b;
      SpanAppend(a[1..], b, p);
    } else {
      assert a + b == b;
    }
  }

  /** `s.split(d)` for a one-element separator: the maximal pieces between
      occurrences of `d`, in order; always at least one piece. */
  function Split<T(==)>(s: seq<T>, d: T): (r: seq<seq<T>>)
    ensures |r| >= 1
    ensures forall i :: 0 <= i < |r| ==> d !in r[i]
  {
    if |s| == 0 then [[]]
    else
      var rest := Split(s[1..], d);
      if s[0] == d then [[]] + rest
      else [[s[0]] + rest[0]] + rest[1..]
  }

  /** `parts.join(sep)`. */
  function Join<T>(parts: seq<seq<T>>, sep: seq<T>): seq<T> {
    if |parts| == 0 then []
    else if |parts| == 1 then parts[0]
    else parts[0] + sep + Join(parts[1..], sep)
  }

  lemma SplitNoSeparator<T>(s: seq<T>, d: T)
    requires d !in s
    ensures Split(s, d) == [s]
  {
    if |s| > 0 {
      SplitNoSeparator(s[1..], d);
      assert s == [s[0]] + s[1..];
    }
  }

  /** The pieces of `a + b` from the pieces of `a` and of `b`: the last
      piece of `a` is glued to the first piece of `b`. */
  function Glue<T>(sa: seq<seq<T>>, sb: seq<seq<T>>): seq<seq<T>>
    requires |sa| > 0 && |sb| > 0
  {
    sa[..|sa| - 1] + [Last(sa) + sb[0]] + sb[1..]
  }

  lemma SplitCons<T>(x: T, s: seq<T>, d: T)
    ensures Split([x] + s, d) == if x == d then [[]] + Split(s, d) else [[x] + Split(s, d)[0]] + Split(s, d)[1..]
  {
    assert ([x] + s)[1..] == s;
  }

  lemma GlueCons<T>(p: seq<T>, sa: seq<seq<T>>, sb: seq<seq<T>>)
    requires |sa| > 0 && |sb| > 0
    ensures [p] + Glue(sa, sb) == Glue([p] + sa, sb)
  {
    assert ([p] + sa)[..|sa|] == [p] + sa[..|sa| - 1];
  }

  lemma GlueHead<T>(x: T, sa: seq<seq<T>>, sb: seq<seq<T>>)
    requires |sa| > 0 && |sb| > 0
    ensures var g := Glue(sa, sb); [[x] + g[0]] + g[1..] == Glue([[x] + sa[0]] + sa[1..], sb)
  {
    var sa' := [[x] + sa[0]] + sa[1..];
    var g := Glue(sa, sb);
    if |sa| == 1 {
      assert g == [sa[0] + sb[0]] + sb[1..];
      assert Glue(sa', sb) == [([x] + sa[0]) + sb[0]] + sb[1..];
      assert g[0] == sa[0] + sb[0];
      assert g[1..] == sb[1..];
      assert [x] + (sa[0] + sb[0]) == ([x] + sa[0]) + sb[0];
    } else {
      assert sa'[..|sa'| - 1] == [[x] + sa[0]] + sa[1..|sa| - 1];
    }
  }

  /** Splitting a concatenation glues the two splits. */
  lemma {:induction false} SplitAppend<T>(a: seq<T>, b: seq<T>, d: T)
    ensures Split(a + b, d) == Glue(Split(a, d), Split(b, d))
  {
    if |a| == 0 {
      assert a + b == b;
      var sb := Split(b, d);
      assert Split(a, d) == [[]];
      var e: seq<T> := [];
      assert Glue([e], sb) == [e + sb[0]] + sb[1..];
      assert e + sb[0] == sb[0];
      assert sb == [sb[0]] + sb[1..];
      assert Split(a + b, d) == sb;
    } else {
      var x := a[0];
      var a' := a[1..];
      assert a == [x] + a';
      assert a + b == [x] + (a' + b);
      SplitAppend(a', b, d);
      SplitCons(x, a' + b, d);
      SplitCons(x, a', d);
      var sa' := Split(a', d);
      var sb := Split(b, d);
      if x == d {
        GlueCons([], sa', sb);
        assert Split(a + b, d) == [[]] + Glue(sa', sb);
        assert Split(a, d) == [[]] + sa';
      } else {
        GlueHead(x, sa', sb);
        var g := Glue(sa', sb);
        assert Split(a + b, d) == [[x] + g[0]] + g[1..];
        assert Split(a, d) == [[x] + sa'[0]] + sa'[1..];
      }
    }
  }

  /** Appending to a split sequence only re-splits its last piece: the
      earlier pieces are complete and stay as they are. */
  lemma SplitExtend<T>(x: seq<T>, p: seq<T>, d: T)
    ensures var sx := Split(x, d);
      Split(x + p, d) == sx[..|sx| - 1] + Split(Last(sx) + p, d)
  {
    var sx := Split(x, d);
    var sp := Split(p, d);
    var buf := Last(sx);
    var tail := [buf + sp[0]] + sp[1..];
    assert Split(buf + p, d) == tail by {
      SplitNoSeparator(buf, d);
      SplitAppend(buf, p, d);
      assert Glue([buf], sp) == tail;
    }
    assert Split(x + p, d) == sx[..|sx| - 1] + tail by {
      SplitAppend(x, p, d);
    }
  }

  /** A sequence that ends with the separator leaves an empty last piece. */
  lemma SplitEndsWithSeparator<T>(x: seq<T>, d: T)
    requires |x| > 0 && Last(x) == d
    ensures Last(Split(x, d)) == []
  {
    var init := x[..|x| - 1];
    assert x == init + [d];
    SplitAppend(init, [d], d);
    assert Split([d], d) == [[], []] by {
      SplitCons(d, [], d);
    }
  }

  /** Splitting a join of separator-free pieces gives the pieces back. */
  lemma {:induction false} SplitJoin<T>(parts: seq<seq<T>>, d: T)
    requires |parts| >= 1
    requires forall i :: 0 <= i < |parts| ==> d !in parts[i]
    ensures Split(Join(parts, [d]), d) == parts
  {
    if |parts| == 1 {
      SplitNoSeparator(parts[0], d);
    } else {
      var tail := Join(parts[1..], [d]);
      SplitJoin(parts[1..], d);
      SplitNoSeparator(parts[0], d);
      assert Join(parts, [d]) == parts[0] + ([d] + tail);
      SplitAppend(parts[0], [d] + tail, d);
      var sb := Split([d] + tail, d);
      assert sb == [[]] + parts[1..] by {
        SplitCons(d, tail, d);
      }
      var e: seq<T> := [];
      assert Glue([parts[0]], sb) == [parts[0] + e] + parts[1..];
      assert parts[0] + e == parts[0];
      assert parts == [parts[0]] + parts[1..];
    }
  }

  /** The number of pieces is one more than the number of separators. */
  lemma {:induction false} SplitCount<T>(s: seq<T>, d: T)
    ensures |Split(s, d)| == Count(s, d) + 1
  {
    if |s| > 0 {
      SplitCount(s[1..], d);
    }
  }

  /** Elements of `s` satisfying `p`, in order (`Array.prototype.filter`). */
  function Filter<T>(s: seq<T>, p: T -> bool): (r: seq<T>)
    ensures |r| <= |s|
    ensures forall i :: 0 <= i < |r| ==> p(r[i])
    ensures forall x :: x in r ==> x in s
  {
    if |s| == 0 then []
    else if p(s[0]) then [s[0]] + Filter(s[1..], p)
    else Filter(s[1..], p)
  }

  /** Filtering keeps the order: the kept elements of `a + b` are those of
      `a` followed by those of `b`. */
  lemma {:induction false} FilterAppend<T>(a: seq<T>, b: seq<T>, p: T -> bool)
    ensures Filter(a + b, p) == Filter(a, p) + Filter(b, p)
  {
    if |a| > 0 {
      assert (a + b)[0] == a[0];
      assert (a + b)[1..] == a[1..] + b;
      FilterAppend(a[1..], b, p);
    } else {
      assert a + b == b;
    }
  }

  /** A sequence whose every element passes the test is kept whole. */
  lemma {:induction false} FilterAllKept<T>(s: seq<T>, p: T -> bool)
    requires forall i :: 0 <= i < |s| ==> p(s[i])
    ensures Filter(s, p) == s
  {
    if |s| > 0 {
      FilterAllKept(s[1..], p);
    }
  }

  /** A join of pieces starts with the first piece's first element. */
  lemma JoinFirst<T>(parts: seq<seq<T>>, sep: seq<T>)
    requires |parts| >= 1 && |parts[0]| > 0
    ensures |Join(parts, sep)| > 0 && Join(parts, sep)[0] == parts[0][0]
  {
  }

  /** A join of pieces ends with the last piece's last element. */
  lemma {:induction false} JoinLast<T>(parts: seq<seq<T>>, sep: seq<T>)
    requires |parts| >= 1 && |Last(parts)| > 0
    ensures |Join(parts, sep)| > 0 && Last(Join(parts, sep)) == Last(Last(parts))
  {
    if |parts| > 1 {
      JoinLast(parts[1..], sep);
    }
  }

  /** Four pieces joined by one separator. */
  lemma JoinFour<T>(w: seq<T>, x: seq<T>, y: seq<T>, z: seq<T>, d: T)
    ensures Join([w, x, y, z], [d]) == w + [d] + x + [d] + y + [d] + z
  {
    assert [y, z][1..] == [z];
    assert Join([y, z], [d]) == y + [d] + z;
    assert [x, y, z][1..] == [y, z];
    assert Join([x, y, z], [d]) == x + [d] + (y + [d] + z);
    assert [w, x, y, z][1..] == [x, y, z];
    assert Join([w, x, y, z], [d]) == w + [d] + (x + [d] + (y + [d] + z));
  }

  /** An element in neither the pieces nor the separator is not in their
      join. */
  lemma {:induction false} NotInJoin<T>(parts: seq<seq<T>>, sep: seq<T>, x: T)
    requires x !in sep
    requires forall i :: 0 <= i < |parts| ==> x !in parts[i]
    ensures x !in Join(parts, sep)
  {
    if |parts| > 1 {
      NotInJoin(parts[1..], sep, x);
    }
  }

  /** The first `n` elements, or all of them when there are fewer
      (`Array.prototype.slice(0, n)`). */
  function Take<T>(s: seq<T>, n: nat): (r: seq<T>)
    ensures |r| <= n
    ensures StartsWith(s, r) || |s| == 0
    ensures |s| <= n ==> r == s
    ensures n <= |s| ==> |r| == n
  {
    if |s| <= n then s else s[..n]
  }

  /** Removal of the leading elements satisfying `ws` (`trimStart`). */
  function TrimStartBy<T>(s: seq<T>, ws: T -> bool): (r: seq<T>)
    ensures |r| <= |s| && r == s[|s| - |r|..]
    ensures |r| > 0 ==> !ws(r[0])
  {
    if |s| == 0 || !ws(s[0]) then s else TrimStartBy(s[1..], ws)
  }

  /** What `TrimStartBy` removes satisfies `ws`. */
  lemma {:induction false} TrimStartRemoved<T>(s: seq<T>, ws: T -> bool)
    ensures forall i :: 0 <= i < |s| - |TrimStartBy(s, ws)| ==> ws(s[i])
  {
    if |s| > 0 && ws(s[0]) {
      TrimStartRemoved(s[1..], ws);
      assert forall i :: 1 <= i < |s| ==> s[i] == s[1..][i - 1];
    }
  }

  /** Removal of the trailing elements satisfying `ws` (`trimEnd`). */
  function TrimEndBy<T>(s: seq<T>, ws: T -> bool): (r: seq<T>)
    ensures |r| <= |s| && r == s[..|r|]
    ensures |r| > 0 ==> !ws(r[|r| - 1])
  {
    if |s| == 0 || !ws(s[|s| - 1]) then s else TrimEndBy(s[..|s| - 1], ws)
  }

  /** What `TrimEndBy` removes satisfies `ws`. */
  lemma {:induction false} TrimEndRemoved<T>(s: seq<T>, ws: T -> bool)
    ensures forall i :: |TrimEndBy(s, ws)| <= i < |s| ==> ws(s[i])
  {
    if |s| > 0 && ws(s[|s| - 1]) {
      TrimEndRemoved(s[..|s| - 1], ws);
    }
  }

  /** Number of leading elements `TrimBy` removes. */
  function TrimOffset<T>(s: seq<T>, ws: T -> bool): nat {
    |s| - |TrimStartBy(s, ws)|
  }

  /** Removal of leading and trailing elements satisfying `ws` (`trim`):
      the result is an infix of `s` that starts and ends with non-`ws`
      elements. */
  function TrimBy<T>(s: seq<T>, ws: T -> bool): (r: seq<T>)
    ensures TrimOffset(s, ws) + |r| <= |s|
    ensures r == s[TrimOffset(s, ws)..TrimOffset(s, ws) + |r|]
    ensures |r| > 0 ==> !ws(r[0]) && !ws(r[|r| - 1])
  {
    var t := TrimStartBy(s, ws);
    var r := TrimEndBy(t, ws);
    assert r == s[|s| - |t|..|s| - |t| + |r|];
    r
  }

  /** Everything `TrimBy` removes, before and after the result, satisfies
      `ws`: the result lies between two runs of `ws` elements. */
  lemma TrimRemoved<T>(s: seq<T>, ws: T -> bool)
    ensures forall i :: 0 <= i < TrimOffset(s, ws) ==> ws(s[i])
    ensures forall i :: TrimOffset(s, ws) + |TrimBy(s, ws)| <= i < |s| ==> ws(s[i])
  {
    var t := TrimStartBy(s, ws);
    TrimStartRemoved(s, ws);
    TrimEndRemoved(t, ws);
    forall i | TrimOffset(s, ws) + |TrimBy(s, ws)| <= i < |s| ensures ws(s[i]) {
      assert s[i] == t[i - TrimOffset(s, ws)];
    }
  }

  /** Trimming removes everything exactly when every element is `ws`. */
  lemma TrimEmptyIff<T>(s: seq<T>, ws: T -> bool)
    ensures TrimBy(s, ws) == [] <==> forall i :: 0 <= i < |s| ==> ws(s[i])
  {
    var r := TrimBy(s, ws);
    TrimRemoved(s, ws);
    if r == [] {
      var a := TrimOffset(s, ws);
      assert forall i :: 0 <= i < |s| ==> ws(s[i]) by {
        forall i | 0 <= i < |s| ensures ws(s[i]) {
        }
      }
    }
  }

  /** Trimming a sequence that already starts and ends with non-`ws`
      elements changes nothing. */
  lemma TrimmedIsFixed<T>(s: seq<T>, ws: T -> bool)
    requires |s| > 0 ==> !ws(s[0]) && !ws(s[|s| - 1])
    ensures TrimBy(s, ws) == s
  {
  }

  /** The first position at or after `j` where `d` begins, provided no
      element satisfying `stop` lies between `j` and that position: the
      lazy repetition `.*?` followed by `d`, where `.` excludes `stop`. */
  function FindBefore<T(==)>(s: seq<T>, j: nat, d: seq<T>, stop: T -> bool): (r: Option<nat>)
    requires j <= |s|
    ensures r.Some? ==> j <= r.value <= |s| && StartsWith(s[r.value..], d)
    decreases |s| - j
  {
    if StartsWith(s[j..], d) then Some(j)
    else if j == |s| || stop(s[j]) then None
    else FindBefore(s, j + 1, d, stop)
  }

  /** `FindBefore` finds the first `d` at or after `j`, and fails exactly
      when a `stop` element comes before every `d`. */
  lemma {:induction false} FindBeforeFirst<T>(s: seq<T>, j: nat, d: seq<T>, stop: T -> bool)
    requires j <= |s|
    ensures var r := FindBefore(s, j, d, stop);
      r.Some? ==> forall i :: j <= i < r.value ==> !stop(s[i]) && !StartsWith(s[i..], d)
    ensures FindBefore(s, j, d, stop).None? ==>
      forall e :: j <= e <= |s| && StartsWith(s[e..], d) ==> exists i :: j <= i < e && stop(s[i])
    decreases |s| - j
  {
    if !StartsWith(s[j..], d) && j < |s| && !stop(s[j]) {
      FindBeforeFirst(s, j + 1, d, stop);
    }
  }

  /** `FindBefore` reaches a position `e` where `d` begins when nothing
      before it stops the search or could begin `d`. */
  lemma {:induction false} FindBeforeAt<T>(s: seq<T>, j: nat, d: seq<T>, stop: T -> bool, e: nat)
    requires j <= e <= |s| && |d| > 0
    requires StartsWith(s[e..], d)
    requires forall i :: j <= i < e ==> !stop(s[i]) && s[i] != d[0]
    ensures FindBefore(s, j, d, stop) == Some(e)
    decreases e - j
  {
    if j < e {
      assert !StartsWith(s[j..], d) by {
        assert s[j..][0] == s[j];
      }
      FindBeforeAt(s, j + 1, d, stop, e);
    }
  }

  /** The first position at or after `j` where `p` begins. */
  function IndexOf<T(==)>(s: seq<T>, p: seq<T>, j: nat): (r: Option<nat>)
    requires j <= |s|
    ensures r.Some? ==> j <= r.value <= |s| && StartsWith(s[r.value..], p)
    decreases |s| - j
  {
    if StartsWith(s[j..], p) then Some(j)
    else if j == |s| then None
    else IndexOf(s, p, j + 1)
  }

  /** `IndexOf` finds the first position where `p` begins, and nothing
      only when `p` begins nowhere. */
  lemma {:induction false} IndexOfSpec<T>(s: seq<T>, p: seq<T>, j: nat)
    requires j <= |s|
    ensures IndexOf(s, p, j).Some? ==> forall i :: j <= i < IndexOf(s, p, j).value ==> !StartsWith(s[i..], p)
    ensures IndexOf(s, p, j).None? ==> forall i :: j <= i <= |s| ==> !StartsWith(s[i..], p)
    decreases |s| - j
  {
    if !StartsWith(s[j..], p) && j < |s| {
      IndexOfSpec(s, p, j + 1);
    }
  }

  /** `IndexOf` finds `p` at `e` when nothing before it could begin `p`. */
  lemma {:induction false} IndexOfAt<T>(s: seq<T>, p: seq<T>, j: nat, e: nat)
    requires j <= e <= |s| && |p| > 0
    requires StartsWith(s[e..], p)
    requires forall i :: j <= i < e ==> s[i] != p[0]
    ensures IndexOf(s, p, j) == Some(e)
    decreases e - j
  {
    if j < e {
      assert !StartsWith(s[j..], p) by {
        assert s[j..][0] == s[j];
      }
      IndexOfAt(s, p, j + 1, e);
    }
  }

  /** `IndexOf` finds nothing when `p` begins nowhere. */
  lemma {:induction false} IndexOfNone<T>(s: seq<T>, p: seq<T>, j: nat)
    requires j <= |s|
    requires forall i :: j <= i <= |s| ==> !StartsWith(s[i..], p)
    ensures IndexOf(s, p, j).None?
    decreases |s| - j
  {
    if j < |s| {
      IndexOfNone(s, p, j + 1);
    }
  }

  /** `IndexOf` finds the first position where `p` begins. */
  lemma {:induction false} IndexOfFirst<T>(s: seq<T>, p: seq<T>, j: nat, e: nat)
    requires j <= e <= |s|
    requires StartsWith(s[e..], p)
    requires forall i :: j <= i < e ==> !StartsWith(s[i..], p)
    ensures IndexOf(s, p, j) == Some(e)
    decreases e - j
  {
    if j < e {
      IndexOfFirst(s, p, j + 1, e);
    }
  }

  /** The last position of `x` in `s`. */
  function LastIndexOf<T(==)>(s: seq<T>, x: T): (r: Option<nat>)
    ensures r.Some? ==> r.value < |s| && s[r.value] == x
    ensures r.Some? ==> forall i :: r.value < i < |s| ==> s[i] != x
    ensures r.None? <==> x !in s
  {
    if |s| == 0 then None
    else if Last(s) == x then Some(|s| - 1)
    else
      var r := LastIndexOf(s[..|s| - 1], x);
      assert s == s[..|s| - 1] + [Last(s)];
      r
  }
}

=== FILE: speech.dfy ===
/** `stripMarkdown` (voice.js:369-385): the text handed to speech synthesis.
    Thirteen global regular-expression replacements run in source order,
    then the result is trimmed. A global replacement scans left to right:
    where its pattern matches it emits the replacement and continues after
    the match, elsewhere it copies one character. Each pattern's match is
    written out below as the leftmost match of the backtracking engine. */
module Speech {
  import opened Wrappers
  import opened Seqs
  import Text

  /** The emphasis forms, in the order their passes run. */
  datatype Mark = DoubleStar | Star | DoubleUnderscore | Underscore

  function Delimiter(m: Mark): (d: string)
    ensures |d| > 0
  {
    match m
    case DoubleStar => "**"
    case Star => "*"
    case DoubleUnderscore => "__"
    case Underscore => "_"
  }

  /** The replacements of `stripMarkdown`. */
  datatype Strip =
    | Hashes           // `#{1,6}\s*` removed
    | Emphasis(m: Mark) // `\*\*(.+?)\*\*` and the like, replaced by the content
    | CodeSpans        // `` `{1,3}[^`]*`{1,3} `` removed
    | Links            // `\[(.+?)\]\(.+?\)` replaced by the label
    | Images           // `!\[.*?\]\(.*?\)` removed
    | Bullets          // `^\s*[-*+]\s+` (multiline) removed
    | Numbers          // `^\s*\d+\.\s+` (multiline) removed
    | ParagraphBreaks  // `\n{2,}` replaced by ". "
    | Newlines         // `\n` replaced by " "
    | SpaceRuns        // `\s{2,}` replaced by " "

  /** A match at the scan position: its length and its replacement. */
  datatype Cut = Cut(len: nat, out: string)

  predicate IsHash(c: char) { c == '#' }
  predicate IsTick(c: char) { c == '`' }
  predicate NotTick(c: char) { c != '`' }
  predicate IsNewline(c: char) { c == '\n' }
  predicate IsBullet(c: char) { c == '-' || c == '*' || c == '+' }

  /** A greedy `{1,3}` after at least one repetition is available. */
  function AtMostThree(n: nat): nat {
    if n < 3 then n else 3
  }

  /** `#{1,6}\s*`. */
  function MatchHashes(s: string): (r: Option<Cut>)
    ensures r.Some? <==> |s| > 0 && s[0] == '#'
    ensures r.Some? ==> 0 < r.value.len <= |s| && r.value.out == ""
  {
    if |s| == 0 || s[0] != '#' then None
    else
      var n := Span(s, IsHash);
      var h := if n < 6 then n else 6;
      Some(Cut(h + Span(s[h..], Text.IsSpace), ""))
  }

  /** `d(.+?)d`: the shortest content that reaches the closing delimiter
      without crossing a line end, replaced by the content. */
  function MatchEmphasis(d: string, s: string): (r: Option<Cut>)
    requires |d| > 0
    ensures r.Some? ==> StartsWith(s, d) && 0 < r.value.len <= |s|
    ensures r.Some? ==> |d| + |r.value.out| <= |s| && r.value.out == s[|d|..|d| + |r.value.out|]
  {
    if !StartsWith(s, d) || |s| == |d| || Text.IsLineTerminator(s[|d|]) then None
    else
      match FindBefore(s, |d| + 1, d, Text.IsLineTerminator)
      case None => None
      case Some(q) => Some(Cut(q + |d|, s[|d|..q]))
  }

  /** `` `{1,3}[^`]*`{1,3} ``. A run of four or more backticks matches three
      of them and up to three more. A shorter run matches through the
      next backtick run; when no backtick follows, a run of two or three
      still matches itself (the engine gives one tick back to the closing
      repetition), and a single backtick does not match. */
  function MatchCode(s: string): (r: Option<Cut>)
    ensures r.Some? ==> |s| > 0 && s[0] == '`'
    ensures r.Some? ==> 0 < r.value.len <= |s| && r.value.out == ""
  {
    var t := Span(s, IsTick);
    if t == 0 then None
    else if t >= 4 then Some(Cut(3 + AtMostThree(t - 3), ""))
    else
      var n := Span(s[t..], NotTick);
      if t + n < |s| then Some(Cut(t + n + AtMostThree(Span(s[t + n..], IsTick)), ""))
      else if t >= 2 then Some(Cut(t, ""))
      else None
  }

  /** `\[(.+?)\]\(.+?\)`, replaced by the label. The first `](` after a
      non-empty label decides: when no target follows it, a later `](`
      cannot give one either. */
  function MatchLink(s: string): (r: Option<Cut>)
    ensures r.Some? ==> |s| > 0 && s[0] == '['
    ensures r.Some? ==> 0 < r.value.len <= |s|
    ensures r.Some? ==> 1 + |r.value.out| <= |s| && r.value.out == s[1..1 + |r.value.out|]
  {
    if |s| < 2 || s[0] != '[' || Text.IsLineTerminator(s[1]) then None
    else
      match FindBefore(s, 2, "](", Text.IsLineTerminator)
      case None => None
      case Some(q) =>
        if q + 2 == |s| || Text.IsLineTerminator(s[q + 2]) then None
        else
          match FindBefore(s, q + 3, ")", Text.IsLineTerminator)
          case None => None
          case Some(p) => Some(Cut(p + 1, s[1..q]))
  }

  /** `!\[.*?\]\(.*?\)`, removed. */
  function MatchImage(s: string): (r: Option<Cut>)
    ensures r.Some? ==> |s| > 1 && s[1] == '['
    ensures r.Some? ==> 0 < r.value.len <= |s| && r.value.out == ""
  {
    if !StartsWith(s, "![") then None
    else
      match FindBefore(s, 2, "](", Text.IsLineTerminator)
      case None => None
      case Some(q) =>
        match FindBefore(s, q + 2, ")", Text.IsLineTerminator)
        case None => None
        case Some(p) => Some(Cut(p + 1, ""))
  }

  /** `\s*[-*+]\s+`; whitespace before the marker may span lines. */
  function MatchBullet(s: string): (r: Option<Cut>)
    ensures r.Some? ==> 0 < r.value.len <= |s| && r.value.out == ""
  {
    var w := Span(s, Text.IsSpace);
    if w == |s| || !IsBullet(s[w]) then None
    else
      var g := Span(s[w + 1..], Text.IsSpace);
      if g == 0 then None else Some(Cut(w + 1 + g, ""))
  }

  /** `\s*\d+\.\s+`. */
  function MatchNumber(s: string): (r: Option<Cut>)
    ensures r.Some? ==> 0 < r.value.len <= |s| && r.value.out == ""
  {
    var w := Span(s, Text.IsSpace);
    var n := Span(s[w..], Text.IsDigit);
    if n == 0 || w + n == |s| || s[w + n] != '.' then None
    else
      var g := Span(s[w + n + 1..], Text.IsSpace);
      if g == 0 then None else Some(Cut(w + n + 1 + g, ""))
  }

  /** `\n{2,}`, replaced by a pause. */
  function MatchBreak(s: string): (r: Option<Cut>)
    ensures r.Some? ==> 0 < r.value.len <= |s| && r.value.out == ". " && s[0] == '\n'
  {
    var n := Span(s, IsNewline);
    if n >= 2 then Some(Cut(n, ". ")) else None
  }

  /** `\n`, replaced by a space. */
  function MatchNewline(s: string): (r: Option<Cut>)
    ensures r.Some? <==> |s| > 0 && s[0] == '\n'
    ensures r.Some? ==> r.value == Cut(1, " ")
  {
    if |s| > 0 && s[0] == '\n' then Some(Cut(1, " ")) else None
  }

  /** `\s{2,}`, replaced by one space. */
  function MatchSpaces(s: string): (r: Option<Cut>)
    ensures r.Some? ==> 0 < r.value.len <= |s| && r.value.out == " "
  {
    var n := Span(s, Text.IsSpace);
    if n >= 2 then Some(Cut(n, " ")) else None
  }

  /** The match of `rule` at the start of `s`; `atStart` says whether a
      multiline `^` matches there. */
  function MatchAt(rule: Strip, s: string, atStart: bool): (r: Option<Cut>)
    ensures r.Some? ==> 0 < r.value.len <= |s|
  {
    match rule
    case Hashes => MatchHashes(s)
    case Emphasis(m) => MatchEmphasis(Delimiter(m), s)
    case CodeSpans => MatchCode(s)
    case Links => MatchLink(s)
    case Images => MatchImage(s)
    case Bullets => if atStart then MatchBullet(s) else None
    case Numbers => if atStart then MatchNumber(s) else None
    case ParagraphBreaks => MatchBreak(s)
    case Newlines => MatchNewline(s)
    case SpaceRuns => MatchSpaces(s)
  }

  /** No match anywhere. */
  function Never(s: string, atStart: bool): Option<Cut> {
    None
  }

  /** A pattern's leftmost-match function: given the text from the scan
      position and whether `^` matches there, the match, which is never
      empty and never longer than the text. */
  type Pattern = p: (string, bool) -> Option<Cut>
    | forall s, b :: p(s, b).Some? ==> 0 < p(s, b).value.len <= |s|
    witness Never

  function PatternOf(rule: Strip): Pattern {
    (s: string, b: bool) => MatchAt(rule, s, b)
  }

  /** One global replacement over `s`. */
  function Scan(p: Pattern, s: string, atStart: bool): string
    decreases |s|
  {
    if |s| == 0 then ""
    else
      match p(s, atStart)
      case Some(m) => m.out + Scan(p, s[m.len..], Text.IsLineTerminator(s[m.len - 1]))
      case None => [s[0]] + Scan(p, s[1..], Text.IsLineTerminator(s[0]))
  }

  function Pass(rule: Strip, s: string): string {
    Scan(PatternOf(rule), s, true)
  }

  /** The markup passes: heading markers, the four emphasis forms, code,
      links and images. */
  function InlineMarks(s: string): string {
    Pass(Images, Pass(Links, Pass(CodeSpans,
      Pass(Emphasis(Underscore), Pass(Emphasis(DoubleUnderscore),
        Pass(Emphasis(Star), Pass(Emphasis(DoubleStar), Pass(Hashes, s))))))))
  }

  /** The list-marker passes. */
  function ListMarks(s: string): string {
    Pass(Numbers, Pass(Bullets, s))
  }

  /** The line-break and whitespace passes. */
  function Spacing(s: string): string {
    Pass(SpaceRuns, Pass(Newlines, Pass(ParagraphBreaks, s)))
  }

  /** `stripMarkdown(text)`. */
  function StripMarkdown(text: string): string {
    Text.Trim(Spacing(ListMarks(InlineMarks(text))))
  }

  // ---------------------------------------------------------------------
  // Scanning
  // ---------------------------------------------------------------------

  /** Whether a multiline `^` matches before position `i` of `s`. */
  function LineStartAt(s: string, i: nat, atStart: bool): bool
    requires i <= |s|
  {
    if i == 0 then atStart else Text.IsLineTerminator(s[i - 1])
  }

  /** No match of `p` begins in the first `k` positions of `s`. */
  predicate Quiet(p: Pattern, s: string, k: nat, atStart: bool)
    requires k <= |s|
  {
    forall i :: 0 <= i < k ==> p(s[i..], LineStartAt(s, i, atStart)).None?
  }

  /** Where no match begins, a pass copies one character. */
  lemma ScanCopiesOne(p: Pattern, s: string, atStart: bool)
    requires |s| > 0 && p(s, atStart).None?
    ensures Scan(p, s, atStart) == [s[0]] + Scan(p, s[1..], Text.IsLineTerminator(s[0]))
  {
  }

  lemma QuietRest(p: Pattern, s: string, k: nat, atStart: bool)
    requires 0 < k <= |s| && Quiet(p, s, k, atStart)
    ensures p(s, atStart).None?
    ensures Quiet(p, s[1..], k - 1, Text.IsLineTerminator(s[0]))
  {
    assert p(s[0..], LineStartAt(s, 0, atStart)).None?;
    assert s[0..] == s;
    var t := s[1..];
    forall i | 0 <= i < k - 1
      ensures p(t[i..], LineStartAt(t, i, Text.IsLineTerminator(s[0]))).None?
    {
      assert t[i..] == s[i + 1..];
      assert p(s[i + 1..], LineStartAt(s, i + 1, atStart)).None?;
    }
  }

  /** One more copied character extends a copied prefix. */
  lemma CopyStep(p: Pattern, s: string, k: nat, atStart: bool)
    requires 0 < k <= |s| && p(s, atStart).None?
    requires var t := s[1..]; var b := Text.IsLineTerminator(s[0]);
      Scan(p, t, b) == t[..k - 1] + Scan(p, t[k - 1..], LineStartAt(t, k - 1, b))
    ensures Scan(p, s, atStart) == s[..k] + Scan(p, s[k..], LineStartAt(s, k, atStart))
  {
    var t := s[1..];
    var b := Text.IsLineTerminator(s[0]);
    ScanCopiesOne(p, s, atStart);
    assert t[k - 1..] == s[k..];
    assert LineStartAt(t, k - 1, b) == LineStartAt(s, k, atStart);
    var rest := Scan(p, s[k..], LineStartAt(s, k, atStart));
    AppendAssoc([s[0]], t[..k - 1], rest);
    assert s[..k] == [s[0]] + t[..k - 1];
  }

  /** Where no match begins, a pass copies the text. */
  lemma {:induction false} ScanCopies(p: Pattern, s: string, k: nat, atStart: bool)
    requires k <= |s| && Quiet(p, s, k, atStart)
    ensures Scan(p, s, atStart) == s[..k] + Scan(p, s[k..], LineStartAt(s, k, atStart))
    decreases k
  {
    if k > 0 {
      QuietRest(p, s, k, atStart);
      ScanCopies(p, s[1..], k - 1, Text.IsLineTerminator(s[0]));
      CopyStep(p, s, k, atStart);
    } else {
      assert s[..k] + s[k..] == s;
    }
  }

  lemma AppendAssoc(a: string, b: string, c: string)
    ensures a + (b + c) == (a + b) + c
  {
  }

  /** A pass with no match anywhere changes nothing. */
  lemma ScanIdle(p: Pattern, s: string, atStart: bool)
    requires Quiet(p, s, |s|, atStart)
    ensures Scan(p, s, atStart) == s
  {
    ScanCopies(p, s, |s|, atStart);
    assert s[..|s|] == s;
  }

  /** A character every match of `rule` contains, when there is one. */
  function Needed(rule: Strip): Option<char> {
    match rule
    case Hashes => Some('#')
    case Emphasis(m) => Some(Delimiter(m)[0])
    case CodeSpans => Some('`')
    case Links => Some('[')
    case Images => Some('[')
    case ParagraphBreaks => Some('\n')
    case Newlines => Some('\n')
    case _ => None
  }

  lemma MatchNeeds(rule: Strip, s: string, atStart: bool)
    requires MatchAt(rule, s, atStart).Some? && Needed(rule).Some?
    ensures Needed(rule).value in s
  {
    match rule
    case Emphasis(m) =>
      assert s[0] == s[..|Delimiter(m)|][0];
    case Images =>
      assert s[1] == '[';
    case _ =>
  }

  /** A pass whose needed character is absent changes nothing. */
  lemma PassIdle(rule: Strip, s: string, atStart: bool)
    requires Needed(rule).Some? && Needed(rule).value !in s
    ensures Scan(PatternOf(rule), s, atStart) == s
  {
    forall i | 0 <= i < |s| ensures MatchAt(rule, s[i..], LineStartAt(s, i, atStart)).None? {
      if MatchAt(rule, s[i..], LineStartAt(s, i, atStart)).Some? {
        MatchNeeds(rule, s[i..], LineStartAt(s, i, atStart));
        SliceLacks(s, i, Needed(rule).value);
      }
    }
    ScanIdle(PatternOf(rule), s, atStart);
  }

  lemma SliceLacks(s: string, i: nat, c: char)
    requires i <= |s| && c !in s
    ensures c !in s[i..]
  {
  }

  lemma InfixLacks(s: string, i: nat, j: nat, c: char)
    requires i <= j <= |s| && c !in s
    ensures c !in s[i..j]
  {
  }

  // ---------------------------------------------------------------------
  // What the output is free of
  // ---------------------------------------------------------------------

  /** What a replacement inserts that need not come from the text. */
  function Inserted(rule: Strip): string {
    match rule
    case ParagraphBreaks => ". "
    case Newlines => " "
    case SpaceRuns => " "
    case _ => ""
  }

  /** A replacement is either inserted text or part of the match. */
  lemma MatchKeeps(rule: Strip, s: string, atStart: bool, c: char)
    requires MatchAt(rule, s, atStart).Some?
    requires c !in s && c !in Inserted(rule)
    ensures c !in MatchAt(rule, s, atStart).value.out
  {
    var out := MatchAt(rule, s, atStart).value.out;
    match rule
    case Emphasis(m) =>
      InfixLacks(s, |Delimiter(m)|, |Delimiter(m)| + |out|, c);
    case Links =>
      InfixLacks(s, 1, 1 + |out|, c);
    case _ =>
  }

  /** A character absent from the text and from what a pass inserts is
      absent from its output. */
  lemma {:induction false} ScanKeeps(rule: Strip, s: string, atStart: bool, c: char)
    requires c !in s && c !in Inserted(rule)
    ensures c !in Scan(PatternOf(rule), s, atStart)
    decreases |s|
  {
    if |s| > 0 {
      match MatchAt(rule, s, atStart)
      case Some(m) =>
        MatchKeeps(rule, s, atStart, c);
        SliceLacks(s, m.len, c);
        ScanKeeps(rule, s[m.len..], Text.IsLineTerminator(s[m.len - 1]), c);
      case None =>
        SliceLacks(s, 1, c);
        ScanKeeps(rule, s[1..], Text.IsLineTerminator(s[0]), c);
    }
  }

  /** The heading pass removes every `#`: each one begins a match. */
  lemma {:induction false} HashesGone(s: string, atStart: bool)
    ensures '#' !in Scan(PatternOf(Hashes), s, atStart)
    decreases |s|
  {
    if |s| > 0 {
      match MatchAt(Hashes, s, atStart)
      case Some(m) =>
        HashesGone(s[m.len..], Text.IsLineTerminator(s[m.len - 1]));
      case None =>
        HashesGone(s[1..], Text.IsLineTerminator(s[0]));
    }
  }

  /** The newline pass removes every `\n`. */
  lemma {:induction false} NewlinesGone(s: string, atStart: bool)
    ensures '\n' !in Scan(PatternOf(Newlines), s, atStart)
    decreases |s|
  {
    if |s| > 0 {
      match MatchAt(Newlines, s, atStart)
      case Some(m) =>
        NewlinesGone(s[m.len..], Text.IsLineTerminator(s[m.len - 1]));
      case None =>
        NewlinesGone(s[1..], Text.IsLineTerminator(s[0]));
    }
  }

  /** Two whitespace characters side by side at `i`. */
  predicate SpacePairAt(s: string, i: nat)
    requires i + 1 < |s|
  {
    Text.IsSpace(s[i]) && Text.IsSpace(s[i + 1])
  }

  predicate NoDoubleSpace(s: string) {
    forall i :: 0 <= i < |s| - 1 ==> !SpacePairAt(s, i)
  }

  lemma ConsNoDoubleSpace(p: string, s: string)
    requires NoDoubleSpace(p) && NoDoubleSpace(s)
    requires |p| > 0 && |s| > 0 ==> !(Text.IsSpace(Last(p)) && Text.IsSpace(s[0]))
    ensures NoDoubleSpace(p + s)
  {
    var r := p + s;
    forall i | 0 <= i < |r| - 1 ensures !SpacePairAt(r, i) {
      if i + 1 < |p| {
        assert SpacePairAt(r, i) == SpacePairAt(p, i);
      } else if i >= |p| {
        assert SpacePairAt(r, i) == SpacePairAt(s, i - |p|);
      }
    }
  }

  /** The whitespace pass leaves no two whitespace characters together;
      its output is empty, or starts with whitespace, exactly when its
      input is. */
  lemma {:induction false} SpaceRunsCollapse(s: string, atStart: bool)
    ensures var r := Scan(PatternOf(SpaceRuns), s, atStart);
      && NoDoubleSpace(r)
      && (|r| == 0 <==> |s| == 0)
      && (|s| > 0 ==> (Text.IsSpace(r[0]) <==> Text.IsSpace(s[0])))
    decreases |s|
  {
    if |s| > 0 {
      var n := Span(s, Text.IsSpace);
      SpanMaximal(s, Text.IsSpace);
      match MatchAt(SpaceRuns, s, atStart)
      case Some(m) =>
        var rest := s[m.len..];
        SpaceRunsCollapse(rest, Text.IsLineTerminator(s[m.len - 1]));
        assert |rest| > 0 ==> !Text.IsSpace(rest[0]) by {
          if |rest| > 0 {
            assert rest[0] == s[n];
          }
        }
        ConsNoDoubleSpace(" ", Scan(PatternOf(SpaceRuns), rest, Text.IsLineTerminator(s[m.len - 1])));
      case None =>
        var rest := s[1..];
        SpaceRunsCollapse(rest, Text.IsLineTerminator(s[0]));
        assert Text.IsSpace(s[0]) && |rest| > 0 ==> !Text.IsSpace(rest[0]) by {
          if Text.IsSpace(s[0]) && |rest| > 0 {
            assert n == 1;
            assert rest[0] == s[1];
          }
        }
        ConsNoDoubleSpace([s[0]], Scan(PatternOf(SpaceRuns), rest, Text.IsLineTerminator(s[0])));
    }
  }

  lemma InfixNoDoubleSpace(s: string, i: nat, j: nat)
    requires i <= j <= |s| && NoDoubleSpace(s)
    ensures NoDoubleSpace(s[i..j])
  {
    var r := s[i..j];
    forall k | 0 <= k < |r| - 1 ensures !SpacePairAt(r, k) {
      assert SpacePairAt(r, k) == SpacePairAt(s, i + k);
    }
  }

  /** The markup passes leave no `#`: the first removes them all and the
      others insert none. */
  lemma InlineMarksNoHash(text: string)
    ensures '#' !in InlineMarks(text)
  {
    var s := Pass(Hashes, text);
    HashesGone(text, true);
    ScanKeeps(Emphasis(DoubleStar), s, true, '#');
    s := Pass(Emphasis(DoubleStar), s);
    ScanKeeps(Emphasis(Star), s, true, '#');
    s := Pass(Emphasis(Star), s);
    ScanKeeps(Emphasis(DoubleUnderscore), s, true, '#');
    s := Pass(Emphasis(DoubleUnderscore), s);
    ScanKeeps(Emphasis(Underscore), s, true, '#');
    s := Pass(Emphasis(Underscore), s);
    ScanKeeps(CodeSpans, s, true, '#');
    s := Pass(CodeSpans, s);
    ScanKeeps(Links, s, true, '#');
    s := Pass(Links, s);
    ScanKeeps(Images, s, true, '#');
  }

  lemma ListMarksKeep(s: string, c: char)
    requires c !in s
    ensures c !in ListMarks(s)
  {
    ScanKeeps(Bullets, s, true, c);
    ScanKeeps(Numbers, Pass(Bullets, s), true, c);
  }

  /** The spacing passes leave no `\n` and no two whitespace characters
      together, and insert no `#`. */
  lemma SpacingSettles(s: string)
    ensures var r := Spacing(s);
      && NoDoubleSpace(r)
      && '\n' !in r
      && ('#' !in s ==> '#' !in r)
  {
    var p := Pass(ParagraphBreaks, s);
    var n := Pass(Newlines, p);
    if '#' !in s {
      ScanKeeps(ParagraphBreaks, s, true, '#');
      ScanKeeps(Newlines, p, true, '#');
      ScanKeeps(SpaceRuns, n, true, '#');
    }
    NewlinesGone(p, true);
    ScanKeeps(SpaceRuns, n, true, '\n');
    SpaceRunsCollapse(n, true);
  }

  lemma TrimNoDoubleSpace(s: string)
    requires NoDoubleSpace(s)
    ensures NoDoubleSpace(Text.Trim(s))
  {
    TrimSlice(s);
    SliceNoDoubleSpace(s, Text.Trim(s), TrimOffset(s, Text.IsSpace));
  }

  lemma TrimSlice(s: string)
    ensures var a := TrimOffset(s, Text.IsSpace);
      a + |Text.Trim(s)| <= |s| && Text.Trim(s) == s[a..a + |Text.Trim(s)|]
  {
  }

  lemma SliceNoDoubleSpace(s: string, r: string, a: nat)
    requires a + |r| <= |s| && r == s[a..a + |r|] && NoDoubleSpace(s)
    ensures NoDoubleSpace(r)
  {
    InfixNoDoubleSpace(s, a, a + |r|);
  }

  /** Whatever the answer, the spoken text is trimmed, has no `#` and no
      `\n`, and never has two whitespace characters together. */
  lemma Spoken(text: string)
    ensures var r := StripMarkdown(text);
      && (|r| > 0 ==> !Text.IsSpace(r[0]) && !Text.IsSpace(Last(r)))
      && '#' !in r
      && '\n' !in r
      && NoDoubleSpace(r)
  {
    InlineMarksNoHash(text);
    ListMarksKeep(InlineMarks(text), '#');
    var s := Spacing(ListMarks(InlineMarks(text)));
    SpacingSettles(ListMarks(InlineMarks(text)));
    TrimNoDoubleSpace(s);
  }

  // ---------------------------------------------------------------------
  // Links, images and paragraph breaks
  // ---------------------------------------------------------------------

  predicate IsLetter(c: char) {
    'a' <= c <= 'z' || 'A' <= c <= 'Z'
  }

  predicate IsPlainChar(c: char) {
    IsLetter(c) || Text.IsDigit(c) || c == ' '
  }

  /** Words of letters and digits separated by single spaces, beginning
      with a letter. */
  predicate Plain(s: string) {
    && |s| > 0 && IsLetter(s[0]) && Last(s) != ' '
    && (forall i :: 0 <= i < |s| ==> IsPlainChar(s[i]))
    && NoDoubleSpace(s)
  }

  predicate IsTargetChar(c: char) {
    c != '#' && c != '*' && c != '_' && c != '`' && c != ')' && !Text.IsLineTerminator(c)
  }

  /** A link target without markup characters, closing parentheses or line
      breaks. */
  predicate Target(u: string) {
    |u| > 0 && forall i :: 0 <= i < |u| ==> IsTargetChar(u[i])
  }

  lemma PlainLacks(s: string, c: char)
    requires forall i :: 0 <= i < |s| ==> IsPlainChar(s[i])
    requires !IsPlainChar(c)
    ensures c !in s
  {
  }

  lemma TargetLacks(u: string, c: char)
    requires forall i :: 0 <= i < |u| ==> IsTargetChar(u[i])
    requires !IsTargetChar(c)
    ensures c !in u
  {
  }

  /** In `[anchor](url)`, the lazy label ends at the `](` after the text. */
  lemma LinkLabelEnd(anchor: string, url: string)
    requires Plain(anchor)
    ensures var s := "[" + anchor + "](" + url + ")";
      FindBefore(s, 2, "](", Text.IsLineTerminator) == Some(|anchor| + 1)
  {
    var s := "[" + anchor + "](" + url + ")";
    var q := |anchor| + 1;
    assert s[q..][..2] == "](";
    forall i | 2 <= i < q ensures !Text.IsLineTerminator(s[i]) && s[i] != ']' {
      assert s[i] == anchor[i - 1];
    }
    FindBeforeAt(s, 2, "](", Text.IsLineTerminator, q);
  }

  /** In `[anchor](url)`, the lazy target ends at the final `)`. */
  lemma LinkTargetEnd(anchor: string, url: string)
    requires Target(url)
    ensures var s := "[" + anchor + "](" + url + ")";
      FindBefore(s, |anchor| + 4, ")", Text.IsLineTerminator) == Some(|s| - 1)
  {
    var s := "[" + anchor + "](" + url + ")";
    var q := |anchor| + 1;
    forall i | q + 3 <= i < |s| - 1 ensures !Text.IsLineTerminator(s[i]) && s[i] != ')' {
      assert s[i] == url[i - q - 2];
    }
    assert s[|s| - 1..] == ")";
    FindBeforeAt(s, q + 3, ")", Text.IsLineTerminator, |s| - 1);
  }

  /** `[anchor](url)` is one match of the link pattern, replaced by its
      text. */
  lemma LinkMatch(anchor: string, url: string, atStart: bool)
    requires Plain(anchor) && Target(url)
    ensures var s := "[" + anchor + "](" + url + ")";
      MatchAt(Links, s, atStart) == Some(Cut(|s|, anchor))
  {
    var s := "[" + anchor + "](" + url + ")";
    var q := |anchor| + 1;
    LinkLabelEnd(anchor, url);
    LinkTargetEnd(anchor, url);
    assert s[1] == anchor[0] && s[q + 2] == url[0];
    assert s[1..q] == anchor;
  }

  /** The link pass reads `[anchor](url)` as its text. */
  lemma LinkPass(anchor: string, url: string, atStart: bool)
    requires Plain(anchor) && Target(url)
    ensures Scan(PatternOf(Links), "[" + anchor + "](" + url + ")", atStart) == anchor
  {
    var s := "[" + anchor + "](" + url + ")";
    LinkMatch(anchor, url, atStart);
    assert s[|s|..] == "";
  }

  /** Text a pass of the list or spacing kind leaves alone: one line, not
      starting with whitespace, a list marker or a digit, ending without
      whitespace, with no two whitespace characters together. */
  predicate Settled(s: string) {
    && (forall i :: 0 <= i < |s| ==> !Text.IsLineTerminator(s[i]))
    && (|s| > 0 ==> !Text.IsSpace(s[0]) && !IsBullet(s[0]) && !Text.IsDigit(s[0]) && !Text.IsSpace(Last(s)))
    && NoDoubleSpace(s)
  }

  lemma SpanTwo(s: string, p: char -> bool)
    requires Span(s, p) >= 2
    ensures p(s[0]) && p(s[1])
  {
    assert s[1..][0] == s[1];
  }

  /** A text without two whitespace characters together has no run for
      the whitespace pass. */
  lemma SpaceRunsIdle(s: string, atStart: bool)
    requires NoDoubleSpace(s)
    ensures Scan(PatternOf(SpaceRuns), s, atStart) == s
  {
    forall i | 0 <= i < |s| ensures MatchAt(SpaceRuns, s[i..], LineStartAt(s, i, atStart)).None? {
      if Span(s[i..], Text.IsSpace) >= 2 {
        SpanTwo(s[i..], Text.IsSpace);
        assert SpacePairAt(s, i);
      }
    }
    ScanIdle(PatternOf(SpaceRuns), s, atStart);
  }

  lemma SettledLists(s: string)
    requires Settled(s)
    ensures ListMarks(s) == s
  {
    forall i | 0 <= i < |s|
      ensures MatchAt(Bullets, s[i..], LineStartAt(s, i, true)).None?
      ensures MatchAt(Numbers, s[i..], LineStartAt(s, i, true)).None?
    {
      if i == 0 {
        assert s[0..] == s;
      }
    }
    ScanIdle(PatternOf(Bullets), s, true);
    ScanIdle(PatternOf(Numbers), s, true);
  }

  /** The list, spacing and trimming steps leave settled text as it is. */
  lemma SettledStays(s: string)
    requires Settled(s)
    ensures Text.Trim(Spacing(ListMarks(s))) == s
  {
    SettledLists(s);
    assert '\n' !in s;
    PassIdle(ParagraphBreaks, s, true);
    SettledSpacing(s);
  }

  /** The last two spacing passes and the trim leave settled text as it
      is. */
  lemma SettledSpacing(s: string)
    requires Settled(s)
    ensures Text.Trim(Pass(SpaceRuns, Pass(Newlines, s))) == s
  {
    assert '\n' !in s;
    PassIdle(Newlines, s, true);
    SpaceRunsIdle(s, true);
    TrimmedIsFixed(s, Text.IsSpace);
  }

  /** The passes before the link pass leave text without their markup
      characters alone. */
  lemma MarkupIdle(s: string)
    requires '#' !in s && '*' !in s && '_' !in s && '`' !in s
    ensures Pass(CodeSpans, Pass(Emphasis(Underscore), Pass(Emphasis(DoubleUnderscore),
              Pass(Emphasis(Star), Pass(Emphasis(DoubleStar), Pass(Hashes, s)))))) == s
  {
    EmphasisIdle(s);
    PassIdle(Hashes, s, true);
    PassIdle(CodeSpans, s, true);
  }

  lemma EmphasisIdle(s: string)
    requires '*' !in s && '_' !in s
    ensures Pass(Emphasis(Underscore), Pass(Emphasis(DoubleUnderscore),
              Pass(Emphasis(Star), Pass(Emphasis(DoubleStar), s)))) == s
  {
    PassIdle(Emphasis(DoubleStar), s, true);
    PassIdle(Emphasis(Star), s, true);
    PassIdle(Emphasis(DoubleUnderscore), s, true);
    PassIdle(Emphasis(Underscore), s, true);
  }

  /** Text whose markup passes give settled text is spoken as that text. */
  lemma SpokenAs(text: string, m: string)
    requires InlineMarks(text) == m && Settled(m)
    ensures StripMarkdown(text) == m
  {
    SettledStays(m);
  }

  /** The markup passes give the link pass's output when the text has
      no other markup and that output has no bracket. */
  lemma MarkupIsLinks(s: string, m: string)
    requires '#' !in s && '*' !in s && '_' !in s && '`' !in s
    requires Pass(Links, s) == m && '[' !in m
    ensures InlineMarks(s) == m
  {
    MarkupIdle(s);
    PassIdle(Images, m, true);
  }

  lemma LinkChars(anchor: string, url: string)
    requires Plain(anchor) && Target(url)
    ensures var s := "[" + anchor + "](" + url + ")";
      '#' !in s && '*' !in s && '_' !in s && '`' !in s && '[' !in anchor
  {
    PlainLacks(anchor, '#');
    PlainLacks(anchor, '*');
    PlainLacks(anchor, '_');
    PlainLacks(anchor, '`');
    PlainLacks(anchor, '[');
    TargetLacks(url, '#');
    TargetLacks(url, '*');
    TargetLacks(url, '_');
    TargetLacks(url, '`');
  }

  /** The markup passes read a link as its text. */
  lemma LinkMarkup(anchor: string, url: string)
    requires Plain(anchor) && Target(url)
    ensures InlineMarks("[" + anchor + "](" + url + ")") == anchor
  {
    LinkChars(anchor, url);
    LinkPass(anchor, url, true);
    MarkupIsLinks("[" + anchor + "](" + url + ")", anchor);
  }

  /** A link is spoken as its label. */
  lemma LinkSpeaksLabel(anchor: string, url: string)
    requires Plain(anchor) && Target(url)
    ensures StripMarkdown("[" + anchor + "](" + url + ")") == anchor
  {
    LinkMarkup(anchor, url);
    PlainSettled(anchor);
    SpokenAs("[" + anchor + "](" + url + ")", anchor);
  }

  /** The link pass reads an image as `!` and its alternative text: the
      link pass runs first and takes `[alt](src)` for a link. */
  lemma ImageLinkPass(alt: string, src: string)
    requires Plain(alt) && Target(src)
    ensures Pass(Links, "![" + alt + "](" + src + ")") == "!" + alt
  {
    var link := "[" + alt + "](" + src + ")";
    var s := "!" + link;
    assert s == "![" + alt + "](" + src + ")";
    ScanCopiesOne(PatternOf(Links), s, true);
    assert s[1..] == link;
    LinkPass(alt, src, false);
  }

  /** The markup passes read an image as `!` and its alternative text, so
      the image pattern no longer finds it. */
  lemma ImageMarkup(alt: string, src: string)
    requires Plain(alt) && Target(src)
    ensures InlineMarks("![" + alt + "](" + src + ")") == "!" + alt
  {
    LinkChars(alt, src);
    ImageLinkPass(alt, src);
    MarkupIsLinks("![" + alt + "](" + src + ")", "!" + alt);
  }

  /** An image is spoken as `!` and its alternative text. */
  lemma ImageSpeaksAlt(alt: string, src: string)
    requires Plain(alt) && Target(src)
    ensures StripMarkdown("![" + alt + "](" + src + ")") == "!" + alt
  {
    ImageMarkup(alt, src);
    BangSettled(alt);
    SpokenAs("![" + alt + "](" + src + ")", "!" + alt);
  }

  lemma PlainSettled(s: string)
    requires Plain(s)
    ensures Settled(s)
  {
  }

  lemma BangSettled(s: string)
    requires Plain(s)
    ensures Settled("!" + s)
  {
    ConsNoDoubleSpace("!", s);
    assert forall i :: 1 <= i < |s| + 1 ==> ("!" + s)[i] == s[i - 1];
  }

  /** The paragraph-break pass copies text without newlines up to the
      next newline. */
  lemma BreakCopies(a: string, r: string, atStart: bool)
    requires '\n' !in a
    ensures Scan(PatternOf(ParagraphBreaks), a + r, atStart)
         == a + Scan(PatternOf(ParagraphBreaks), r, LineStartAt(a + r, |a|, atStart))
  {
    var p := PatternOf(ParagraphBreaks);
    var s := a + r;
    forall i | 0 <= i < |a| ensures p(s[i..], LineStartAt(s, i, atStart)).None? {
      assert s[i..][0] == a[i];
    }
    ScanCopies(p, s, |a|, atStart);
    assert s[..|a|] == a;
    assert s[|a|..] == r;
  }

  /** The paragraph-break pass copies text without newlines and turns
      the run of two or more newlines after it into one pause; what
      follows the run is scanned afresh from a line start. */
  lemma BreakRun(a: string, n: nat, b: string, atStart: bool)
    requires '\n' !in a && n >= 2 && (|b| > 0 ==> b[0] != '\n')
    ensures Scan(PatternOf(ParagraphBreaks), a + Repeat('\n', n) + b, atStart)
         == a + (". " + Scan(PatternOf(ParagraphBreaks), b, true))
  {
    var r := Repeat('\n', n) + b;
    assert a + Repeat('\n', n) + b == a + r;
    BreakCopies(a, r, atStart);
    BreakAt(n, b, LineStartAt(a + r, |a|, atStart));
  }

  lemma BreakAt(n: nat, b: string, atStart: bool)
    requires n >= 2 && (|b| > 0 ==> b[0] != '\n')
    ensures Scan(PatternOf(ParagraphBreaks), Repeat('\n', n) + b, atStart)
         == ". " + Scan(PatternOf(ParagraphBreaks), b, true)
  {
    NewlineRun(n, b);
  }

  lemma NewlineRun(n: nat, b: string)
    requires n >= 1 && (|b| > 0 ==> b[0] != '\n')
    ensures var r := Repeat('\n', n) + b;
      Span(r, IsNewline) == n && r[n..] == b && r[n - 1] == '\n'
  {
    var r := Repeat('\n', n) + b;
    SpanAll(Repeat('\n', n), IsNewline);
    SpanAppend(Repeat('\n', n), b, IsNewline);
    assert r[n..] == b;
  }

  /** No list item begins after a run of newlines that ends at a letter. */
  lemma NoItemAfter(k: nat, x: string)
    requires |x| > 0 && IsLetter(x[0])
    ensures MatchBullet(Repeat('\n', k) + x).None?
    ensures MatchNumber(Repeat('\n', k) + x).None?
  {
    NewlinesThenLetter(k, x);
  }

  lemma NewlinesThenLetter(k: nat, x: string)
    requires |x| > 0 && IsLetter(x[0])
    ensures var r := Repeat('\n', k) + x;
      Span(r, Text.IsSpace) == k && k < |r| && r[k..] == x && r[k] == x[0]
  {
    var r := Repeat('\n', k) + x;
    SpanAll(Repeat('\n', k), Text.IsSpace);
    SpanAppend(Repeat('\n', k), x, Text.IsSpace);
    assert r[k..] == x;
  }

  predicate LineFree(s: string) {
    forall i :: 0 <= i < |s| ==> !Text.IsLineTerminator(s[i])
  }

  /** No list item begins at any line start of two one-line paragraphs
      that begin with letters. */
  lemma ParagraphItemAt(a: string, n: nat, b: string, i: nat)
    requires |a| > 0 && IsLetter(a[0]) && LineFree(a)
    requires |b| > 0 && IsLetter(b[0]) && LineFree(b)
    requires i < |a| + n + |b|
    ensures var s := a + Repeat('\n', n) + b;
      && MatchAt(Bullets, s[i..], LineStartAt(s, i, true)).None?
      && MatchAt(Numbers, s[i..], LineStartAt(s, i, true)).None?
  {
    var s := a + Repeat('\n', n) + b;
    if i == 0 {
      NoItemAt(s, 0, 0, s);
    } else if i <= |a| {
      assert s[i - 1] == a[i - 1];
      InsideLine(s, i);
    } else if i <= |a| + n {
      assert s[i..] == Repeat('\n', |a| + n - i) + b;
      NoItemAt(s, i, |a| + n - i, b);
    } else {
      assert s[i - 1] == b[i - 1 - |a| - n];
      InsideLine(s, i);
    }
  }

  /** No list item begins where newlines and then a letter follow. */
  lemma NoItemAt(s: string, i: nat, k: nat, x: string)
    requires i <= |s| && s[i..] == Repeat('\n', k) + x
    requires |x| > 0 && IsLetter(x[0])
    ensures MatchAt(Bullets, s[i..], LineStartAt(s, i, true)).None?
    ensures MatchAt(Numbers, s[i..], LineStartAt(s, i, true)).None?
  {
    NoItemAfter(k, x);
  }

  /** No list item begins inside a line. */
  lemma InsideLine(s: string, i: nat)
    requires 0 < i <= |s| && !Text.IsLineTerminator(s[i - 1])
    ensures MatchAt(Bullets, s[i..], LineStartAt(s, i, true)).None?
    ensures MatchAt(Numbers, s[i..], LineStartAt(s, i, true)).None?
  {
  }

  /** Two one-line paragraphs that begin with letters hold no list
      item. */
  lemma ParagraphLists(a: string, n: nat, b: string)
    requires |a| > 0 && IsLetter(a[0]) && LineFree(a)
    requires |b| > 0 && IsLetter(b[0]) && LineFree(b)
    ensures var s := a + Repeat('\n', n) + b; ListMarks(s) == s
  {
    var s := a + Repeat('\n', n) + b;
    forall i | 0 <= i < |s|
      ensures MatchAt(Bullets, s[i..], LineStartAt(s, i, true)).None?
      ensures MatchAt(Numbers, s[i..], LineStartAt(s, i, true)).None?
    {
      ParagraphItemAt(a, n, b, i);
    }
    ScanIdle(PatternOf(Bullets), s, true);
    ScanIdle(PatternOf(Numbers), s, true);
  }

  lemma ParagraphChars(a: string, n: nat, b: string)
    requires Plain(a) && Plain(b)
    ensures var s := a + Repeat('\n', n) + b;
      '#' !in s && '*' !in s && '_' !in s && '`' !in s && '[' !in s
    ensures LineFree(a) && LineFree(b) && '\n' !in a && '\n' !in b
  {
    PlainLacks(a, '#');
    PlainLacks(a, '*');
    PlainLacks(a, '_');
    PlainLacks(a, '`');
    PlainLacks(a, '[');
    PlainLacks(b, '#');
    PlainLacks(b, '*');
    PlainLacks(b, '_');
    PlainLacks(b, '`');
    PlainLacks(b, '[');
  }

  /** The markup passes leave text without markup characters alone. */
  lemma InlineIdle(s: string)
    requires '#' !in s && '*' !in s && '_' !in s && '`' !in s && '[' !in s
    ensures InlineMarks(s) == s
  {
    PassIdle(Links, s, true);
    MarkupIsLinks(s, s);
  }

  lemma PauseSettled(a: string, b: string)
    requires Plain(a) && Plain(b)
    ensures Settled(a + (". " + b))
  {
    var s := a + (". " + b);
    ConsNoDoubleSpace(". ", b);
    ConsNoDoubleSpace(a, ". " + b);
    assert forall i :: 0 <= i < |a| ==> s[i] == a[i];
    assert forall i :: |a| + 2 <= i < |s| ==> s[i] == b[i - |a| - 2];
  }

  /** The paragraph-break pass puts one pause between two one-line
      paragraphs. */
  lemma BreakPass(a: string, n: nat, b: string)
    requires '\n' !in a && '\n' !in b && n >= 2 && |b| > 0 && IsLetter(b[0])
    ensures Pass(ParagraphBreaks, a + Repeat('\n', n) + b) == a + (". " + b)
  {
    BreakRun(a, n, b, true);
    PassIdle(ParagraphBreaks, b, true);
  }

  /** The steps of `stripMarkdown` for two one-line paragraphs without
      markup that begin with letters: the markup and list passes change
      nothing and the paragraph-break pass puts a pause between them. */
  lemma ParagraphStages(a: string, n: nat, b: string)
    requires var s := a + Repeat('\n', n) + b;
      '#' !in s && '*' !in s && '_' !in s && '`' !in s && '[' !in s
    requires |a| > 0 && IsLetter(a[0]) && LineFree(a) && '\n' !in a
    requires |b| > 0 && IsLetter(b[0]) && LineFree(b) && '\n' !in b
    requires n >= 2
    ensures var s := a + Repeat('\n', n) + b;
      && InlineMarks(s) == s
      && ListMarks(s) == s
      && Pass(ParagraphBreaks, s) == a + (". " + b)
  {
    InlineIdle(a + Repeat('\n', n) + b);
    ParagraphLists(a, n, b);
    BreakPass(a, n, b);
  }

  lemma SpokenWithPause(s: string, x: string)
    requires InlineMarks(s) == s && ListMarks(s) == s
    requires Pass(ParagraphBreaks, s) == x && Settled(x)
    ensures StripMarkdown(s) == x
  {
    SettledSpacing(x);
  }

  /** Two paragraphs of plain words are spoken with a pause between
      them, however many blank lines separate them. */
  lemma ParagraphsPause(a: string, n: nat, b: string)
    requires Plain(a) && Plain(b) && n >= 2
    ensures StripMarkdown(a + Repeat('\n', n) + b) == a + ". " + b
  {
    ParagraphChars(a, n, b);
    ParagraphStages(a, n, b);
    PauseSettled(a, b);
    SpokenWithPause(a + Repeat('\n', n) + b, a + (". " + b));
    AppendAssoc(a, ". ", b);
  }
}

=== FILE: stream.dfy ===
/** The voice assistant's reader of a streamed chat answer (voice.js:236-298).
    The response arrives as already-decoded text pieces cut anywhere; the
    reader keeps a line buffer across pieces, hands every complete line to
    the JSON parser, skips blank and unparseable lines, and keeps the last
    parsed chunk and the last non-empty answer text. Each chunk is a
    cumulative snapshot, so the displayed text is overwritten, never
    appended. When the stream ends the unterminated rest of the buffer is
    dropped and the answer, session token and follow-ups are chosen. */
module Stream {
  import opened Wrappers
  import opened Seqs
  import Text
  import opened Chat

  /** A parsed line as the reader sees it. A falsy JSON value (`null`,
      `false`, `0`, `""`) still becomes `lastData`, but shows no text and at
      the end counts as no response. Any other value is read as a chunk; a
      truthy value that is not an object reads as a chunk with no fields. */
  datatype Value = Falsy | Object(chunk: Chunk)

  /** `JSON.parse` of one trimmed line: its value, or `None` when the line
      is not JSON. */
  type Parser = string -> Option<Value>

  /** The reducer's variables `lastData` and `lastText`. */
  datatype Reading = Reading(lastData: Option<Value>, lastText: string)

  const Start: Reading := Reading(None, "")

  /** The live text one chunk shows: its answer message's string fragments
      joined with a space and trimmed; empty when it has no message. */
  function ChunkText(c: Chunk): string {
    match SelectMessage(c.messages)
    case None => ""
    case Some(m) => MessageText(m, " ")
  }

  function ValueText(v: Value): string {
    match v
    case Falsy => ""
    case Object(c) => ChunkText(c)
  }

  /** The chunk a line yields, if any: blank lines are skipped before the
      parser is called, and the parser sees the trimmed line. */
  function Parsed(line: string, parse: Parser): Option<Value> {
    var trimmed := Text.Trim(line);
    if trimmed == "" then None else parse(trimmed)
  }

  /** The text a line would display: empty when it yields no chunk. */
  function LineText(line: string, parse: Parser): string {
    match Parsed(line, parse)
    case None => ""
    case Some(v) => ValueText(v)
  }

  /** One complete line. A line that yields no chunk changes nothing; a
      chunk always becomes `lastData`, and replaces `lastText` only when its
      own text is non-empty. */
  function ProcessLine(st: Reading, line: string, parse: Parser): (r: Reading)
    ensures Parsed(line, parse).None? ==> r == st
    ensures Parsed(line, parse).Some? ==> r.lastData == Parsed(line, parse)
    ensures r.lastText == (if LineText(line, parse) != "" then LineText(line, parse) else st.lastText)
  {
    var trimmed := Text.Trim(line);
    if trimmed == "" then st
    else match parse(trimmed)
      case None => st
      case Some(v) =>
        var text := ValueText(v);
        Reading(Some(v), if text != "" then text else st.lastText)
  }

  /** The lines in order, left to right. */
  function ProcessLines(st: Reading, lines: seq<string>, parse: Parser): Reading
    decreases |lines|
  {
    if |lines| == 0 then st
    else ProcessLine(ProcessLines(st, lines[..|lines| - 1], parse), Last(lines), parse)
  }

  lemma {:induction false} ProcessLinesAppend(st: Reading, a: seq<string>, b: seq<string>, parse: Parser)
    ensures ProcessLines(st, a + b, parse) == ProcessLines(ProcessLines(st, a, parse), b, parse)
    decreases |b|
  {
    if |b| == 0 {
      assert a + b == a;
    } else {
      assert (a + b)[..|a + b| - 1] == a + b[..|b| - 1];
      assert Last(a + b) == Last(b);
      ProcessLinesAppend(st, a, b[..|b| - 1], parse);
    }
  }

  /** Lines that yield no chunk leave the reduction as it was. */
  lemma {:induction false} UnparsedLinesChangeNothing(st: Reading, lines: seq<string>, parse: Parser)
    requires forall i :: 0 <= i < |lines| ==> Parsed(lines[i], parse).None?
    ensures ProcessLines(st, lines, parse) == st
    decreases |lines|
  {
    if |lines| > 0 {
      var init := lines[..|lines| - 1];
      assert forall i :: 0 <= i < |init| ==> init[i] == lines[i];
      UnparsedLinesChangeNothing(st, init, parse);
      assert Parsed(Last(lines), parse).None?;
    }
  }

  /** `lastData` is the chunk of the last line that yields one. */
  lemma {:induction false} LastDataIsLastParsed(st: Reading, lines: seq<string>, parse: Parser, i: nat)
    requires i < |lines| && Parsed(lines[i], parse).Some?
    requires forall j :: i < j < |lines| ==> Parsed(lines[j], parse).None?
    ensures ProcessLines(st, lines, parse).lastData == Parsed(lines[i], parse)
    decreases |lines|
  {
    var init := lines[..|lines| - 1];
    var before := ProcessLines(st, init, parse);
    assert ProcessLines(st, lines, parse) == ProcessLine(before, Last(lines), parse);
    if i < |lines| - 1 {
      assert before.lastData == Parsed(lines[i], parse) by {
        assert forall j :: 0 <= j < |init| ==> init[j] == lines[j];
        LastDataIsLastParsed(st, init, parse, i);
      }
      assert Parsed(Last(lines), parse).None?;
    }
  }

  /** Lines without text leave `lastText` as it was. */
  lemma {:induction false} TextlessLinesKeepText(st: Reading, lines: seq<string>, parse: Parser)
    requires forall i :: 0 <= i < |lines| ==> LineText(lines[i], parse) == ""
    ensures ProcessLines(st, lines, parse).lastText == st.lastText
    decreases |lines|
  {
    if |lines| > 0 {
      var init := lines[..|lines| - 1];
      assert forall i :: 0 <= i < |init| ==> init[i] == lines[i];
      TextlessLinesKeepText(st, init, parse);
      assert LineText(Last(lines), parse) == "";
    }
  }

  /** Cumulative snapshots: `lastText` is the text of the last line whose
      own text is non-empty, not a combination of several lines. */
  lemma {:induction false} LastTextIsLastNonEmpty(st: Reading, lines: seq<string>, parse: Parser, i: nat)
    requires i < |lines| && LineText(lines[i], parse) != ""
    requires forall j :: i < j < |lines| ==> LineText(lines[j], parse) == ""
    ensures ProcessLines(st, lines, parse).lastText == LineText(lines[i], parse)
    decreases |lines|
  {
    var init := lines[..|lines| - 1];
    var before := ProcessLines(st, init, parse);
    assert ProcessLines(st, lines, parse) == ProcessLine(before, Last(lines), parse);
    if i < |lines| - 1 {
      assert before.lastText == LineText(lines[i], parse) by {
        assert forall j :: 0 <= j < |init| ==> init[j] == lines[j];
        LastTextIsLastNonEmpty(st, init, parse, i);
      }
      assert LineText(Last(lines), parse) == "";
    }
  }

  /** The reader between two pieces: the partial line and the reduction of
      every complete line so far. */
  datatype Reader = Reader(buffer: string, reading: Reading)

  const Fresh: Reader := Reader("", Start)

  /** One arriving piece: append it to the buffer, split on newlines, keep
      the last part as the new buffer and process the others. */
  function Feed(rd: Reader, piece: string, parse: Parser): (r: Reader)
    ensures '\n' !in r.buffer
  {
    var lines := Split(rd.buffer + piece, '\n');
    Reader(Last(lines), ProcessLines(rd.reading, lines[..|lines| - 1], parse))
  }

  function FeedAll(rd: Reader, pieces: seq<string>, parse: Parser): Reader
    decreases |pieces|
  {
    if |pieces| == 0 then rd
    else Feed(FeedAll(rd, pieces[..|pieces| - 1], parse), Last(pieces), parse)
  }

  /** The lines of `s` that a newline terminates; the final segment is not
      among them. */
  function CompleteLines(s: string): seq<string> {
    var parts := Split(s, '\n');
    parts[..|parts| - 1]
  }

  /** Appending a piece to received text `x`: the complete lines grow by
      the complete lines of the buffer (the last segment of `x`) plus the
      piece, and the new last segment is the last segment of that. */
  lemma CompleteLinesStep(x: string, p: string)
    ensures var lines := Split(Last(Split(x, '\n')) + p, '\n');
      && CompleteLines(x + p) == CompleteLines(x) + lines[..|lines| - 1]
      && Last(Split(x + p, '\n')) == Last(lines)
  {
    var sx := Split(x, '\n');
    var lines := Split(Last(sx) + p, '\n');
    SplitExtend(x, p, '\n');
    var whole := Split(x + p, '\n');
    assert whole[..|whole| - 1] == sx[..|sx| - 1] + lines[..|lines| - 1];
  }

  /** After any number of pieces the buffer is the unterminated tail of
      everything received, and exactly the complete lines of everything
      received have been processed, in order. */
  lemma {:induction false} FeedAllSpec(pieces: seq<string>, parse: Parser)
    ensures FeedAll(Fresh, pieces, parse) ==
      Reader(Last(Split(Concat(pieces), '\n')), ProcessLines(Start, CompleteLines(Concat(pieces)), parse))
    decreases |pieces|
  {
    if |pieces| == 0 {
      assert Split(Concat(pieces), '\n') == [[]];
    } else {
      var init := pieces[..|pieces| - 1];
      var p := Last(pieces);
      var x := Concat(init);
      assert Concat(pieces) == x + p by {
        assert pieces == init + [p];
        ConcatAppend(init, [p]);
        assert Concat([p]) == p;
      }
      var rd := FeedAll(Fresh, init, parse);
      assert rd == Reader(Last(Split(x, '\n')), ProcessLines(Start, CompleteLines(x), parse)) by {
        FeedAllSpec(init, parse);
      }
      var lines := Split(rd.buffer + p, '\n');
      var done := lines[..|lines| - 1];
      assert FeedAll(Fresh, pieces, parse) == Reader(Last(lines), ProcessLines(rd.reading, done, parse));
      assert CompleteLines(x + p) == CompleteLines(x) + done && Last(Split(x + p, '\n')) == Last(lines) by {
        CompleteLinesStep(x, p);
      }
      assert ProcessLines(rd.reading, done, parse) == ProcessLines(Start, CompleteLines(x + p), parse) by {
        ProcessLinesAppend(Start, CompleteLines(x), done, parse);
      }
    }
  }

  /** The load-bearing property: the reduction depends only on the text
      received, not on where it was cut into pieces. */
  lemma ChunkingIndependence(p1: seq<string>, p2: seq<string>, parse: Parser)
    requires Concat(p1) == Concat(p2)
    ensures FeedAll(Fresh, p1, parse) == FeedAll(Fresh, p2, parse)
  {
    FeedAllSpec(p1, parse);
    FeedAllSpec(p2, parse);
  }

  /** Reading the pieces gives the same result as reading all the text as
      one piece. */
  lemma SameAsOnePiece(pieces: seq<string>, parse: Parser)
    ensures FeedAll(Fresh, pieces, parse) == FeedAll(Fresh, [Concat(pieces)], parse)
  {
    assert Concat([Concat(pieces)]) == Concat(pieces);
    ChunkingIndependence(pieces, [Concat(pieces)], parse);
  }

  /** Text that ends on a line boundary, followed by a newline-free tail:
      the complete lines are those of the text, the tail is the last
      segment. */
  lemma TailAfterBoundary(x: string, tail: string)
    requires x == [] || Last(x) == '\n'
    requires '\n' !in tail
    ensures CompleteLines(x + tail) == CompleteLines(x)
    ensures Last(Split(x + tail, '\n')) == tail
  {
    var sx := Split(x, '\n');
    assert Last(sx) == [] by {
      if x != [] {
        SplitEndsWithSeparator(x, '\n');
      }
    }
    var whole := Split(x + tail, '\n');
    assert whole == sx[..|sx| - 1] + [tail] by {
      SplitExtend(x, tail, '\n');
      SplitNoSeparator(tail, '\n');
      assert Last(sx) + tail == tail;
    }
    assert whole[..|whole| - 1] == sx[..|sx| - 1];
  }

  /** A final segment without a terminating newline is never parsed: after
      a stream that ended on a line boundary, a newline-free tail only
      lands in the buffer, which is dropped when the stream ends. */
  lemma UnterminatedTailIgnored(pieces: seq<string>, tail: string, parse: Parser)
    requires Concat(pieces) == [] || Last(Concat(pieces)) == '\n'
    requires '\n' !in tail
    ensures FeedAll(Fresh, pieces + [tail], parse).reading == FeedAll(Fresh, pieces, parse).reading
    ensures FeedAll(Fresh, pieces + [tail], parse).buffer == tail
  {
    var x := Concat(pieces);
    assert Concat(pieces + [tail]) == x + tail by {
      ConcatAppend(pieces, [tail]);
    }
    TailAfterBoundary(x, tail);
    FeedAllSpec(pieces, parse);
    FeedAllSpec(pieces + [tail], parse);
  }

  lemma ProcessLinesStep(st: Reading, lines: seq<string>, i: nat, parse: Parser)
    requires i < |lines|
    ensures ProcessLines(st, lines[..i + 1], parse) == ProcessLine(ProcessLines(st, lines[..i], parse), lines[i], parse)
  {
    assert lines[..i + 1][..i] == lines[..i];
  }

  lemma FeedAllStep(pieces: seq<string>, k: nat, parse: Parser)
    requires k < |pieces|
    ensures FeedAll(Fresh, pieces[..k + 1], parse) == Feed(FeedAll(Fresh, pieces[..k], parse), pieces[k], parse)
  {
    assert pieces[..k + 1][..k] == pieces[..k];
  }

  /** The loop of voice.js:242-275: read each piece, process the complete
      lines, carry the partial line. The leftover buffer is returned to
      show what is dropped. */
  method ReadStream(pieces: seq<string>, parse: Parser) returns (reading: Reading, leftover: string)
    ensures reading == ProcessLines(Start, CompleteLines(Concat(pieces)), parse)
    ensures leftover == Last(Split(Concat(pieces), '\n'))
    ensures '\n' !in leftover
  {
    var buffer := "";
    reading := Start;
    var k := 0;
    while k < |pieces|
      invariant 0 <= k <= |pieces|
      invariant FeedAll(Fresh, pieces[..k], parse) == Reader(buffer, reading)
    {
      var lines := Split(buffer + pieces[k], '\n');
      var before := reading;
      var i := 0;
      while i < |lines| - 1
        invariant 0 <= i <= |lines| - 1
        invariant reading == ProcessLines(before, lines[..i], parse)
      {
        ProcessLinesStep(before, lines, i, parse);
        reading := ProcessLine(reading, lines[i], parse);
        i := i + 1;
      }
      buffer := Last(lines);
      FeedAllStep(pieces, k, parse);
      k := k + 1;
    }
    assert pieces[..k] == pieces;
    FeedAllSpec(pieces, parse);
    leftover := buffer;
  }

  datatype Answer = Answer(text: string, sessionToken: Option<string>, followUps: seq<string>)

  const VoiceFollowUpLimit: nat := 3

  /** The end of the stream (voice.js:277-298): no parsed line, or a falsy
      last value, is the "no response" error, no text the "empty" error, and
      in both cases the session token is not touched. Otherwise the answer
      is the last text, the token is the last chunk's when it has one and
      the previous one otherwise, and at most three follow-ups of the last
      chunk are shown. */
  function Finish(st: Reading, session: Option<string>): (r: Result<Answer, AnswerError>)
    ensures st.lastData.None? || st.lastData.value.Falsy? ==> r == Failure(NoResponse)
    ensures st.lastData.Some? && st.lastData.value.Object? && st.lastText == "" ==> r == Failure(EmptyAnswer)
    ensures r.Success? ==> st.lastData.Some? && st.lastData.value.Object? && r.value.text == st.lastText != ""
    ensures r.Success? && IsSet(st.lastData.value.chunk.sessionToken) ==>
              r.value.sessionToken == st.lastData.value.chunk.sessionToken
    ensures r.Success? && !IsSet(st.lastData.value.chunk.sessionToken) ==> r.value.sessionToken == session
    ensures r.Success? ==> |r.value.followUps| <= VoiceFollowUpLimit
    ensures r.Success? ==>
              var data := st.lastData.value.chunk;
              StartsWith(Prompts(data, SelectMessage(data.messages)), r.value.followUps)
    ensures r.Success? ==>
              var data := st.lastData.value.chunk;
              r.value.followUps == Take(Prompts(data, SelectMessage(data.messages)), VoiceFollowUpLimit)
  {
    match st.lastData
    case None => Failure(NoResponse)
    case Some(Falsy) => Failure(NoResponse)
    case Some(Object(data)) =>
      if st.lastText == "" then Failure(EmptyAnswer)
      else
        var token := if IsSet(data.sessionToken) then data.sessionToken else session;
        var prompts := Prompts(data, SelectMessage(data.messages));
        Success(Answer(st.lastText, token, Take(prompts, VoiceFollowUpLimit)))
  }

  lemma NothingParsedNothingRead(pieces: seq<string>, parse: Parser)
    ensures (forall i :: 0 <= i < |CompleteLines(Concat(pieces))| ==>
               Parsed(CompleteLines(Concat(pieces))[i], parse).None?) ==>
              FeedAll(Fresh, pieces, parse).reading == Start
  {
    FeedAllSpec(pieces, parse);
    var lines := CompleteLines(Concat(pieces));
    if forall i :: 0 <= i < |lines| ==> Parsed(lines[i], parse).None? {
      UnparsedLinesChangeNothing(Start, lines, parse);
    }
  }

  /** A whole streamed exchange: the outcome depends only on the complete
      lines of the text received, however it was cut, and with no
      parseable line at all it is "no response". */
  function Exchange(pieces: seq<string>, parse: Parser, session: Option<string>): (r: Result<Answer, AnswerError>)
    ensures r == Finish(ProcessLines(Start, CompleteLines(Concat(pieces)), parse), session)
    ensures (forall i :: 0 <= i < |CompleteLines(Concat(pieces))| ==>
               Parsed(CompleteLines(Concat(pieces))[i], parse).None?) ==> r == Failure(NoResponse)
  {
    var rd := FeedAll(Fresh, pieces, parse);
    FeedAllSpec(pieces, parse);
    NothingParsedNothingRead(pieces, parse);
    Finish(rd.reading, session)
  }

  /** A falsy value on the last line that parses ends the exchange with the
      "no response" error, however good the chunks before it were. */
  lemma FalsyLastValue(pieces: seq<string>, parse: Parser, session: Option<string>, i: nat)
    requires i < |CompleteLines(Concat(pieces))|
    requires Parsed(CompleteLines(Concat(pieces))[i], parse) == Some(Falsy)
    requires forall j :: i < j < |CompleteLines(Concat(pieces))| ==>
               Parsed(CompleteLines(Concat(pieces))[j], parse).None?
    ensures Exchange(pieces, parse, session) == Failure(NoResponse)
  {
    LastDataIsLastParsed(Start, CompleteLines(Concat(pieces)), parse, i);
  }
}

=== FILE: tables.dfy ===
/** Markdown tables (accounting.js:413-440): which text the table pattern
    takes as a block, how a block is read as a header, a separator line and
    body rows, and how one row is cut into cells. */
module Tables {
  import opened Wrappers
  import opened Seqs
  import opened Markup

  const Pipe: Tok := Ch('|')
  const Newline: Tok := Ch('\n')

  /** One row of the pattern `^\|.+\|\n?` at a line start: from the `|`
      that starts the line to the last `|` of that line, which must leave at
      least one token between the two, plus a following `\n` if there is
      one. Zero when no row starts here. */
  function RowLen(s: seq<Tok>): (n: nat)
    ensures n <= |s|
    ensures n > 0 ==> n >= 3 && s[0] == Pipe
    ensures n > 0 ==> forall i :: 0 <= i < n - 1 ==> !IsLineBreak(s[i])
    ensures n > 0 ==> s[n - 1] == Pipe || s[n - 1] == Newline
  {
    if |s| == 0 || s[0] != Pipe then 0
    else
      LineLenStops(s);
      var line := s[..LineLen(s)];
      match LastIndexOf(line, Pipe)
      case None => 0
      case Some(q) =>
        if q < 2 then 0
        else if q + 1 < |s| && s[q + 1] == Newline then q + 2
        else q + 1
  }

  /** The `|` that closes a row is the last `|` of its line, and the row
      takes the newline ending that line when there is one. */
  lemma RowEndsAtLastPipe(s: seq<Tok>)
    requires RowLen(s) > 0
    ensures var n := RowLen(s); var e := if s[n - 1] == Newline then n - 1 else n;
      && 3 <= e <= LineLen(s) && s[e - 1] == Pipe
      && (forall i :: e <= i < LineLen(s) ==> s[i] != Pipe)
      && (e < n ==> e == LineLen(s))
  {
    LineLenStops(s);
    var line := s[..LineLen(s)];
    var q := LastIndexOf(line, Pipe).value;
    assert line[q] == s[q];
    forall i | q < i < LineLen(s) ensures s[i] != Pipe {
      assert line[i] == s[i];
    }
    if q + 1 < LineLen(s) {
      assert s[q + 1] != Newline by {
        assert !IsLineBreak(s[q + 1]);
      }
    }
  }

  /** The whole block `(?:^\|.+\|\n?)+`: rows as long as each ends with a
      newline and the next line is a row too. */
  function BlockLen(s: seq<Tok>): (n: nat)
    ensures n <= |s|
    ensures n > 0 ==> n >= 3 && s[0] == Pipe
    decreases |s|
  {
    var row := RowLen(s);
    if row == 0 then 0
    else if s[row - 1] == Newline then row + BlockLen(s[row..])
    else row
  }

  /** `row.replace(/^\||\|$/g, '')`: without the `m` flag `^` and `$` are
      the ends of the row, so at most one leading and one trailing `|` go. */
  function StripPipes(row: seq<Tok>): (r: seq<Tok>)
    ensures |row| - 2 <= |r| <= |row|
    ensures |row| > 0 && row[0] == Pipe ==> |r| < |row| && r == row[1..1 + |r|]
    ensures !(|row| > 0 && row[0] == Pipe) ==> r == row[..|r|]
    ensures |r| < |row| - 1 ==> row[0] == Pipe && Last(row) == Pipe
  {
    var a := if |row| > 0 && row[0] == Pipe then row[1..] else row;
    if |a| > 0 && Last(a) == Pipe then a[..|a| - 1] else a
  }

  /** The cells of a row: the parts between the interior pipes, trimmed. */
  function ParseTableRow(row: seq<Tok>): seq<seq<Tok>> {
    TrimEach(Split(StripPipes(row), Pipe))
  }

  /** There is one more cell than interior pipes, and no cell holds a `|`
      or starts or ends with whitespace. */
  lemma ParseTableRowCells(row: seq<Tok>)
    ensures var cells := ParseTableRow(row);
      && |cells| == Count(StripPipes(row), Pipe) + 1
      && (forall k :: 0 <= k < |cells| ==> Pipe !in cells[k])
      && (forall k :: 0 <= k < |cells| ==> |cells[k]| == 0 || (!IsSpaceTok(cells[k][0]) && !IsSpaceTok(Last(cells[k]))))
  {
    var inner := StripPipes(row);
    var parts := Split(inner, Pipe);
    SplitCount(inner, Pipe);
    var cells := TrimEach(parts);
    forall k | 0 <= k < |cells|
      ensures Pipe !in cells[k]
      ensures |cells[k]| == 0 || (!IsSpaceTok(cells[k][0]) && !IsSpaceTok(Last(cells[k])))
    {
      TrimCell(parts[k]);
    }
  }

  /** The cells of a clean row are clean. */
  lemma ParseTableRowClean(row: seq<Tok>)
    requires Clean(row)
    ensures forall k :: 0 <= k < |ParseTableRow(row)| ==> Clean(ParseTableRow(row)[k])
  {
    var inner := StripPipes(row);
    var parts := Split(inner, Pipe);
    StripPipesClean(row);
    SplitClean(inner, Pipe);
    var cells := TrimEach(parts);
    forall k | 0 <= k < |cells| ensures Clean(cells[k]) {
      TrimCell(parts[k]);
    }
  }

  lemma StripPipesClean(row: seq<Tok>)
    ensures Clean(row) ==> Clean(StripPipes(row))
  {
  }

  /** A trimmed cell keeps no `|` it did not have, starts and ends with a
      non-space, and stays clean. */
  lemma TrimCell(p: seq<Tok>)
    ensures var t := TrimToks(p);
      && (|t| == 0 || (!IsSpaceTok(t[0]) && !IsSpaceTok(Last(t))))
      && (Pipe !in p ==> Pipe !in t)
      && (Clean(p) ==> Clean(t))
  {
    var t := TrimToks(p);
    if Pipe in t {
      var i :| 0 <= i < |t| && t[i] == Pipe;
      assert t[i] == p[TrimOffset(p, IsSpaceTok) + i];
    }
  }

  /** A row written back: cells between pipes. */
  function FormatRow(cells: seq<seq<Tok>>): seq<Tok> {
    [Pipe] + Join(cells, [Pipe]) + [Pipe]
  }

  /** Reading a written row gives its cells back, when the cells hold no
      `|` and are already trimmed. */
  lemma ParseFormatRow(cells: seq<seq<Tok>>)
    requires |cells| >= 1
    requires forall k :: 0 <= k < |cells| ==> Pipe !in cells[k] && TrimToks(cells[k]) == cells[k]
    ensures ParseTableRow(FormatRow(cells)) == cells
  {
    StripFormatted(cells);
    SplitJoin(cells, Pipe);
    TrimEachFixed(cells);
  }

  /** The outer pipes of a written row come off again. */
  lemma StripFormatted(cells: seq<seq<Tok>>)
    ensures StripPipes(FormatRow(cells)) == Join(cells, [Pipe])
  {
    var inner := Join(cells, [Pipe]);
    var row := FormatRow(cells);
    assert row[1..] == inner + [Pipe];
    assert (inner + [Pipe])[..|inner|] == inner;
  }

  /** The separator check `/^\|[\s\-|:]+\|$/` on the trimmed line: without
      the `m` flag it must hold for the whole line. */
  predicate IsSeparator(line: seq<Tok>) {
    var t := TrimToks(line);
    && |t| >= 3 && t[0] == Pipe && Last(t) == Pipe
    && forall i :: 1 <= i < |t| - 1 ==> SeparatorTok(t[i])
  }

  predicate SeparatorTok(t: Tok) {
    IsSpaceTok(t) || t == Ch('-') || t == Pipe || t == Ch(':')
  }

  predicate NonBlank(line: seq<Tok>) {
    TrimToks(line) != []
  }

  /** `block.trim().split('\n').filter(l => l.trim())`. */
  function TableLines(block: seq<Tok>): (lines: seq<seq<Tok>>)
    ensures forall k :: 0 <= k < |lines| ==> NonBlank(lines[k]) && Newline !in lines[k]
  {
    var parts := Split(TrimToks(block), Newline);
    var lines := Filter(parts, NonBlank);
    forall k | 0 <= k < |lines| ensures NonBlank(lines[k]) && Newline !in lines[k] {
      assert lines[k] in parts;
    }
    lines
  }

  /** The lines read from a block are its non-blank lines, in order, each
      as written, when the block neither starts nor ends with whitespace:
      blank lines are dropped and nothing else changes. */
  lemma TableLinesOfJoin(lines: seq<seq<Tok>>)
    requires |lines| >= 1
    requires forall k :: 0 <= k < |lines| ==> Newline !in lines[k]
    requires |lines[0]| > 0 && !IsSpaceTok(lines[0][0])
    requires |Last(lines)| > 0 && !IsSpaceTok(Last(Last(lines)))
    ensures TableLines(Join(lines, [Newline])) == Filter(lines, NonBlank)
  {
    var block := Join(lines, [Newline]);
    JoinTrimmed(lines, [Newline]);
    SplitJoin(lines, Newline);
    assert TableLines(block) == Filter(Split(TrimToks(block), Newline), NonBlank);
  }

  /** The lines of a clean block are clean. */
  lemma TableLinesClean(block: seq<Tok>)
    requires Clean(block)
    ensures forall k :: 0 <= k < |TableLines(block)| ==> Clean(TableLines(block)[k])
  {
    var parts := Split(TrimToks(block), Newline);
    SplitClean(TrimToks(block), Newline);
    var lines := TableLines(block);
    forall k | 0 <= k < |lines| ensures Clean(lines[k]) {
      assert lines[k] in parts;
    }
  }

  datatype Table = Table(header: seq<seq<Tok>>, body: seq<seq<seq<Tok>>>)

  /** A block is a table when it has at least two non-blank lines and the
      second is a separator; the separator is dropped, the first line gives
      the header cells and every further line one body row. */
  function ParseTable(block: seq<Tok>): Option<Table> {
    ReadLines(TableLines(block))
  }

  function ReadLines(lines: seq<seq<Tok>>): Option<Table> {
    if |lines| < 2 || !IsSeparator(lines[1]) then None
    else Some(Table(ParseTableRow(lines[0]), RowsCells(lines[2..])))
  }

  function RowsCells(rows: seq<seq<Tok>>): seq<seq<seq<Tok>>> {
    seq(|rows|, k requires 0 <= k < |rows| => ParseTableRow(rows[k]))
  }

  /** A cell as a table is written: no `|`, no newline, and no whitespace
      at either end. */
  predicate PlainCell(c: seq<Tok>) {
    Pipe !in c && Newline !in c && (|c| > 0 ==> !IsSpaceTok(c[0]) && !IsSpaceTok(Last(c)))
  }

  /** The cells of a plain row are what `ParseFormatRow` reads back. */
  lemma PlainRowTrimmed(cells: seq<seq<Tok>>)
    requires PlainRow(cells)
    ensures forall k :: 0 <= k < |cells| ==> Pipe !in cells[k] && TrimToks(cells[k]) == cells[k]
  {
    forall k | 0 <= k < |cells| ensures TrimToks(cells[k]) == cells[k] {
      TrimmedIsFixed(cells[k], IsSpaceTok);
    }
  }

  predicate PlainRow(cells: seq<seq<Tok>>) {
    |cells| >= 1 && forall k :: 0 <= k < |cells| ==> PlainCell(cells[k])
  }

  function FormatRows(rows: seq<seq<seq<Tok>>>): seq<seq<Tok>> {
    seq(|rows|, k requires 0 <= k < |rows| => FormatRow(rows[k]))
  }

  /** A table written out: the header row, the separator line and one line
      per body row, joined by newlines. */
  function TableText(t: Table, sep: seq<Tok>): seq<Tok> {
    Join([FormatRow(t.header), sep] + FormatRows(t.body), [Newline])
  }

  /** Reading a written table gives it back: the first line is the header,
      the separator is dropped and every further line is one body row, for
      any number of body rows and any separator line. */
  lemma ParseTableText(t: Table, sep: seq<Tok>)
    requires PlainRow(t.header)
    requires forall k :: 0 <= k < |t.body| ==> PlainRow(t.body[k])
    requires IsSeparator(sep) && Newline !in sep && |sep| > 0 && Last(sep) == Pipe
    ensures ParseTable(TableText(t, sep)) == Some(t)
  {
    TextLines(t, sep);
    ReadBack(TableText(t, sep), t, sep);
  }

  /** A block whose lines are those of a written table is that table. */
  lemma ReadBack(block: seq<Tok>, t: Table, sep: seq<Tok>)
    requires PlainRow(t.header)
    requires forall k :: 0 <= k < |t.body| ==> PlainRow(t.body[k])
    requires IsSeparator(sep)
    requires TableLines(block) == [FormatRow(t.header), sep] + FormatRows(t.body)
    ensures ParseTable(block) == Some(t)
  {
    ReadWritten(TableLines(block), t, sep);
  }

  lemma ReadWritten(lines: seq<seq<Tok>>, t: Table, sep: seq<Tok>)
    requires PlainRow(t.header)
    requires forall k :: 0 <= k < |t.body| ==> PlainRow(t.body[k])
    requires IsSeparator(sep)
    requires lines == [FormatRow(t.header), sep] + FormatRows(t.body)
    ensures ReadLines(lines) == Some(t)
  {
    assert lines[1] == sep;
    assert ParseTableRow(lines[0]) == t.header by {
      PlainRowTrimmed(t.header);
      ParseFormatRow(t.header);
    }
    assert RowsCells(lines[2..]) == t.body by {
      assert lines[2..] == FormatRows(t.body);
      RowsCellsFormatted(t.body);
    }
  }

  /** The lines read from a written table are exactly the lines written. */
  lemma TextLines(t: Table, sep: seq<Tok>)
    requires PlainRow(t.header)
    requires forall k :: 0 <= k < |t.body| ==> PlainRow(t.body[k])
    requires IsSeparator(sep) && Newline !in sep && |sep| > 0 && Last(sep) == Pipe
    ensures TableLines(TableText(t, sep)) == [FormatRow(t.header), sep] + FormatRows(t.body)
  {
    var rows := FormatRows(t.body);
    var lines := [FormatRow(t.header), sep] + rows;
    FormatRowLine(t.header);
    forall k | 0 <= k < |rows| ensures Newline !in rows[k] && NonBlank(rows[k]) && Last(rows[k]) == Pipe {
      FormatRowLine(t.body[k]);
    }
    assert NonBlank(sep);
    forall k | 0 <= k < |lines| ensures Newline !in lines[k] && NonBlank(lines[k]) {
      if k >= 2 {
        assert lines[k] == rows[k - 2];
      }
    }
    assert !IsSpaceTok(Last(Last(lines))) by {
      if |rows| > 0 {
        assert Last(lines) == Last(rows);
      }
    }
    TableLinesOfJoin(lines);
    FilterAllKept(lines, NonBlank);
  }

  /** A written row is one line that starts and ends with `|`. */
  lemma FormatRowLine(cells: seq<seq<Tok>>)
    requires PlainRow(cells)
    ensures var r := FormatRow(cells);
      && Newline !in r && NonBlank(r) && r[0] == Pipe && Last(r) == Pipe
  {
    var r := FormatRow(cells);
    NotInJoin(cells, [Pipe], Newline);
    TrimEmptyIff(r, IsSpaceTok);
  }

  /** Reading written body rows gives them back. */
  lemma RowsCellsFormatted(rows: seq<seq<seq<Tok>>>)
    requires forall k :: 0 <= k < |rows| ==> PlainRow(rows[k])
    ensures RowsCells(FormatRows(rows)) == rows
  {
    var cells := RowsCells(FormatRows(rows));
    forall k | 0 <= k < |rows| ensures cells[k] == rows[k] {
      PlainRowTrimmed(rows[k]);
      ParseFormatRow(rows[k]);
    }
  }

  /** Header cells are wrapped in `<th>`, body cells in `<td>`. */
  datatype CellKind = HeaderCell | BodyCell

  function OpenTag(k: CellKind): Tok {
    match k
    case HeaderCell => Tag("th")
    case BodyCell => Tag("td")
  }

  function CloseTag(k: CellKind): Tok {
    match k
    case HeaderCell => Tag("/th")
    case BodyCell => Tag("/td")
  }

  function CellsHtml(cells: seq<seq<Tok>>, k: CellKind): seq<Tok> {
    if |cells| == 0 then [] else [OpenTag(k)] + cells[0] + [CloseTag(k)] + CellsHtml(cells[1..], k)
  }

  function RowHtml(cells: seq<seq<Tok>>, k: CellKind): seq<Tok> {
    [Tag("tr")] + CellsHtml(cells, k) + [Tag("/tr")]
  }

  function BodyHtml(rows: seq<seq<seq<Tok>>>): seq<Tok> {
    if |rows| == 0 then [] else RowHtml(rows[0], BodyCell) + BodyHtml(rows[1..])
  }

  function TableHtml(t: Table): seq<Tok> {
    [Tag("table"), Tag("thead")] + RowHtml(t.header, HeaderCell) + [Tag("/thead"), Tag("tbody")]
      + BodyHtml(t.body) + [Tag("/tbody"), Tag("/table")]
  }

  /** The replacement of one table block: the block itself when it is not
      a table. */
  function TableBlock(block: seq<Tok>): seq<Tok> {
    match ParseTable(block)
    case None => block
    case Some(t) => TableHtml(t)
  }

  /** A block that is no table is kept, and a clean block gives clean
      HTML. */
  lemma TableBlockClean(block: seq<Tok>)
    ensures ParseTable(block).None? ==> TableBlock(block) == block
    ensures Clean(block) ==> Clean(TableBlock(block))
  {
    if ParseTable(block).Some? {
      TableClean(block, ParseTable(block).value);
    }
  }

  lemma TableClean(block: seq<Tok>, t: Table)
    requires ParseTable(block) == Some(t)
    ensures Clean(block) ==> Clean(TableHtml(t))
  {
    if Clean(block) {
      TableParts(block, t);
      TableLinesClean(block);
      LinesCellsClean(TableLines(block), t);
      TableHtmlClean(t);
    }
  }

  /** The cells read from clean lines are clean. */
  lemma LinesCellsClean(lines: seq<seq<Tok>>, t: Table)
    requires |lines| >= 2 && forall k :: 0 <= k < |lines| ==> Clean(lines[k])
    requires t.header == ParseTableRow(lines[0]) && t.body == RowsCells(lines[2..])
    ensures forall k :: 0 <= k < |t.header| ==> Clean(t.header[k])
    ensures forall k, j :: 0 <= k < |t.body| && 0 <= j < |t.body[k]| ==> Clean(t.body[k][j])
  {
    ParseTableRowClean(lines[0]);
    var rows := lines[2..];
    forall k | 0 <= k < |rows| ensures Clean(rows[k]) {
      assert rows[k] == lines[k + 2];
    }
    RowsCellsClean(rows);
  }

  /** Where the header and the body rows of a table come from. */
  lemma TableParts(block: seq<Tok>, t: Table)
    requires ParseTable(block) == Some(t)
    ensures |TableLines(block)| >= 2
    ensures t.header == ParseTableRow(TableLines(block)[0])
    ensures t.body == RowsCells(TableLines(block)[2..])
  {
  }

  lemma RowsCellsClean(rows: seq<seq<Tok>>)
    requires forall k :: 0 <= k < |rows| ==> Clean(rows[k])
    ensures forall k, j :: 0 <= k < |RowsCells(rows)| && 0 <= j < |RowsCells(rows)[k]| ==> Clean(RowsCells(rows)[k][j])
  {
    var cells := RowsCells(rows);
    forall k, j | 0 <= k < |cells| && 0 <= j < |cells[k]| ensures Clean(cells[k][j]) {
      assert cells[k] == ParseTableRow(rows[k]);
      ParseTableRowClean(rows[k]);
    }
  }

  lemma TableHtmlClean(t: Table)
    requires forall k :: 0 <= k < |t.header| ==> Clean(t.header[k])
    requires forall k, j :: 0 <= k < |t.body| && 0 <= j < |t.body[k]| ==> Clean(t.body[k][j])
    ensures Clean(TableHtml(t))
  {
    RowHtmlClean(t.header, HeaderCell);
    BodyHtmlClean(t.body);
    var open: seq<Tok> := [Tag("table"), Tag("thead")];
    var mid: seq<Tok> := [Tag("/thead"), Tag("tbody")];
    var close: seq<Tok> := [Tag("/tbody"), Tag("/table")];
    assert Clean(open) && Clean(mid) && Clean(close);
    CleanAppend(open, RowHtml(t.header, HeaderCell));
    CleanAppend(open + RowHtml(t.header, HeaderCell), mid);
    CleanAppend(open + RowHtml(t.header, HeaderCell) + mid, BodyHtml(t.body));
    CleanAppend(open + RowHtml(t.header, HeaderCell) + mid + BodyHtml(t.body), close);
  }

  lemma {:induction false} CellsHtmlClean(cells: seq<seq<Tok>>, k: CellKind)
    requires forall i :: 0 <= i < |cells| ==> Clean(cells[i])
    ensures Clean(CellsHtml(cells, k))
  {
    if |cells| > 0 {
      CellsHtmlClean(cells[1..], k);
    }
  }

  lemma RowHtmlClean(cells: seq<seq<Tok>>, k: CellKind)
    requires forall i :: 0 <= i < |cells| ==> Clean(cells[i])
    ensures Clean(RowHtml(cells, k))
  {
    CellsHtmlClean(cells, k);
  }

  lemma {:induction false} BodyHtmlClean(rows: seq<seq<seq<Tok>>>)
    requires forall k, j :: 0 <= k < |rows| && 0 <= j < |rows[k]| ==> Clean(rows[k][j])
    ensures Clean(BodyHtml(rows))
  {
    if |rows| > 0 {
      RowHtmlClean(rows[0], BodyCell);
      BodyHtmlClean(rows[1..]);
    }
  }

  /** A two-column table with two body rows, written line by line, reads
      back as that table: one header row and two body rows of two cells
      each. */
  lemma TwoByTwo(t: Table, sep: seq<Tok>)
    requires |t.header| == 2 && |t.body| == 2 && |t.body[0]| == 2 && |t.body[1]| == 2
    requires PlainRow(t.header) && PlainRow(t.body[0]) && PlainRow(t.body[1])
    requires IsSeparator(sep) && Newline !in sep && |sep| > 0 && Last(sep) == Pipe
    ensures ParseTable(FormatRow(t.header) + [Newline] + sep + [Newline] + FormatRow(t.body[0]) + [Newline] + FormatRow(t.body[1]))
              == Some(t)
  {
    TwoByTwoText(t, sep);
    assert forall k :: 0 <= k < |t.body| ==> PlainRow(t.body[k]);
    ParseTableText(t, sep);
  }

  lemma TwoByTwoText(t: Table, sep: seq<Tok>)
    requires |t.body| == 2
    ensures TableText(t, sep) == FormatRow(t.header) + [Newline] + sep + [Newline] + FormatRow(t.body[0]) + [Newline] + FormatRow(t.body[1])
  {
    var h, a, b := FormatRow(t.header), FormatRow(t.body[0]), FormatRow(t.body[1]);
    assert [FormatRow(t.header), sep] + FormatRows(t.body) == [h, sep, a, b];
    JoinFour(h, sep, a, b, Newline);
  }
}

=== FILE: text.dfy ===
/** Character classes and string operations with JavaScript's meaning:
    `\s` and `String.prototype.trim` use the same whitespace set, and the
    regular-expression `.`, `^` and `$` (with the `m` flag) treat the four
    line terminators alike. */
module Text {
  import Seqs

  /** JavaScript WhiteSpace and LineTerminator code points: the set matched
      by `\s` and removed by `trim()`. */
  predicate IsSpace(c: char) {
    || '\t' <= c <= '\r'
    || c == ' '
    || c == '\U{00A0}'
    || c == '\U{1680}'
    || '\U{2000}' <= c <= '\U{200A}'
    || c == '\U{2028}' || c == '\U{2029}'
    || c == '\U{202F}' || c == '\U{205F}'
    || c == '\U{3000}' || c == '\U{FEFF}'
  }

  /** The characters the regular-expression `.` does not match and after
      which a multiline `^` matches. */
  predicate IsLineTerminator(c: char) {
    c == '\n' || c == '\r' || c == '\U{2028}' || c == '\U{2029}'
  }

  /** `\d`. */
  predicate IsDigit(c: char) {
    '0' <= c <= '9'
  }

  /** `\w`. */
  predicate IsWordChar(c: char) {
    'a' <= c <= 'z' || 'A' <= c <= 'Z' || IsDigit(c) || c == '_'
  }

  /** `s.trim()`. */
  function Trim(s: string): (r: string)
    ensures |r| <= |s|
    ensures |r| > 0 ==> !IsSpace(r[0]) && !IsSpace(r[|r| - 1])
    ensures forall c :: c in r ==> c in s
  {
    Seqs.TrimBy(s, IsSpace)
  }

  /** A string is empty after trimming exactly when it is all whitespace. */
  lemma TrimEmptyIff(s: string)
    ensures Trim(s) == "" <==> forall i :: 0 <= i < |s| ==> IsSpace(s[i])
  {
    Seqs.TrimEmptyIff(s, IsSpace);
  }

  /** Trimming is idempotent. */
  lemma TrimTwice(s: string)
    ensures Trim(Trim(s)) == Trim(s)
  {
    Seqs.TrimmedIsFixed(Trim(s), IsSpace);
  }

  /** Upper-casing of one ASCII letter; every other character is kept. */
  function UpperChar(c: char): char {
    if 'a' <= c <= 'z' then (c as int - 32) as char else c
  }

  /** `s.toUpperCase()` restricted to ASCII letters. */
  function ToUpper(s: string): (r: string)
    ensures |r| == |s|
    ensures forall i :: 0 <= i < |s| ==> r[i] == UpperChar(s[i])
    ensures forall i :: 0 <= i < |r| ==> !('a' <= r[i] <= 'z')
  {
    if |s| == 0 then "" else [UpperChar(s[0])] + ToUpper(s[1..])
  }
}

=== FILE: text_assistant.dfy ===
/** The text assistant's handling of one chat response and of its session
    (accounting.js:172, 179-181, 256-286, 316-323). The response's session
    token is taken over before anything else is checked; the answer message
    is chosen as in the voice assistant, its text is the string fragments
    joined with a newline and trimmed, and it is shown as rendered markdown
    with at most four follow-up prompts. */
module TextAssistant {
  import opened Wrappers
  import opened Seqs
  import Text
  import opened Chat
  import Markdown
  import Stream

  const TextFollowUpLimit: nat := 4

  /** What the page shows for an answer. */
  datatype Shown = Shown(html: string, followUps: seq<string>)

  /** The session token after a response, and the answer or the error. */
  datatype Reply = Reply(session: Option<string>, result: Result<Shown, AnswerError>)

  /** One decoded response, with the session token held before it. */
  function Respond(data: Chunk, session: Option<string>): (r: Reply)
    ensures IsSet(data.sessionToken) ==> r.session == data.sessionToken
    ensures !IsSet(data.sessionToken) ==> r.session == session
    ensures |data.messages| == 0 ==> r.result == Failure(NoResponse)
    ensures r.result.Success? ==> |r.result.value.followUps| <= TextFollowUpLimit
    ensures r.result.Success? ==>
              StartsWith(Prompts(data, SelectMessage(data.messages)), r.result.value.followUps)
    ensures r.result.Success? ==>
              r.result.value.followUps == Take(Prompts(data, SelectMessage(data.messages)), TextFollowUpLimit)
  {
    var token := if IsSet(data.sessionToken) then data.sessionToken else session;
    match SelectMessage(data.messages)
    case None => Reply(token, Failure(NoResponse))
    case Some(m) =>
      var text := MessageText(m, "\n");
      if text == "" then Reply(token, Failure(EmptyAnswer))
      else Reply(token, Success(Shown(Markdown.Render(text), Take(Prompts(data, Some(m)), TextFollowUpLimit))))
  }

  /** A response with messages fails exactly when the string fragments of
      its answer message are all whitespace, and otherwise shows that
      message's text rendered as markdown. */
  lemma RespondAnswer(data: Chunk, session: Option<string>)
    requires |data.messages| > 0
    ensures var m := SelectMessage(data.messages).value;
      && (Respond(data, session).result == Failure(EmptyAnswer) <==>
            forall t :: t in StringTexts(m.fragments) ==> AllSpace(t))
      && (Respond(data, session).result.Success? ==>
            Respond(data, session).result.value.html == Markdown.Render(MessageText(m, "\n")))
  {
    var m := SelectMessage(data.messages).value;
    MessageTextEmptyIff(m, "\n");
  }

  /** The two assistants agree on whether one response has an answer: the
      text assistant's newline joiner and the voice assistant's space
      joiner leave a blank text blank. They differ only in the error named
      for a response without messages. */
  lemma AgreesWithVoice(data: Chunk, session: Option<string>)
    ensures var voice := Stream.Finish(Stream.Reading(Some(Stream.Object(data)), Stream.ChunkText(data)), session);
      && (Respond(data, session).result.Success? <==> voice.Success?)
      && (|data.messages| == 0 ==> voice == Failure(EmptyAnswer))
  {
    if |data.messages| > 0 {
      var m := SelectMessage(data.messages).value;
      VoiceAnswers(data, session);
      TextAnswers(data, session);
      JoinersAgree(m);
    }
  }

  /** The voice assistant answers a lone chunk exactly when its answer
      message's space-joined text is not empty. */
  lemma VoiceAnswers(data: Chunk, session: Option<string>)
    requires |data.messages| > 0
    ensures Stream.Finish(Stream.Reading(Some(Stream.Object(data)), Stream.ChunkText(data)), session).Success? <==>
              MessageText(SelectMessage(data.messages).value, " ") != ""
  {
  }

  /** The text assistant answers a chunk exactly when its answer message's
      newline-joined text is not empty. */
  lemma TextAnswers(data: Chunk, session: Option<string>)
    requires |data.messages| > 0
    ensures Respond(data, session).result.Success? <==>
              MessageText(SelectMessage(data.messages).value, "\n") != ""
  {
  }

  /** A message's text is blank with one joiner exactly when it is blank
      with the other. */
  lemma JoinersAgree(m: Message)
    ensures MessageText(m, "\n") == "" <==> MessageText(m, " ") == ""
  {
    MessageTextEmptyIff(m, "\n");
    MessageTextEmptyIff(m, " ");
  }

  /** The page state the ask button and the session depend on. */
  datatype Page = Page(erp: string, question: string, session: Option<string>)

  datatype PageEvent =
    | ChangeErp(erp: string)
    | TypeQuestion(question: string)
    | NewQuestion
    | Answered(data: Chunk)

  /** The ask button is enabled exactly when an ERP is chosen and the
      question is not blank. */
  predicate AskEnabled(p: Page) {
    p.erp != "" && Text.Trim(p.question) != ""
  }

  function PageStep(p: Page, e: PageEvent): Page {
    match e
    case ChangeErp(erp) => Page(erp, p.question, None)
    case TypeQuestion(q) => p.(question := q)
    case NewQuestion => Page(p.erp, "", None)
    case Answered(data) => p.(session := Respond(data, p.session).session)
  }

  /** A new ERP or a new question starts a fresh conversation, and a new
      question also empties the box, which disables the ask button. */
  lemma FreshConversation(p: Page, erp: string)
    ensures PageStep(p, ChangeErp(erp)).session == None
    ensures PageStep(p, NewQuestion).session == None
    ensures !AskEnabled(PageStep(p, NewQuestion))
  {
  }

  /** Asking is possible exactly when an ERP is chosen and the question has
      a non-whitespace character. */
  lemma AskEnabledIff(p: Page)
    ensures AskEnabled(p) <==> p.erp != "" && exists i :: 0 <= i < |p.question| && !Text.IsSpace(p.question[i])
  {
    Text.TrimEmptyIff(p.question);
  }

  /** A response keeps the conversation going: its token, when it carries
      one, is held even when the response has no answer. */
  lemma TokenBeforeChecks(p: Page, data: Chunk)
    requires IsSet(data.sessionToken)
    ensures PageStep(p, Answered(data)).session == data.sessionToken
  {
  }
}

=== FILE: tickets.dfy ===
/** The ticket form's data shaping (app.js:20-30, 46-49, 60-79, 94, 98):
    the settings are normalised and stored only when all four are present,
    the issue body carries the form's values, and the result is either a
    link to the new ticket or the error the server reported. Reading the
    form, local storage, the request and the page updates are left to the
    browser. */
module Tickets {
  import opened Wrappers
  import opened Seqs
  import Text

  const Http: string := "http://"
  const Https: string := "https://"

  /** `replace(/^https?:\/\//, '')`: one leading scheme is removed. The
      result is a suffix of the input, and it differs from the input
      exactly when the input begins with a scheme. */
  function StripScheme(s: string): (r: string)
    ensures |s| - |Https| <= |r| <= |s| && r == s[|s| - |r|..]
    ensures r != s <==> StartsWith(s, Http) || StartsWith(s, Https)
  {
    if StartsWith(s, Https) then s[|Https|..]
    else if StartsWith(s, Http) then s[|Http|..]
    else s
  }

  /** `replace(/\/$/, '')`: one trailing slash is removed. */
  function StripSlash(s: string): (r: string)
    ensures |r| <= |s| && r == s[..|r|]
    ensures |r| == |s| - 1 <==> |s| > 0 && Last(s) == '/'
    ensures |r| != |s| - 1 ==> r == s
  {
    if |s| > 0 && Last(s) == '/' then s[..|s| - 1] else s
  }

  /** The saved Jira domain: trimmed, without a leading scheme and without
      a trailing slash. */
  function NormalizeDomain(raw: string): (r: string)
    ensures |Text.Trim(raw)| - |Https| - 1 <= |r| <= |Text.Trim(raw)|
  {
    StripSlash(StripScheme(Text.Trim(raw)))
  }

  /** A string that starts and ends with non-whitespace is its own trim. */
  lemma Trimmed(x: string)
    requires |x| > 0 && !Text.IsSpace(x[0]) && !Text.IsSpace(x[|x| - 1])
    ensures Text.Trim(x) == x
  {
    TrimmedIsFixed(x, Text.IsSpace);
  }

  lemma TrimmedAddress(d: string)
    ensures Text.Trim(Https + d + "/") == Https + d + "/"
    ensures Text.Trim(Http + d + "/") == Http + d + "/"
  {
    var s := Https + d + "/";
    var t := Http + d + "/";
    assert s[0] == 'h' && s[|s| - 1] == '/';
    assert t[0] == 'h' && t[|t| - 1] == '/';
    Trimmed(s);
    Trimmed(t);
  }

  lemma StripHttps(d: string)
    ensures StripScheme(Https + d) == d
  {
    var s := Https + d;
    assert s[..|Https|] == Https;
    assert s[|Https|..] == d;
  }

  lemma StripHttp(d: string)
    ensures StripScheme(Http + d) == d
  {
    var t := Http + d;
    assert t[4] == ':' && Https[4] == 's';
    assert t[..|Http|] == Http;
    assert t[|Http|..] == d;
  }

  lemma StripLastSlash(d: string)
    ensures StripSlash(d + "/") == d
  {
    assert (d + "/")[..|d|] == d;
  }

  /** A site address with its scheme and a trailing slash gives back the
      bare domain, whatever the domain is. */
  lemma DomainFromAddress(d: string)
    ensures NormalizeDomain(Https + d + "/") == d
    ensures NormalizeDomain(Http + d + "/") == d
  {
    DomainFromHttps(d);
    DomainFromHttp(d);
  }

  lemma DomainFromHttps(d: string)
    ensures NormalizeDomain(Https + d + "/") == d
  {
    var a := Https + d + "/";
    assert Text.Trim(a) == a by {
      TrimmedAddress(d);
    }
    assert StripScheme(a) == d + "/" by {
      assert a == Https + (d + "/");
      StripHttps(d + "/");
    }
    NormalizedTo(a, d);
  }

  lemma DomainFromHttp(d: string)
    ensures NormalizeDomain(Http + d + "/") == d
  {
    var a := Http + d + "/";
    assert Text.Trim(a) == a by {
      TrimmedAddress(d);
    }
    assert StripScheme(a) == d + "/" by {
      assert a == Http + (d + "/");
      StripHttp(d + "/");
    }
    NormalizedTo(a, d);
  }

  /** A trimmed field whose scheme-less rest is `u` and a slash
      normalises to `u`. */
  lemma NormalizedTo(s: string, u: string)
    requires Text.Trim(s) == s && StripScheme(s) == u + "/"
    ensures NormalizeDomain(s) == u
  {
    StripLastSlash(u);
  }

  /** A domain that is already bare is kept as it is. */
  lemma DomainKept(d: string)
    requires |d| > 0 ==> !Text.IsSpace(d[0]) && !Text.IsSpace(Last(d)) && Last(d) != '/'
    requires !StartsWith(d, Http) && !StartsWith(d, Https)
    ensures NormalizeDomain(d) == d
  {
    TrimmedIsFixed(d, Text.IsSpace);
  }

  /** What is left of a string once its scheme is removed is empty or a
      lone slash exactly when the string was a scheme, a slash, or both. */
  lemma SchemeOnly(t: string)
    ensures StripScheme(t) == "" <==> t in [ "", Http, Https ]
    ensures StripScheme(t) == "/" <==> t in [ "/", Http + "/", Https + "/" ]
  {
    var u := StripScheme(t);
    StripHttps("");
    StripHttps("/");
    StripHttp("");
    StripHttp("/");
    assert Https + "" == Https && Http + "" == Http;
    if StartsWith(t, Https) {
      assert t == Https + u;
    } else if StartsWith(t, Http) {
      assert t == Http + u;
    }
  }

  /** Removing a trailing slash leaves nothing exactly from nothing or a
      lone slash. */
  lemma SlashOnly(u: string)
    ensures StripSlash(u) == "" <==> u in [ "", "/" ]
  {
    if |u| == 1 {
      assert u == [u[0]];
    }
  }

  /** The domain is missing exactly when the trimmed field holds nothing
      but a scheme and a slash, each optional. */
  lemma DomainEmptyIff(raw: string)
    ensures NormalizeDomain(raw) == "" <==>
              Text.Trim(raw) in [ "", "/", Http, Https, Http + "/", Https + "/" ]
  {
    BareEmptyIff(Text.Trim(raw));
  }

  lemma BareEmptyIff(t: string)
    ensures StripSlash(StripScheme(t)) == "" <==> t in [ "", "/", Http, Https, Http + "/", Https + "/" ]
  {
    SchemeOnly(t);
    SlashOnly(StripScheme(t));
  }

  /** The saved project key: trimmed and upper-cased. */
  function ProjectKey(raw: string): (r: string)
    ensures |r| <= |raw|
    ensures forall i :: 0 <= i < |r| ==> !('a' <= r[i] <= 'z')
    ensures r == "" <==> Text.Trim(raw) == ""
  {
    Text.ToUpper(Text.Trim(raw))
  }

  lemma UpperKeepsSpace(c: char)
    ensures Text.IsSpace(Text.UpperChar(c)) == Text.IsSpace(c)
  {
  }

  /** Upper-casing a string without lower-case letters changes nothing. */
  lemma UpperFixed(k: string)
    requires forall i :: 0 <= i < |k| ==> !('a' <= k[i] <= 'z')
    ensures Text.ToUpper(k) == k
  {
  }

  /** Upper-casing keeps a trimmed string trimmed. */
  lemma UpperTrimmed(t: string)
    requires |t| > 0 ==> !Text.IsSpace(t[0]) && !Text.IsSpace(t[|t| - 1])
    ensures Text.Trim(Text.ToUpper(t)) == Text.ToUpper(t)
  {
    if |t| > 0 {
      UpperKeepsSpace(t[0]);
      UpperKeepsSpace(t[|t| - 1]);
    }
    TrimmedIsFixed(Text.ToUpper(t), Text.IsSpace);
  }

  lemma KeyIsFixed(k: string)
    requires Text.Trim(k) == k
    requires forall i :: 0 <= i < |k| ==> !('a' <= k[i] <= 'z')
    ensures ProjectKey(k) == k
  {
    UpperFixed(k);
  }

  /** Normalising a saved project key again changes nothing. */
  lemma ProjectKeyStable(raw: string)
    ensures ProjectKey(ProjectKey(raw)) == ProjectKey(raw)
  {
    KeyTrimmed(raw);
    KeyIsFixed(ProjectKey(raw));
  }

  lemma KeyTrimmed(raw: string)
    ensures Text.Trim(ProjectKey(raw)) == ProjectKey(raw)
  {
    UpperTrimmed(Text.Trim(raw));
  }

  datatype Settings = Settings(domain: string, email: string, token: string, project: string)

  const MissingFields: string := "Please fill in all settings fields."

  /** The save button: every field is normalised, and the settings are
      stored only when none of them is empty afterwards. */
  function SaveSettings(domain: string, email: string, token: string, project: string): (r: Result<Settings, string>)
    ensures r.Success? <==>
              NormalizeDomain(domain) != "" && Text.Trim(email) != "" &&
              Text.Trim(token) != "" && Text.Trim(project) != ""
    ensures r.Success? ==> r.value == Settings(NormalizeDomain(domain), Text.Trim(email), Text.Trim(token), ProjectKey(project))
    ensures r.Failure? ==> r.error == MissingFields
  {
    var s := Settings(NormalizeDomain(domain), Text.Trim(email), Text.Trim(token), ProjectKey(project));
    if s.domain == "" || s.email == "" || s.token == "" || s.project == "" then Failure(MissingFields)
    else Success(s)
  }

  /** The settings are stored exactly when the email, the token and the
      project each have a non-whitespace character and the domain is more
      than a scheme and a slash. */
  lemma SaveSettingsIff(domain: string, email: string, token: string, project: string)
    ensures SaveSettings(domain, email, token, project).Success? <==>
              && Text.Trim(domain) !in [ "", "/", Http, Https, Http + "/", Https + "/" ]
              && (exists i :: 0 <= i < |email| && !Text.IsSpace(email[i]))
              && (exists i :: 0 <= i < |token| && !Text.IsSpace(token[i]))
              && (exists i :: 0 <= i < |project| && !Text.IsSpace(project[i]))
  {
    DomainEmptyIff(domain);
    Text.TrimEmptyIff(email);
    Text.TrimEmptyIff(token);
    Text.TrimEmptyIff(project);
  }

  /** Saving the stored email, token and project again keeps them. */
  lemma SavedFieldsStable(domain: string, email: string, token: string, project: string)
    requires SaveSettings(domain, email, token, project).Success?
    ensures var s := SaveSettings(domain, email, token, project).value;
      && Text.Trim(s.email) == s.email
      && Text.Trim(s.token) == s.token
      && ProjectKey(s.project) == s.project
  {
    Text.TrimTwice(email);
    Text.TrimTwice(token);
    ProjectKeyStable(project);
  }

  /** The Atlassian document the description travels in: one paragraph of
      text nodes. */
  datatype TextNode = TextNode(text: string)
  datatype Paragraph = Paragraph(content: seq<TextNode>)
  datatype Doc = Doc(version: nat, content: seq<Paragraph>)

  /** The `fields` object of the create-issue request. */
  datatype IssueFields = IssueFields(
    projectKey: string, summary: string, issueType: string, priority: string, description: Doc)

  /** The request body for the form's values and the stored settings; the
      summary and the description are trimmed first. */
  function IssueBody(s: Settings, summary: string, description: string, issueType: string, priority: string): (b: IssueFields)
    ensures b.projectKey == s.project && b.issueType == issueType && b.priority == priority
    ensures b.summary == Text.Trim(summary)
    ensures b.description.version == 1 && |b.description.content| == 1
    ensures |b.description.content[0].content| <= 1
  {
    var d := Text.Trim(description);
    IssueFields(s.project, Text.Trim(summary), issueType, priority,
      Doc(1, [Paragraph(if d != "" then [TextNode(d)] else [])]))
  }

  /** The text a document holds: its text nodes in order. */
  function DocText(d: Doc): string
    decreases |d.content|
  {
    if |d.content| == 0 then "" else ParagraphText(d.content[0].content) + DocText(Doc(d.version, d.content[1..]))
  }

  function ParagraphText(nodes: seq<TextNode>): string {
    if |nodes| == 0 then "" else nodes[0].text + ParagraphText(nodes[1..])
  }

  lemma DocOfOne(d: string)
    ensures DocText(Doc(1, [Paragraph(if d != "" then [TextNode(d)] else [])])) == d
  {
    var doc := Doc(1, [Paragraph(if d != "" then [TextNode(d)] else [])]);
    assert doc.content[1..] == [];
    assert DocText(Doc(1, [])) == "";
    assert ParagraphText([TextNode(d)]) == d + ParagraphText([]);
  }

  /** The document carries exactly the trimmed description, and a blank
      description gives a paragraph with no text node at all. */
  lemma IssueBodyDescription(s: Settings, summary: string, description: string, issueType: string, priority: string)
    ensures var b := IssueBody(s, summary, description, issueType, priority);
      && DocText(b.description) == Text.Trim(description)
      && (b.description.content[0].content == [] <==>
            forall i :: 0 <= i < |description| ==> Text.IsSpace(description[i]))
  {
    DocOfOne(Text.Trim(description));
    Text.TrimEmptyIff(description);
  }

  /** The link to a created ticket. */
  function TicketUrl(domain: string, key: string): (r: string)
    ensures StartsWith(r, Https)
  {
    Https + domain + "/browse/" + key
  }

  /** The text after the last slash of an address. */
  function LastSegment(url: string): string {
    match LastIndexOf(url, '/')
    case None => url
    case Some(i) => url[i + 1..]
  }

  /** The key can be read back from the link when it has no slash, and the
      domain follows the scheme. */
  lemma TicketUrlParts(domain: string, key: string)
    requires '/' !in key
    ensures LastSegment(TicketUrl(domain, key)) == key
    ensures TicketUrl(domain, key)[|Https|..|Https| + |domain|] == domain
  {
    var prefix := Https + domain + "/browse/";
    assert Last(prefix) == '/';
    LastSegmentAfter(prefix, key);
    DomainInUrl(domain, "/browse/" + key);
    assert TicketUrl(domain, key) == Https + domain + ("/browse/" + key);
  }

  /** After a slash, a text without slashes is the last segment. */
  lemma LastSegmentAfter(prefix: string, key: string)
    requires |prefix| > 0 && Last(prefix) == '/' && '/' !in key
    ensures LastSegment(prefix + key) == key
  {
    var r := prefix + key;
    var i := |prefix| - 1;
    assert r[i] == '/';
    assert r[i + 1..] == key;
  }

  lemma DomainInUrl(domain: string, rest: string)
    ensures (Https + domain + rest)[|Https|..|Https| + |domain|] == domain
  {
  }

  /** The error shown for a refused request: the server's error messages
      joined with a comma when that gives any text, else the serialised
      `errors` object when there is one, else a fixed text. `errors` is
      given as its JSON text. */
  function ErrorMessage(errorMessages: Option<seq<string>>, errors: Option<string>): (r: string)
    ensures r != ""
    ensures errorMessages.Some? && Join(errorMessages.value, ", ") != "" ==> r == Join(errorMessages.value, ", ")
    ensures (errorMessages.None? || Join(errorMessages.value, ", ") == "") && errors.Some? && errors.value != "" ==>
              r == errors.value
    ensures (errorMessages.None? || Join(errorMessages.value, ", ") == "") && (errors.None? || errors.value == "") ==>
              r == "Unknown error"
  {
    if errorMessages.Some? && Join(errorMessages.value, ", ") != "" then Join(errorMessages.value, ", ")
    else if errors.Some? && errors.value != "" then errors.value
    else "Unknown error"
  }

  /** Joining gives no text exactly when there is at most one message and
      it is empty. */
  lemma JoinEmptyIff(ms: seq<string>)
    ensures Join(ms, ", ") == "" <==> |ms| == 0 || (|ms| == 1 && ms[0] == "")
  {
    if |ms| >= 2 {
      assert |Join(ms, ", ")| >= 2;
    }
  }

  /** The server's messages win whenever there are two of them or a
      non-empty one; an empty list or one empty message falls through to
      the `errors` object as if no list had been sent. */
  lemma ErrorMessageChoice(ms: seq<string>, errors: Option<string>)
    ensures |ms| >= 2 || (|ms| == 1 && ms[0] != "") ==>
              ErrorMessage(Some(ms), errors) == Join(ms, ", ")
    ensures |ms| == 0 || (|ms| == 1 && ms[0] == "") ==>
              ErrorMessage(Some(ms), errors) == ErrorMessage(None, errors)
    ensures errors.Some? && errors.value != "" ==> ErrorMessage(None, errors) == errors.value
    ensures errors.None? || errors.value == "" ==> ErrorMessage(None, errors) == "Unknown error"
  {
    JoinEmptyIff(ms);
  }
}

=== FILE: voice_machine.dfy ===
/** The voice assistant's controls as a state machine (voice.js:86-119,
    134-172, 321-324, 332, 359-360, 390-427). The page is in one of four
    phases; the browser's events and the two buttons move it between them,
    and the visible controls are derived from the phase alone. The browser
    APIs become effects the handler asks for. */
module VoiceMachine {
  import opened Wrappers
  import Text

  datatype Phase = Idle | Listening | Thinking | Speaking

  /** The handler's variables: the phase and the final transcript gathered
      by the current recognition. */
  datatype Voice = Voice(phase: Phase, finalTranscript: string)

  const Initial: Voice := Voice(Idle, "")

  /** One recognition result: its best transcript and whether it is final. */
  datatype Alternative = Alternative(transcript: string, isFinal: bool)

  datatype Event =
    | MicClick(recognitionAvailable: bool)
    | StopClick
    | RecognitionStart
    | RecognitionResult(results: seq<Alternative>)
    | RecognitionError(error: string)
    | RecognitionEnd(tokenSaved: bool)
    | AskFailed(aborted: bool, message: string)
    | AnswerReady(speech: string)
    | SpeechEnd

  /** What a handler asks of the browser. */
  datatype Effect =
    | StartRecognition
    | StopRecognition
    | CancelSpeech
    | AbortRequest
    | Ask(question: string)
    | Speak(text: string)
    | ShowError(message: string)
    | ShowTranscript(text: string)

  datatype Outcome = Outcome(next: Voice, effects: seq<Effect>)

  const UnsupportedMessage: string :=
    "Speech recognition is not supported in this browser. Please use Chrome or Edge."
  const NoTokenMessage: string := "No Glean API token found. Open settings and paste your token."

  /** The message for a recognition error: a known code's own text, else a
      generic one naming the code. */
  function RecognitionErrorMessage(error: string): (m: string)
    ensures error != "no-speech" && error != "not-allowed" && error != "network" ==>
              m == "Speech recognition error: " + error
  {
    if error == "no-speech" then "No speech detected. Please try again."
    else if error == "not-allowed" then "Microphone access denied. Please allow access in your browser settings."
    else if error == "network" then "Network error during speech recognition. Check your connection."
    else "Speech recognition error: " + error
  }

  /** The final parts of a batch of results, in order. */
  function FinalText(results: seq<Alternative>): string {
    if |results| == 0 then ""
    else (if results[0].isFinal then results[0].transcript else "") + FinalText(results[1..])
  }

  /** The interim parts of a batch of results, in order. */
  function InterimText(results: seq<Alternative>): string {
    if |results| == 0 then ""
    else (if results[0].isFinal then "" else results[0].transcript) + InterimText(results[1..])
  }

  /** The transcript shown while listening: the final text, then the
      interim text after a space when there is any, trimmed. */
  function ShownTranscript(final: string, interim: string): string {
    Text.Trim(final + (if interim != "" then " " + interim else ""))
  }

  /** `askGlean` up to the request: the phase becomes thinking, and without
      a saved token it falls back to idle with an error. */
  function BeginAsk(v: Voice, question: string, tokenSaved: bool): Outcome {
    if tokenSaved then Outcome(v.(phase := Thinking), [Ask(question)])
    else Outcome(v.(phase := Idle), [ShowError(NoTokenMessage)])
  }

  /** One event. */
  function Step(v: Voice, e: Event): Outcome {
    match e
    case MicClick(available) =>
      if v.phase != Idle then Outcome(v, [])
      else if !available then Outcome(v, [ShowError(UnsupportedMessage)])
      else Outcome(v, [StartRecognition])
    case StopClick =>
      (match v.phase
       case Listening => Outcome(v, [StopRecognition])
       case Speaking => Outcome(v.(phase := Idle), [CancelSpeech])
       case Thinking => Outcome(v.(phase := Idle), [AbortRequest])
       case Idle => Outcome(v, []))
    case RecognitionStart =>
      Outcome(Voice(Listening, ""), [ShowTranscript("")])
    case RecognitionResult(results) =>
      var final := v.finalTranscript + FinalText(results);
      Outcome(v.(finalTranscript := final), [ShowTranscript(ShownTranscript(final, InterimText(results)))])
    case RecognitionError(error) =>
      Outcome(v.(phase := Idle), [ShowError(RecognitionErrorMessage(error))])
    case RecognitionEnd(tokenSaved) =>
      var question := Text.Trim(v.finalTranscript);
      if question != "" && v.phase == Listening then BeginAsk(v, question, tokenSaved)
      else if v.phase == Listening then Outcome(v.(phase := Idle), [])
      else Outcome(v, [])
    case AskFailed(aborted, message) =>
      if aborted then Outcome(v, [])
      else Outcome(v.(phase := Idle), [ShowError(message)])
    case AnswerReady(speech) =>
      Outcome(v.(phase := Speaking), [Speak(speech)])
    case SpeechEnd =>
      Outcome(v.(phase := Idle), [])
  }

  /** What `setState` shows for a phase. */
  datatype View = View(status: string, micHidden: bool, stopHidden: bool, hintHidden: bool)

  function ViewOf(p: Phase): View {
    match p
    case Idle => View("Tap the mic to ask a question", false, true, false)
    case Listening => View("Listening…", true, false, true)
    case Thinking => View("Thinking…", true, false, true)
    case Speaking => View("Speaking…", true, false, true)
  }

  /** The mic button and the hint show exactly when idle, the stop button
      exactly when not, and each phase has its own status line. */
  lemma Visibility(p: Phase, q: Phase)
    ensures !ViewOf(p).micHidden <==> p == Idle
    ensures !ViewOf(p).stopHidden <==> p != Idle
    ensures ViewOf(p).hintHidden == ViewOf(p).micHidden
    ensures ViewOf(p).status == ViewOf(q).status ==> p == q
  {
  }

  /** The mic does something only when idle, and what it does is start a
      recognition or report that there is none; it never changes the
      phase. */
  lemma MicOnlyFromIdle(v: Voice, available: bool)
    ensures Step(v, MicClick(available)).next == v
    ensures StartRecognition in Step(v, MicClick(available)).effects <==> v.phase == Idle && available
    ensures v.phase != Idle ==> Step(v, MicClick(available)).effects == []
  {
  }

  /** Stop while speaking or thinking returns to idle, cancelling the speech
      or aborting the request; stop while listening only stops the
      recognition, whose end event then decides. */
  lemma StopTransitions(v: Voice)
    ensures v.phase == Speaking || v.phase == Thinking ==> Step(v, StopClick).next.phase == Idle
    ensures AbortRequest in Step(v, StopClick).effects <==> v.phase == Thinking
    ensures CancelSpeech in Step(v, StopClick).effects <==> v.phase == Speaking
    ensures v.phase == Listening ==> Step(v, StopClick) == Outcome(v, [StopRecognition])
    ensures v.phase == Idle ==> Step(v, StopClick) == Outcome(v, [])
  {
  }

  /** The end of a recognition while listening asks the trimmed transcript
      exactly when it is not blank, and otherwise returns to idle; outside
      listening it does nothing. */
  lemma EndOfListening(v: Voice)
    requires v.phase == Listening
    ensures Step(v, RecognitionEnd(true)).next.phase == Thinking <==>
              exists i :: 0 <= i < |v.finalTranscript| && !Text.IsSpace(v.finalTranscript[i])
    ensures Step(v, RecognitionEnd(true)).next.phase == Thinking ==>
              Step(v, RecognitionEnd(true)).effects == [Ask(Text.Trim(v.finalTranscript))]
    ensures Text.Trim(v.finalTranscript) == "" ==> Step(v, RecognitionEnd(true)) == Outcome(v.(phase := Idle), [])
    ensures Step(v, RecognitionEnd(false)).next.phase == Idle
  {
    Text.TrimEmptyIff(v.finalTranscript);
  }

  lemma EndOutsideListening(v: Voice, tokenSaved: bool)
    requires v.phase != Listening
    ensures Step(v, RecognitionEnd(tokenSaved)) == Outcome(v, [])
  {
  }

  /** A cancelled request changes nothing; any other failure reports its
      message and returns to idle. */
  lemma AskFailure(v: Voice, aborted: bool, message: string)
    ensures aborted ==> Step(v, AskFailed(aborted, message)) == Outcome(v, [])
    ensures !aborted ==> Step(v, AskFailed(aborted, message)).next.phase == Idle
    ensures !aborted ==> ShowError(message) in Step(v, AskFailed(aborted, message)).effects
  {
  }

  /** Recognition results only gather the final transcript: the phase is
      kept, and earlier final text is extended, never replaced. */
  lemma ResultsExtendTranscript(v: Voice, results: seq<Alternative>)
    ensures Step(v, RecognitionResult(results)).next.phase == v.phase
    ensures var t := Step(v, RecognitionResult(results)).next.finalTranscript;
      |v.finalTranscript| <= |t| && t[..|v.finalTranscript|] == v.finalTranscript
  {
  }

  /** A batch of results with no final part leaves the final transcript as
      it was. */
  lemma {:induction false} InterimOnly(results: seq<Alternative>)
    requires forall i :: 0 <= i < |results| ==> !results[i].isFinal
    ensures FinalText(results) == ""
    ensures InterimText(results) == TranscriptsOf(results)
  {
    if |results| > 0 {
      InterimOnly(results[1..]);
    }
  }

  /** All transcripts of a batch, in order. */
  function TranscriptsOf(results: seq<Alternative>): string {
    if |results| == 0 then "" else results[0].transcript + TranscriptsOf(results[1..])
  }

  /** Events in order, from a state. */
  function Run(v: Voice, events: seq<Event>): (r: Outcome)
    decreases |events|
  {
    if |events| == 0 then Outcome(v, [])
    else
      var first := Step(v, events[0]);
      var rest := Run(first.next, events[1..]);
      Outcome(rest.next, first.effects + rest.effects)
  }

  /** A question worth asking: trimmed and not blank. */
  predicate Askable(q: string) {
    q != "" && Text.Trim(q) == q
  }

  /** Whatever the events, every question the machine asks is the trimmed,
      non-blank transcript, and every request is asked while the machine
      moves to thinking. */
  lemma {:induction false} AskedQuestionsAreAskable(v: Voice, events: seq<Event>)
    ensures forall i :: 0 <= i < |Run(v, events).effects| && Run(v, events).effects[i].Ask? ==>
              Askable(Run(v, events).effects[i].question)
    decreases |events|
  {
    if |events| > 0 {
      var first := Step(v, events[0]);
      StepAsksAskable(v, events[0]);
      AskedQuestionsAreAskable(first.next, events[1..]);
      var rest := Run(first.next, events[1..]);
      var all := first.effects + rest.effects;
      forall i | 0 <= i < |all| && all[i].Ask? ensures Askable(all[i].question) {
        if i >= |first.effects| {
          assert all[i] == rest.effects[i - |first.effects|];
        }
      }
    }
  }

  lemma StepAsksAskable(v: Voice, e: Event)
    ensures forall i :: 0 <= i < |Step(v, e).effects| && Step(v, e).effects[i].Ask? ==>
              Askable(Step(v, e).effects[i].question) && Step(v, e).next.phase == Thinking
  {
    match e
    case RecognitionEnd(tokenSaved) =>
      EndAsksTranscript(v, tokenSaved);
      if Text.Trim(v.finalTranscript) != "" {
        TrimmedAskable(v.finalTranscript);
      }
    case _ => OthersAskNothing(v, e);
  }

  /** Only the end of a recognition asks anything. */
  lemma OthersAskNothing(v: Voice, e: Event)
    requires !e.RecognitionEnd?
    ensures forall i :: 0 <= i < |Step(v, e).effects| ==> !Step(v, e).effects[i].Ask?
  {
    if e.RecognitionResult? {
      ResultsAskNothing(v, e.results);
    }
  }

  /** The end of a recognition asks only the trimmed transcript, only when
      it is not blank, and only while moving to thinking. */
  lemma EndAsksTranscript(v: Voice, tokenSaved: bool)
    ensures var o := Step(v, RecognitionEnd(tokenSaved));
      && (v.phase == Listening && tokenSaved && Text.Trim(v.finalTranscript) != "" ==>
            o.effects == [Ask(Text.Trim(v.finalTranscript))] && o.next.phase == Thinking)
      && (!(v.phase == Listening && tokenSaved && Text.Trim(v.finalTranscript) != "") ==>
            forall i :: 0 <= i < |o.effects| ==> !o.effects[i].Ask?)
  {
  }

  lemma TrimmedAskable(s: string)
    requires Text.Trim(s) != ""
    ensures Askable(Text.Trim(s))
  {
    Text.TrimTwice(s);
  }

  /** Recognition results only show the transcript; they ask nothing. */
  lemma ResultsAskNothing(v: Voice, results: seq<Alternative>)
    ensures var o := Step(v, RecognitionResult(results));
      forall i :: 0 <= i < |o.effects| ==> o.effects[i].ShowTranscript?
  {
  }

  /** Recognition is started only from idle: in any run, each start request
      comes from a mic click made while idle. */
  lemma StartOnlyFromIdle(v: Voice, e: Event)
    ensures StartRecognition in Step(v, e).effects <==> v.phase == Idle && e.MicClick? && e.recognitionAvailable
  {
  }
}

=== FILE: wrappers.dfy ===
/** Optional values and results with an error, used wherever the source
    tests for `undefined`/`null` or throws. */
module Wrappers {

  datatype Option<+T> = None | Some(value: T)

  datatype Result<+R, +E> = Success(value: R) | Failure(error: E)
}
